=== FILE: README.md ===
# Notification delivery engine, modelled in Dafny

This project models the notification delivery engine of the Notification
Service backend, together with the validators and normalisers around it.
The database is an immutable `Store`, defined in `domain.dfy`:

- users are a sequence, in directory order;
- preferences, campaigns, newsletter categories, articles and orders are maps;
- subscriptions and the notification log are sequences.

Every handler is a pure function from a store and a request to a new store
and an HTTP-shaped reply. A Prisma `$transaction` is one atomic store update.
The scheduler tick is a method that loops over the due campaigns.

The modules follow the source files:

| module | file | models |
|---|---|---|
| `CampaignDelivery` | `delivery.dfy` | `deliverCampaignNow`: recipients, per-channel fan-out, atomic log + status commit, error codes |
| `CampaignScheduler` | `scheduler.dfy` | `runOnce` (due selection, compare-and-set claim, reconciliation) and the `started` guard |
| `Campaigns` | `campaigns.dfy` | `createCampaign`, `getCampaigns`, `updateCampaign` and the legacy `sendCampaign` |
| `CityFilters` | `city_filters.dfy` | `normalizeCityFilters` |
| `Cities` | `cities.dfy` | `isValidCity`, `areValidCities` over the city list |
| `Newsletters` | `newsletters.dfy` | categories, articles, `publishArticle`, the draft recipient preview, subscribe / unsubscribe |
| `Orders` | `orders.dfy` | `createOrder`, `updateOrderStatus` and the two order lists |
| `Preferences` | `preferences.dfy` | `getPreferences`, `updatePreferences` |
| `Users` | `users.dfy` | `getUsers`, `getUserOptions`, `updateMe`, `changeMyPassword`, `updateUser`, `deleteUser` |
| `Logs` | `logs.dfy` | `getLogs`, `getMyNotifications`, `getMyStats` |
| `Auth` | `auth.dfy` | `isTokenExpired`, `normalizeRole`, `getRoleHomePath` of the frontend |

The shared modules are:

- `Pagination`: the page and limit clamping that every list handler repeats, modelled once.
- `Filters`: the `"all"`-or-exact query parameters and the whole-day date range.
- `Domain`: the entities, the query `Select`/`Filter`, and the per-channel fan-out that delivery, publishing and orders share.
- `Text`: `trim`, ASCII `toLowerCase` and `split`.
- `Json`: JavaScript values where a handler switches on `typeof`.
- `Http`, `Wrappers`, `Seqs`, `Sorting`: small supporting modules.

Nondeterminism and foreign code become parameters:

- the clock (`now`);
- fresh ids (`newId`);
- a store fault (`fault`, `logFault`, or the scheduler's `failing` set);
- `JSON.parse` (`parseJson`);
- `new Date(text).getTime()` (`parse`);
- the password hashing library (`verify`, `hash`).

### Behaviour worth knowing


- The "send now" action is the legacy `sendCampaign`, not `deliverCampaignNow` with a draft-only status list. In the code, the service's only caller is the scheduler. So sending now keys eligibility on the legacy `preference[notification_type]` flag. It writes channel-less rows and accepts a campaign in any status (`Campaigns.LegacyResendRepeats`, `Campaigns.LegacyDiffersFromService`).
- No code keeps the legacy flags equal to the OR of the channel flags, and the model does not assume it. `updatePreferences` writes only the legacy flags (`Preferences.ChannelsUntouched`).
- `updateMe` turns a `null` field into the text `"null"`; see Findings.
- `createOrder` checks the amount before parsing it, so a text such as "-5x" is stored as -5; see Findings.

## Model

| member | source | states |
|---|---|---|
| CampaignDelivery.Recipients | backend/services/campaignDeliveryService.js:26-48 | a user is a recipient iff active, inside the city list when it is non-empty, and with at least one offers channel on; ids stay unique |
| CampaignDelivery.EligibleReachable | backend/services/campaignDeliveryService.js:30-37 | every recipient has at least one enabled offers channel |
| CampaignDelivery.DeliverCampaignNow | backend/services/campaignDeliveryService.js:3-101 | a missing campaign gives CAMPAIGN_NOT_FOUND and a status outside an `allowedStatuses` array gives CAMPAIGN_STATUS_NOT_DELIVERABLE, both errors returning no new store; the call succeeds iff the campaign exists, its status is allowed, and the transaction does not throw while there are recipients, a thrown transaction being STORE_FAULT; recipients = eligible users, logCount = enabled channels, recipients <= logCount <= 3 * recipients; zero recipients leaves the store as it was; otherwise the rows are appended and the campaign becomes sent with no schedule, nothing else changing; every new row is a success row of this campaign at `now` for a recipient |
| CampaignDelivery.RowsCount | backend/services/campaignDeliveryService.js:57-100 | the rows number exactly the enabled channels, between one and three per recipient |
| CampaignDelivery.RowsShape | backend/services/campaignDeliveryService.js:54-86 | every row has status success, the shared time, a channel, the campaign as its only source and a recipient's id |
| CampaignDelivery.CommitFacts | backend/services/campaignDeliveryService.js:92-98 | the commit keeps the old log as a prefix, appends exactly the rows and changes nothing but the log and the campaign |
| CampaignDelivery.RowsPerUser | backend/services/campaignDeliveryService.js:57-86 | per user, the new rows are exactly the user's enabled offers channels in push, email, sms order when the user is eligible, and none otherwise |
| CampaignDelivery.NoCityListMeansAllCities | backend/services/campaignDeliveryService.js:26-33 | a null or empty city list means every city, not none |
| CampaignDelivery.NotificationTypeIgnored | backend/services/campaignDeliveryService.js:29-48 | changing the campaign's notification_type changes neither the recipients nor the rows |
| CampaignDelivery.NoSecondDelivery | backend/services/campaignDeliveryService.js:20-24 | once delivered (status sent), a delivery restricted to other statuses is refused |
| CampaignScheduler.DueIds | backend/jobs/campaignScheduler.js:10-15 | a campaign is due iff scheduled with a scheduled_at no later than now |
| CampaignScheduler.MinimumExists | backend/jobs/campaignScheduler.js:16 | every non-empty set of campaigns has one with the earliest scheduled_at |
| CampaignScheduler.SelectDue | backend/jobs/campaignScheduler.js:10-18 | the batch is min(50, due count) distinct due campaigns in ascending scheduled_at, none later than a due campaign left out |
| CampaignScheduler.ChooseNext | backend/jobs/campaignScheduler.js:16-17 | moving an earliest remaining campaign into the batch keeps the selection ordered and complete |
| CampaignScheduler.Claim | backend/jobs/campaignScheduler.js:22-27 | the claim succeeds iff the campaign exists and is still scheduled, then sets it sending; otherwise nothing changes |
| CampaignScheduler.ClaimExclusive | backend/jobs/campaignScheduler.js:21-27 | of two claims of the same campaign at most one succeeds |
| CampaignScheduler.Release | backend/jobs/campaignScheduler.js:37-40 | a release applies only while the campaign is sending, and touches nothing else |
| CampaignScheduler.DeliverClaimed | backend/jobs/campaignScheduler.js:29-53 | after a claim: an error puts the campaign back to scheduled with its schedule kept, zero recipients to draft with the schedule cleared, a delivery to sent |
| CampaignScheduler.ProcessOne | backend/jobs/campaignScheduler.js:20-54 | one iteration skips a campaign that is no longer scheduled and otherwise settles it as delivered, unlocked or retried; other campaigns and non-campaign state are unchanged; new rows belong to this campaign |
| CampaignScheduler.NoDoubleSend | backend/jobs/campaignScheduler.js:21-27 | a campaign delivered by one tick is skipped by the next |
| CampaignScheduler.CampaignStep | backend/jobs/campaignScheduler.js:20-54 | one iteration keeps the loop invariant that every processed campaign is settled and the others are untouched |
| CampaignScheduler.ProcessBatch | backend/jobs/campaignScheduler.js:20-54 | after the loop, no campaign of the batch is left sending; campaigns outside it are unchanged; a retry happens only on an error; the log only grows, with rows of batch campaigns |
| CampaignScheduler.LogsExtend | backend/jobs/campaignScheduler.js:29-41 | appending one campaign's rows keeps the old log as a prefix and the origin of every new row |
| CampaignScheduler.RunOnce | backend/jobs/campaignScheduler.js:7-55 | a tick selects the due batch and leaves every claimed campaign sent, draft or scheduled, never sending; other campaigns are unchanged; the log only grows, and every new row belongs to a campaign of the due batch |
| CampaignScheduler.ProcessOneFaulty | backend/jobs/campaignScheduler.js:20-54 | with the claim and release writes able to throw: a throwing claim aborts the tick with nothing written; any other abort is a throwing revert and leaves the campaign claimed as sending; an iteration that goes on never leaves a claimed campaign sending, and a retry puts it back to scheduled |
| CampaignScheduler.FaultFreeIsProcessOne | backend/jobs/campaignScheduler.js:20-54 | with no write throwing, the faulty iteration is the plain one |
| CampaignScheduler.StuckInSending | backend/jobs/campaignScheduler.js:42-53 | a failed delivery followed by a throwing revert ends the tick with the campaign stuck in sending |
| CampaignScheduler.StartCron | backend/jobs/campaignScheduler.js:57-61 | a second start registers nothing and the flag ends set |
| CampaignScheduler.StartIdempotent | backend/jobs/campaignScheduler.js:57-59 | any number of further starts leaves a started scheduler as it is |
| CampaignScheduler.RegisteredOnce | backend/jobs/campaignScheduler.js:57-61 | n >= 1 starts register exactly one cron job |
| CityFilters.CleanEntries | backend/controllers/campaignController.js:22-24 | no more entries than the input, each trimmed and non-empty; a single entry cleans to its trimmed string, or to nothing when that is empty or the entry is not a string |
| CityFilters.CleanEntriesAppend | backend/controllers/campaignController.js:22-24 | cleaning works entry by entry and keeps the order: a concatenation cleans to the two cleaned parts in sequence |
| CityFilters.CleanEntriesMembers | backend/controllers/campaignController.js:22-24 | a name is a cleaned entry iff it is non-empty and is the trimmed form of some string entry |
| CityFilters.DedupeFrom | backend/controllers/campaignController.js:26-35 | the loop keeps only entries whose lower-cased key is new; kept keys are distinct |
| CityFilters.NormalizeCityFilters | backend/controllers/campaignController.js:3-37 | null and undefined give null, a blank string gives [], a non-array after parsing or comma-splitting is the error "city_filters must be an array of city names"; entries are trimmed, non-empty and distinct ignoring case |
| CityFilters.FirstKeyIndex | backend/controllers/campaignController.js:29-34 | the position of the first entry with a given key, which holds that key and has none before it |
| CityFilters.DedupeComplete | backend/controllers/campaignController.js:29-35 | every key of the input not already seen is kept |
| CityFilters.DedupeFirstSpelling | backend/controllers/campaignController.js:26-35 | each kept entry is the first spelling of its key |
| CityFilters.DedupeOrder | backend/controllers/campaignController.js:29-35 | the kept entries are in the order of their keys' first occurrences |
| CityFilters.DedupeKeepsDistinct | backend/controllers/campaignController.js:29-35 | an input with distinct keys comes back unchanged |
| CityFilters.CleanKeepsClean | backend/controllers/campaignController.js:22-24 | trimmed non-empty entries pass the cleaning unchanged |
| CityFilters.NormalizeOfArray | backend/controllers/campaignController.js:18-36 | an array is cleaned and deduplicated with no parsing |
| CityFilters.DedupeFacts | backend/controllers/campaignController.js:22-36 | normalising an array keeps one spelling of every key, only spellings it was given, the first of each, in first-occurrence order |
| CityFilters.NormalizeIdempotent | backend/controllers/campaignController.js:22-36 | normalising its own output returns the same list |
| CityFilters.CommaSeparatedString | backend/controllers/campaignController.js:8-15 | a non-blank string that does not parse as JSON is split on commas, and joining the pieces gives the trimmed string back |
| Cities.MatchesIgnoringCase | backend/constants/cities.js:37 | true iff some list entry equals the name after lower-casing both |
| Cities.IsValidCity | backend/constants/cities.js:35-38 | true iff the input is a non-empty string whose trimmed form names a listed city, ignoring case |
| Cities.InvalidInputs | backend/constants/cities.js:36 | empty, null, undefined and non-string inputs are invalid |
| Cities.IsValidCityIgnoresCase | backend/constants/cities.js:37 | changing the case of the input never changes the verdict |
| Cities.IsValidCityIgnoresPadding | backend/constants/cities.js:37 | surrounding whitespace never changes the verdict |
| Cities.SameEntriesSameMatches | backend/constants/cities.js:37 | two lists with the same entries accept the same names |
| Cities.RepeatedCitiesIrrelevant | backend/constants/cities.js:2-32 | dropping the repeated Nashik and Vadodara entries changes no verdict |
| Cities.AreValidCities | backend/constants/cities.js:41-44 | false for a non-array, true for [], otherwise true iff every element is valid |
| Campaigns.StoredCities | backend/controllers/campaignController.js:68 | an empty or null list is stored as null, any other list as given |
| Campaigns.FieldError | backend/controllers/campaignController.js:49-61 | no error iff the fields are valid; each check applies once the earlier ones pass: a missing or blank name is 400, a non-string name 500, a type outside the three categories 400, a falsy or blank message 400, a truthy non-string message 500, a present non-string image URL 400 |
| Campaigns.FieldErrorFirstWins | backend/controllers/campaignController.js:49-61 | the first failing check decides the reply: the later fields cannot change it |
| Campaigns.CreateCampaign | backend/controllers/campaignController.js:40-83 | a city-list error or a field error gives 400 and no store change; otherwise one new draft is inserted and nothing else changes |
| Campaigns.CreatedCampaign | backend/controllers/campaignController.js:64-73 | a new campaign is an unscheduled draft of the caller, with the name and message as sent, the empty city list stored as null and a trimmed or null image URL |
| Campaigns.CitiesPatch | backend/controllers/campaignController.js:228-236 | the city list is patched whenever the body has the property, even with null, normalised and with an empty list stored as null |
| Campaigns.PatchOf | backend/controllers/campaignController.js:204-236 | succeeds iff each non-null name and message is a non-blank string, a non-null image URL is a string, and the city list normalises; the name is stored trimmed, the message as sent, the image URL as stored by create; the city outcome is passed through |
| Campaigns.ApplyIdempotent | backend/controllers/campaignController.js:242-248 | applying an edit twice is applying it once |
| Campaigns.UpdateCampaign | backend/controllers/campaignController.js:182-254 | a bad id is 400, a missing campaign 404, a non-draft "Only draft campaigns can be edited"; a field error of the patch is returned as is; success iff the draft exists and the patch is valid and not empty, and it then applies the patch to that campaign alone; an all-null body is "No fields provided to update" |
| Campaigns.UpdateKeepsDraft | backend/controllers/campaignController.js:198-248 | an edit keeps the campaign a draft with the same id, type, owner and schedule, and repeating it changes nothing |
| Campaigns.DeliveredNotEditable | backend/controllers/campaignController.js:198-202 | a campaign the service delivered can no longer be edited |
| Campaigns.DraftAcceptsRename | backend/controllers/campaignController.js:207-212 | every draft, a new one included, accepts a non-blank rename and stores it trimmed |
| Campaigns.RenamePatch | backend/controllers/campaignController.js:207-240 | a body with only a name is a patch of the trimmed name alone |
| Campaigns.Matching | backend/controllers/campaignController.js:99-148 | a campaign matches iff visible to the caller (own only for a creator) and passing the type, status and city filters |
| Campaigns.StatusNameInjective | backend/controllers/campaignController.js:119-120 | the status names (`Campaigns.StatusName`) of two statuses agree iff the statuses do, so a status filter selects one status |
| Campaigns.ListCampaigns | backend/controllers/campaignController.js:86-179 | the page holds matching campaigns only, the total counts all matches, the limit is clamped to [5, 100] |
| Campaigns.EveryMatchListed | backend/controllers/campaignController.js:150-159 | every matching campaign is on some page |
| Campaigns.AllCitiesMatchAnyCity | backend/controllers/campaignController.js:123-131 | a campaign for all cities (null list) is listed whatever city is asked for |
| Campaigns.LegacyRecipients | backend/controllers/campaignController.js:269-280 | a user is a legacy recipient iff active, city-matching and with the legacy flag of the campaign's type set |
| Campaigns.LegacyRows | backend/controllers/campaignController.js:286-296 | row i is a channel-less success row for the i-th recipient's user id, stamped with the campaign and the clock reading taken for that row, and naming exactly one origin |
| Campaigns.LegacyRowsAppended | backend/controllers/campaignController.js:286-301 | the log after the send is the old log followed by one row per recipient, in order, each with that recipient's id and its own clock reading |
| Campaigns.LegacySendCampaign | backend/controllers/campaignController.js:257-314 | a missing campaign is 404, a thrown transaction with recipients is 500 "Campaign sending failed. No data was changed.", and every other call succeeds; no recipient writes nothing; otherwise one row per recipient is appended in recipient order, carrying that recipient's user id and the clock reading for that row, and the status is set to sent, with scheduled_at kept, whatever the earlier status |
| Campaigns.LegacyResendRepeats | backend/controllers/campaignController.js:265-301 | sending an already-sent campaign writes its rows again |
| Campaigns.LegacyDiffersFromService | backend/controllers/campaignController.js:272-280 | a user with the legacy offers flag but no offers channel gets a legacy row and no service row |
| Newsletters.OptionalText | backend/controllers/newsletterController.js:145-156 | a null or absent field is left alone; anything else must be a non-blank string, returned as sent; the caller trims it |
| Newsletters.TrimmedOrNull | backend/controllers/newsletterController.js:163 | a blank cover URL is null, another one is trimmed |
| Newsletters.UpdateCategory | backend/controllers/newsletterController.js:127-180 | 404 for a missing category, 403 for another creator's, then the field checks in order; success iff the caller may manage an existing category and the fields pass with at least one present; it changes only that category, storing each non-null field trimmed and keeping the rest |
| Newsletters.UpdateCategoryIdempotent | backend/controllers/newsletterController.js:143-172 | sending the same update again changes nothing more |
| Newsletters.ListCategories | backend/controllers/newsletterController.js:35-125 | a creator sees only their own categories, others see all; the limit is clamped |
| Newsletters.AdminSeesAllCategories | backend/controllers/newsletterController.js:66-68 | a caller who is not a creator sees every category |
| Newsletters.CreateArticle | backend/controllers/newsletterController.js:184-232 | a blank category id, title or message is 400, a missing category 404, another creator's category 403; success adds one draft article |
| Newsletters.CreatedArticleListing | backend/controllers/newsletterController.js:184-232 | the creator of a new article can list its category and finds the draft there under the default status filter; a reader never sees it, whatever the status filter |
| Newsletters.UpdateArticle | backend/controllers/newsletterController.js:308-361 | 404, then 403 for another creator, then "Only draft articles can be edited", then the field checks; success changes only that article |
| Newsletters.ListArticles | backend/controllers/newsletterController.js:234-306 | 404 for a missing category, 403 for another creator's; listed articles belong to the category and pass the status filter; a user sees only sent ones |
| Newsletters.ReadersSeeOnlyPublished | backend/controllers/newsletterController.js:271-273 | a reader never sees a draft, whatever status is asked for |
| Newsletters.Subscribers | backend/controllers/newsletterController.js:386-412 | a user is a publish recipient iff active, subscribed to the category and with a newsletter channel on |
| Newsletters.PublishArticle | backend/controllers/newsletterController.js:363-467 | 404, 403 for another creator, "Article already published" for a sent article, "Publishing failed" for a thrown transaction with subscribers; it succeeds iff none of these applies; no recipient leaves the store unchanged; otherwise rows are appended and the article becomes sent with published_at = now; recipients = eligible users |
| Newsletters.SubscribersReachable | backend/controllers/newsletterController.js:386-412 | every subscriber yields at least one row |
| Newsletters.PublishRowsCount | backend/controllers/newsletterController.js:418-449 | one row per enabled newsletter channel, between one and three per recipient |
| Newsletters.PublishRowsShape | backend/controllers/newsletterController.js:418-449 | every row has status success, the shared time, a channel and the article as its only source |
| Newsletters.PublishedFacts | backend/controllers/newsletterController.js:455-461 | the publish commit (`Newsletters.MarkPublished`) appends the rows and changes only the article |
| Newsletters.PublishedIsFinal | backend/controllers/newsletterController.js:319-325 | a published article can be neither published again nor edited |
| Newsletters.NoSubscribersStaysDraft | backend/controllers/newsletterController.js:414-416 | with no one to reach, the article stays a draft |
| Newsletters.PreviewEntries | backend/controllers/newsletterController.js:540-573 | the preview lines are the publish recipients with the requested role, each with its channels |
| Newsletters.PreviewRecipients | backend/controllers/newsletterController.js:469-635 | 404 for a missing article; for a draft, a page of preview lines with clamped limit and a total of all lines |
| Newsletters.AllRolesMatch | backend/controllers/newsletterController.js:573 | a blank or "all" role filter lets every user through |
| Newsletters.PreviewListsSubscribers | backend/controllers/newsletterController.js:540-573 | a user the role filter passes has a preview line iff publishing would reach the user |
| Newsletters.SubscriberById | backend/controllers/newsletterController.js:386-412 | with unique ids, a user's id is among the recipients' ids iff the user is a recipient |
| Newsletters.PreviewMatchesPublish | backend/controllers/newsletterController.js:617-621 | a user's preview channels are exactly the channels publishing logs for that user, in push, email, sms order |
| Newsletters.Touch | backend/controllers/newsletterController.js:686-689 | the update branch of the upsert sets the date of the rows for that user and category to now; every other field of every row, and every other row, is unchanged |
| Newsletters.TouchKeepsPairs | backend/controllers/newsletterController.js:686-689 | refreshing keeps every (user, category) pair |
| Newsletters.Subscribe | backend/controllers/newsletterController.js:672-697 | a blank id is 400, a missing category 404; otherwise the pair is present exactly once |
| Newsletters.AddKeepsPairs | backend/controllers/newsletterController.js:686-691 | the create branch adds that pair and no other |
| Newsletters.SubscribeTwice | backend/controllers/newsletterController.js:686-691 | subscribing again keeps a single row for the pair |
| Newsletters.Unsubscribed | backend/controllers/newsletterController.js:706-708 | the rows kept are exactly those of other users or other categories |
| Newsletters.Unsubscribe | backend/controllers/newsletterController.js:699-714 | a blank id is 400; otherwise the caller's rows for that category are removed, with no existence check |
| Newsletters.UnsubscribeIdempotent | backend/controllers/newsletterController.js:706-708 | unsubscribing twice is unsubscribing once |
| Orders.OrderRows | backend/controllers/orderController.js:44-57 | one row per enabled order_updates channel of the owner, carrying the order's status string and the order as only source |
| Orders.NoChannelNoRows | backend/controllers/orderController.js:26-28 | a missing preference row or no order channel writes nothing |
| Orders.OrderRowsNeverSuccess | backend/controllers/orderController.js:169-179 | an order row never has status success |
| Orders.CreateOrder | backend/controllers/orderController.js:3-63 | missing, non-array or empty items are 400; the amount check runs on the raw value, so null, undefined and a value that JavaScript's `< 0` coerces to a negative number are 400, an unknown user 404; success iff those pass, the id is free, `parseFloat` gives a number and the log insert does not throw; success places an ORDER_CONFIRMED order with the parsed amount, and its rows; a failing log insert still leaves the order placed |
| Orders.PrefixNegativeStored | backend/controllers/orderController.js:11-38 | the text "-5x" passes the amount check (NaN is not below zero) and `parseFloat` stores the order with amount -5 |
| Orders.CreateOrderChecked | backend/controllers/orderController.js:11-13 | with the check applied to the parsed amount, an amount that parses to NaN or below zero is 400, and every order it places has a non-negative amount; it succeeds iff `createOrder` does and the parsed amount is not negative |
| Orders.CheckedAgreesOnNumbers | backend/controllers/orderController.js:11-38 | for a JSON number amount the corrected handler and `createOrder` give the same outcome |
| Orders.OrderSurvivesLogFailure | backend/controllers/orderController.js:34-57 | the order write and the log write are not atomic |
| Orders.ParseOrderStatus | backend/controllers/orderController.js:150-154 | a status is valid iff it is the name of one of the five statuses |
| Orders.ParseStatusName | backend/controllers/orderController.js:150 | every status is accepted under its own name, and two names never collide |
| Orders.UpdateOrderStatus | backend/controllers/orderController.js:145-188 | an invalid status is 400 before any lookup, a missing order 404; success sets the status and logs it on each enabled channel |
| Orders.AnyTransitionAccepted | backend/controllers/orderController.js:150-167 | any of the five statuses is accepted from any current status |
| Orders.RepeatedStatusNotifiesAgain | backend/controllers/orderController.js:164-183 | setting the same status twice leaves the order as after the first call but notifies again |
| Orders.AllMatching | backend/controllers/orderController.js:77-93 | an order matches iff it passes the status filter and the day range |
| Orders.ListAllOrders | backend/controllers/orderController.js:65-143 | the page holds matching orders, the total counts them, the limit is in [5, 50] |
| Orders.MyMatching | backend/controllers/orderController.js:202-219 | the caller's matches are the matches owned by the caller |
| Orders.ListMyOrders | backend/controllers/orderController.js:190-257 | the page holds only the caller's matching orders, with the limit in [5, 50] |
| Orders.MyOrdersWithinAll | backend/controllers/orderController.js:202-205 | the caller's list never counts more than the full list |
| Preferences.GetPreferences | backend/controllers/preferenceController.js:4-20 | a missing row is 404 "Preferences not found"; otherwise the row is returned |
| Preferences.WithLegacy | backend/controllers/preferenceController.js:43 | only the three legacy flags are written, and no channel flag changes |
| Preferences.UpdatePreferences | backend/controllers/preferenceController.js:23-60 | another user's id is 403; success creates the row when missing or updates it, and changes nothing else |
| Preferences.OnlyOwnRow | backend/controllers/preferenceController.js:29-31 | a user may only write their own row |
| Preferences.ChannelsUntouched | backend/controllers/preferenceController.js:40-44 | updating an existing row leaves every channel flag, and so every delivery, as before |
| Preferences.UpdateIdempotent | backend/controllers/preferenceController.js:34-54 | writing the same body twice is writing it once |
| Preferences.UpdateThenGet | backend/controllers/preferenceController.js:4-54 | after a successful update, reading the row gives the written flag |
| Users.FindUser | backend/controllers/userController.js:213-214 | the lookup finds a row iff some user has the id, and that row has the id |
| Users.TextOrNull | backend/controllers/userController.js:199-207 | the trimmed text, or null when it is empty |
| Users.Edited | backend/controllers/userController.js:191-207 | only name, phone and city change; a given name is trimmed, a blank phone or city becomes null |
| Users.UpdateMe | backend/controllers/userController.js:183-233 | no caller is 401, a blank name "Name cannot be empty.", no field "No valid fields to update."; success edits the caller's row alone |
| Users.UpdateMeStoresTrimmed | backend/controllers/userController.js:191-207 | what is stored is trimmed and a stored name is never blank |
| Users.EditedIdempotent | backend/controllers/userController.js:191-207 | applying the same profile to an edited row changes nothing more |
| Users.UpdateMeIdempotent | backend/controllers/userController.js:183-233 | sending the same profile twice is sending it once |
| Users.NullNameStoredAsText | backend/controllers/userController.js:191-196 | a null name is not refused: it is stored as the text "null" |
| Users.UpdateMeNullAware | backend/controllers/userController.js:191-207 | with null read as blank, a null name is refused and a null phone or city is cleared |
| Users.CleanedFacts | backend/controllers/userController.js:191-207 | the cleaned body refuses a null name, clears a null phone or city and keeps a string name |
| Users.NullAwareAgreesWithoutNull | backend/controllers/userController.js:191-207 | without a null in the body the corrected update is the original one |
| Users.ChangeMyPassword | backend/controllers/userController.js:236-272 | no caller is 401; a missing field or a new password under 6 characters is 400; an unknown user 404; a wrong current password 400; success stores the new hash and nothing else |
| Users.InputCheckedBeforeCompare | backend/controllers/userController.js:242-248 | missing and short passwords are refused whatever the store and the hashing library say |
| Users.ActiveFlag | backend/controllers/userController.js:290-296 | a string is true iff it lower-cases to "true"; anything else goes by truthiness |
| Users.ActiveFlagIgnoresCase | backend/controllers/userController.js:291-292 | the string test ignores case |
| Users.CityColumn | backend/controllers/userController.js:286-288 | "" and null clear the city; another string is stored untrimmed |
| Users.UpdateUser | backend/controllers/userController.js:276-311 | a user-role caller acting on another id is 403; no city or status is "Only city/status can be updated."; success changes only the target's city and is_active |
| Users.UserRoleOnlySelf | backend/controllers/userController.js:279-281 | a user-role caller changes no row but their own |
| Users.DeleteUser | backend/controllers/userController.js:314-326 | a user-role caller deleting another id is 403; otherwise exactly the target row is removed |
| Users.RemoveAt | backend/controllers/userController.js:321-323 | the rows left are exactly those with another id |
| Users.MatchingUsers | backend/controllers/userController.js:44-83 | a user matches iff passing the role, city, status and legacy-preference filters |
| Users.ListUsers | backend/controllers/userController.js:31-127 | the page holds matching users, the total counts them, the limit is in [5, 100] |
| Users.DefaultQueryCountsEveryone | backend/controllers/userController.js:35-39 | the default query counts the whole directory |
| Users.RawCities | backend/controllers/userController.js:132-136 | the distinct non-null cities of the directory |
| Users.TrimmedNonBlank | backend/controllers/userController.js:138-140 | the cities trimmed, with the blank ones dropped |
| Users.CityOptions | backend/controllers/userController.js:130-152 | the options are sorted, trimmed and non-empty, hold exactly the trimmed non-blank cities of the directory, and are a permutation of the trimmed distinct raw cities, so each padding variant counts once |
| Users.RoleOptionsAreRoles | backend/controllers/userController.js:144 | every offered role is the stored name of a role |
| Logs.CampaignOf | backend/controllers/logController.js:28 | the row's campaign, when it has one that exists |
| Logs.TypeColumn | backend/controllers/logController.js:28 | a row without a campaign has no type |
| Logs.TypeFilterMeaning | backend/controllers/logController.js:27-29 | a type filter keeps a campaign row iff it names the campaign's category, and a row with no campaign only when blank or "all" |
| Logs.VisibleLogs | backend/controllers/logController.js:16-53 | a row is listed iff in the caller's scope and passing status, type and date filters |
| Logs.GetLogs | backend/controllers/logController.js:3-99 | the page holds visible rows only; a creator sees only rows of their own campaigns; the limit is in [5, 100] |
| Logs.CreatorSeesNoMore | backend/controllers/logController.js:19-21 | a creator sees a subset of what an administrator sees |
| Logs.CreatorSeesOnlyOwnCampaigns | backend/controllers/logController.js:19-21 | a creator never sees order or newsletter rows, nor another creator's campaigns |
| Logs.UnfilteredListsEverything | backend/controllers/logController.js:16-53 | the unfiltered list of a non-creator is the whole log |
| Logs.Feed | backend/controllers/logController.js:113-132 | a row is in the feed iff it is the caller's success row passing the type and date filters |
| Logs.GetMyNotifications | backend/controllers/logController.js:101-184 | the page holds only the caller's success rows; the limit is in [5, 50] |
| Logs.OrderRowsNotInFeed | backend/controllers/logController.js:113-118 | rows an order status change writes never appear in the feed |
| Logs.FeedIsOwnDeliveredLog | backend/controllers/logController.js:113-118 | the feed is the dashboard log filtered to the caller's success rows |
| Logs.MyStats | backend/controllers/logController.js:186-216 | each type count is at most the total and the three together are at most the total |
| Logs.StatsMatchFeed | backend/controllers/logController.js:189-203 | the total is the unfiltered feed's count and each type count the feed's count for that type |
| Logs.CategoryNameNames | backend/controllers/logController.js:195-201 | a category's name selects exactly the rows of campaigns of that category |
| Filters.AllKeepsEverything | backend/controllers/logController.js:8-9 | under the shared filter test `Filters.Keeps`, "all", the default of these parameters, keeps every row |
| Filters.KeepsIgnoresPadding | backend/controllers/logController.js:8-9 | surrounding whitespace in a parameter does not matter |
| Filters.RangeOf | backend/controllers/logController.js:31-39 | a parseable from bounds below at the start of the day, a parseable to bounds above at its last millisecond, an unparseable one adds no bound |
| Filters.OneWholeDay | backend/controllers/logController.js:31-39 | asking for one day keeps exactly the times within that day |
| Filters.UnparseableIgnored | backend/controllers/logController.js:31-39 | an unparseable date is as if it were absent |
| Pagination.PageParam | backend/controllers/campaignController.js:96 | the page is at least 1, and a requested page of at least 1 is kept |
| Pagination.LimitParam | backend/controllers/campaignController.js:97 | the limit is in [5, max]; a missing or zero one is 10, one out of range is clamped |
| Pagination.Meta | backend/controllers/campaignController.js:150-153 | totalPages is 1 for no rows and the ceiling of total / limit otherwise; 1 <= safePage <= totalPages; hasPrev iff safePage > 1; hasNext iff safePage < totalPages |
| Pagination.WindowBounds | backend/controllers/campaignController.js:153-159 | the skipped rows never reach past the matches, and only the last page may be short |
| Pagination.Paginate | backend/controllers/campaignController.js:150-174 | the page is the window of the matches at skip, at most limit long, full when there is a next page |
| Pagination.PageOfRow | backend/controllers/campaignController.js:151-153 | row k lies on page k / limit + 1, which is never clamped away |
| Pagination.PageHoldsRow | backend/controllers/campaignController.js:150-159 | asking for that page returns a window holding row k |
| Auth.IsTokenExpired | frontend/notification-frontend/src/utils/auth.js:12-16 | a missing token or a missing or zero exp is expired; otherwise expired iff exp <= floor(now / 1000) |
| Auth.NormalizeRole | frontend/notification-frontend/src/utils/auth.js:18-21 | falsy input gives "", anything else is lower-cased |
| Auth.RoleHomePath | frontend/notification-frontend/src/utils/auth.js:23-30 | admin, creator, viewer and user lead to their homes, everything else to /login |
| Auth.RoleHomePathCases | frontend/notification-frontend/src/utils/auth.js:24-29 | each of the four roles in any letter case leads to its own home |
| Auth.RoleHomePathNormalized | frontend/notification-frontend/src/utils/auth.js:24 | normalising the role first does not change the home path |
| Text.Trim | backend/controllers/campaignController.js:9 | trim cuts only whitespace from both ends and leaves a core that neither starts nor ends with it |
| Text.TrimIdempotent | backend/controllers/campaignController.js:23 | trimming twice is trimming once |
| Text.LowerTrimCommute | backend/constants/cities.js:37 | lower-casing and trimming commute |
| Text.JoinSplit | backend/controllers/campaignController.js:14 | joining the pieces of a split gives the string back |
| Text.Split | backend/controllers/campaignController.js:14 | a split yields at least one piece and no piece contains the separator |
| Text.LowerIdempotent | backend/controllers/campaignController.js:30 | lower-casing twice is lower-casing once |
| Json.JoinItemsOfStrings | backend/controllers/newsletterController.js:9 | `String` (`Json.JsString`) of an array of strings is their comma join |
| Json.JsStringOfSplit | backend/controllers/campaignController.js:14 | `String` of the comma split of a string gives the string back |
| Domain.EnabledChannels | backend/services/campaignDeliveryService.js:59-85 | the enabled channels of a category, in push, email, sms order, each exactly when its flag is on |
| Domain.FanOutCount | backend/services/campaignDeliveryService.js:57-86 | the fan-out (`Domain.FanOut`) writes one row per enabled channel, between one and three per reachable recipient |
| Domain.FanOutRows | backend/services/campaignDeliveryService.js:57-86 | every fanned-out row has a channel, the given status and time, a listed recipient and exactly one source |
| Domain.FanOutPerUser | backend/services/campaignDeliveryService.js:57-86 | per recipient, the fan-out holds exactly that recipient's enabled channels in order, and nothing for anyone else |
| Domain.IdListedIffUser | backend/services/campaignDeliveryService.js:30-48 | among query rows over a directory with unique ids, a user's id is listed iff the user is |
| Domain.FilterMonotone | backend/controllers/logController.js:16-29 | a stricter test keeps no more rows |
| Domain.FilterDisjointCounts | backend/controllers/logController.js:193-203 | three mutually exclusive tests, each stricter than a fourth, keep no more rows together than it |

## Left out

- Database I/O is replaced by the immutable store. A store failure is a parameter only in these members:
  - `CampaignDelivery.DeliverCampaignNow`, `Campaigns.LegacySendCampaign` and `Newsletters.PublishArticle` (`fault`);
  - `Orders.CreateOrder` and `Orders.UpdateOrderStatus` (`logFault`);
  - the scheduler (`failing`, and `CampaignScheduler.ProcessOneFaulty`).
- The other write handlers assume that their database calls succeed, so their `catch` branches, a 500 carrying `err.message`, are not modelled. These handlers are `Campaigns.UpdateCampaign`, `Newsletters.UpdateCategory`, `Newsletters.CreateArticle`, `Newsletters.UpdateArticle`, `Newsletters.Subscribe`, `Newsletters.Unsubscribe`, `Users.UpdateMe`, `Users.ChangeMyPassword`, `Users.UpdateUser` and `Preferences.UpdatePreferences`. `Campaigns.CreateCampaign` models only the insert failing on an id already taken.
- A modelled 500 reply carries no message except the two fixed messages modelled (`Campaigns.SendFailed` and `Newsletters.PublishFailed`).
- CampaignScheduler.RunOnce: promises "never sending" only when the claim write (campaignScheduler.js:22-25) and the release writes (37-40, 49-52) succeed. `CampaignScheduler.ProcessOneFaulty` models one iteration where they throw: the tick then aborts, the rest of the batch is not processed, and a throwing revert leaves the campaign in `sending` (`CampaignScheduler.StuckInSending`). The batch loop does not carry these faults.
- CampaignScheduler.ProcessBatch: has the same limit as `CampaignScheduler.RunOnce`. Its loop assumes that the claim and release writes never throw.
- Concurrency between scheduler instances, and the node-cron trigger, are left out. The claim is a sequential compare-and-set, and interleavings are sequential calls (`CampaignScheduler.ClaimExclusive`, `CampaignScheduler.NoDoubleSend`).
- The tick's error logging is left out: it only writes to the console.
- The clock is one `now` parameter per call. The tick reads it once to pick due campaigns (campaignScheduler.js:8), and each delivery reads it again for its rows' `sent_at` (campaignDeliveryService.js:54), so in the source those instants differ slightly. The model gives them one value, and does the same for an order's `created_at` and its log rows (`Orders.CreateOrder`). The legacy send (`Campaigns.LegacyRows`, `Campaigns.LegacySendCampaign`) is the exception: it reads the clock once per row (campaignController.js:293), and the model passes a clock function for that, one reading per row index.
- Newsletters.PreviewRecipients: takes its lines in the store's user order, not from an ordered parameter as the other lists do. The database `orderBy` of the preview is not modelled, so the contents of each page, but not the set of lines or the total, depend on that order.
- `JSON.parse` and `new Date(text)` are oracle parameters. `parseInt` is taken as already parsed into `Option<int>`. For `total_amount`, `Number` and `parseFloat` on text are oracles (`toNumber`, `parseFloat`), and `None` stands for NaN.
- Orders.CreateOrder: an order insert whose parsed amount is NaN is taken to fail with a 500 and leave the store as it was. The database's treatment of NaN is not part of this model.
- JSON body numbers are integers (`Json.Num` holds an `int`): fractions, NaN and infinities are not modelled.
- Money amounts are integers, not floating point. The five-day `estimated_delivery` is not modelled.
- Text `contains` searches (`q`, `creator`, and the preview's `city`) depend on the database collation and are not modelled. Neither is the `q` parameter of any list.
- `toLowerCase` folds only ASCII letters. `trim` uses the ECMAScript whitespace set. Lengths count code points, not UTF-16 units.
- The city options are sorted by code point, not by `localeCompare`.
- Every list takes its rows in the order the database returns them, passed in as a parameter. The `orderBy` clauses are not modelled.
- A type or status filter value that names no category or status simply matches nothing. The database would reject an unknown enum value with an error.
- bcrypt and JWT are oracles: `verify`, `hash`, and the decoded token's `exp`. Authentication middleware and route wiring are outside the model.
- `uploadUsers` (CSV upload), `createUser`, `getMe`, `createCategory`, `getMySubscriptions` and the subscription flags of `getCategories` are not modelled. They lie outside the delivery engine.
- The sent-mode listing of `getArticleRecipients` is not modelled; only the draft preview is.
- The analytics controller, the server bootstrap, the routes and the React frontend apart from `utils/auth.js` are not modelled.
- `deleteUser` does not cascade: rows that refer to the deleted user stay. The source has no `try`, so a missing user is an unhandled rejection and gets no reply (`Users.DeleteUser` returns `NoReply`).
- The `items` JSON of an order is not stored.

## Findings

| source | as written | input that shows it | evidently intended | confidence | as-written member | corrected member |
|---|---|---|---|---|---|---|
| backend/controllers/userController.js:191-196 | `updateMe` checks the name with `String(name).trim()`, so a `null` name becomes the text "null" | body `{ "name": null }` from a signed-in user | a null name is refused like a blank one ("Name cannot be empty."), and a null phone or city clears the column | medium, not executed | Users.NullNameStoredAsText | Users.UpdateMeNullAware |
| backend/controllers/orderController.js:11-38 | `createOrder` checks `total_amount == null \|\| total_amount < 0` on the raw body value and calls `parseFloat` afterwards, so a text whose `Number` is NaN passes the check | body `{ "items": [1], "total_amount": "-5x" }`: `Number("-5x")` is NaN, not below zero, and `parseFloat("-5x")` is -5 | the check applies to the parsed amount, so that a negative or unparsable amount is refused with "Valid total amount is required" | medium, not executed | Orders.PrefixNegativeStored | Orders.CreateOrderChecked |

=== FILE: auth.dfy ===
/** The role and token helpers of the single-page client. */
module Auth {
  import opened Wrappers
  import opened Text

  /** The claims of a decoded token that the client reads; `exp` is in seconds. */
  datatype Claims = Claims(exp: Option<int>)

  /** `isTokenExpired(decoded)` with the clock reading `nowMs` (milliseconds)
      passed in: a missing token or a missing or zero `exp` counts as expired;
      otherwise the token expires at the first millisecond of its `exp` second. */
  function IsTokenExpired(decoded: Option<Claims>, nowMs: int): (r: bool)
    ensures decoded.None? || decoded.value.exp.None? || decoded.value.exp == Some(0) ==> r
    ensures decoded.Some? && decoded.value.exp.Some? && decoded.value.exp.value != 0 ==>
      (r <==> decoded.value.exp.value * 1000 <= nowMs)
  {
    if decoded.None? || decoded.value.exp.None? || decoded.value.exp.value == 0 then true
    else decoded.value.exp.value <= nowMs / 1000
  }

  /** `normalizeRole(role)`: a missing or empty role becomes `""`, anything else is lower-cased. */
  function NormalizeRole(role: Option<string>): (r: string)
    ensures role.None? ==> r == ""
    ensures role.Some? ==> r == Lower(role.value)
  {
    if role.None? || role.value == "" then "" else Lower(role.value)
  }

  /** `getRoleHomePath(role)`. */
  function RoleHomePath(role: Option<string>): (path: string)
    ensures path in {"/admin", "/creator", "/viewer", "/app", "/login"}
  {
    var r := NormalizeRole(role);
    if r == "admin" then "/admin"
    else if r == "creator" then "/creator"
    else if r == "viewer" then "/viewer"
    else if r == "user" then "/app"
    else "/login"
  }

  /** Each of the four roles, in any letter case, leads to its own home; every
      other value leads to the login page. */
  lemma RoleHomePathCases(role: string)
    ensures RoleHomePath(Some(role)) == "/admin" <==> Lower(role) == "admin"
    ensures RoleHomePath(Some(role)) == "/creator" <==> Lower(role) == "creator"
    ensures RoleHomePath(Some(role)) == "/viewer" <==> Lower(role) == "viewer"
    ensures RoleHomePath(Some(role)) == "/app" <==> Lower(role) == "user"
    ensures RoleHomePath(Some(role)) == "/login" <==> Lower(role) !in {"admin", "creator", "viewer", "user"}
  {
  }

  /** Normalising first does not change the home path. */
  lemma RoleHomePathNormalized(role: Option<string>)
    ensures RoleHomePath(Some(NormalizeRole(role))) == RoleHomePath(role)
  {
    if role.Some? {
      LowerIdempotent(role.value);
    }
  }
}

=== FILE: campaigns.dfy ===
/** The campaign controller: creating and editing draft campaigns, the
    filtered and paginated campaign list, and the legacy "send now" handler. */
module Campaigns {
  import opened Wrappers
  import opened Text
  import opened Json
  import opened Domain
  import opened Http
  import opened CityFilters
  import opened Pagination
  import opened Filters
  import CampaignDelivery

  /** The fields of a request body; an absent field is `Undefined`. */
  datatype CampaignBody = CampaignBody(
    name: Value, notificationType: Value, message: Value, imageUrl: Value, cityFilters: Value)

  /** `list && list.length > 0 ? list : null`: an empty list is stored as null. */
  function StoredCities(n: Option<seq<string>>): (r: Option<seq<string>>)
    ensures r.Some? ==> |r.value| > 0 && r == n
    ensures r.None? ==> n.None? || n == Some([])
  {
    if n.Some? && |n.value| > 0 then n else None
  }

  /** A trimmed image URL, or null when the value is blank or absent. */
  function StoredImage(v: Value): Option<string> {
    if v.Str? && |Trim(v.s)| > 0 then Some(Trim(v.s)) else None
  }

  const NameRequired: string := "Campaign name is required"
  const InvalidType: string := "Invalid notification type"
  const MessageRequired: string := "Campaign message is required"
  const ImageNotString: string := "image_url must be a string"

  /** The field checks of `createCampaign`: a name and a message that are not
      blank, a known type and a string or absent image URL. */
  predicate ValidFields(body: CampaignBody) {
    && NonBlank(body.name)
    && body.notificationType.Str? && ParseCategory(body.notificationType.s).Some?
    && NonBlank(body.message)
    && (IsNullish(body.imageUrl) || body.imageUrl.Str?)
  }

  /** The first failing field check of `createCampaign`, in source order.
      Calling `.trim()` on a name or message that is not a string throws,
      which the handler turns into a 500. */
  function FieldError(body: CampaignBody): (r: Option<HttpError>)
    ensures r.None? <==> ValidFields(body)
    ensures IsNullish(body.name) || (body.name.Str? && |Trim(body.name.s)| == 0) ==> r == Some(HttpError(BadRequest, NameRequired))
    ensures !IsNullish(body.name) && !body.name.Str? ==> r == Some(HttpError(ServerError, ""))
    ensures NonBlank(body.name) && !(body.notificationType.Str? && ParseCategory(body.notificationType.s).Some?)
      ==> r == Some(HttpError(BadRequest, InvalidType))
    ensures NonBlank(body.name) && body.notificationType.Str? && ParseCategory(body.notificationType.s).Some? ==>
      && ((!Truthy(body.message) || (body.message.Str? && |Trim(body.message.s)| == 0)) ==>
            r == Some(HttpError(BadRequest, MessageRequired)))
      && (Truthy(body.message) && !body.message.Str? ==> r == Some(HttpError(ServerError, "")))
      && (NonBlank(body.message) && !IsNullish(body.imageUrl) && !body.imageUrl.Str? ==>
            r == Some(HttpError(BadRequest, ImageNotString)))
  {
    if IsNullish(body.name) then Some(HttpError(BadRequest, NameRequired))
    else if !body.name.Str? then Some(HttpError(ServerError, ""))
    else if |Trim(body.name.s)| == 0 then Some(HttpError(BadRequest, NameRequired))
    else if !body.notificationType.Str? || ParseCategory(body.notificationType.s).None? then
      Some(HttpError(BadRequest, InvalidType))
    else if !Truthy(body.message) then Some(HttpError(BadRequest, MessageRequired))
    else if !body.message.Str? then Some(HttpError(ServerError, ""))
    else if |Trim(body.message.s)| == 0 then Some(HttpError(BadRequest, MessageRequired))
    else if !IsNullish(body.imageUrl) && !body.imageUrl.Str? then Some(HttpError(BadRequest, ImageNotString))
    else None
  }

  /** The checks stop at the first failure: once the name fails, the other
      fields cannot change the reply, and once the name and type pass, the
      name's spelling cannot either. */
  lemma FieldErrorFirstWins(body: CampaignBody, other: CampaignBody)
    ensures other.name == body.name && !NonBlank(body.name) ==> FieldError(other) == FieldError(body)
    ensures other.notificationType == body.notificationType && NonBlank(body.name) && NonBlank(other.name)
      && !(body.notificationType.Str? && ParseCategory(body.notificationType.s).Some?)
      ==> FieldError(other) == FieldError(body)
    ensures other.(name := body.name) == body && NonBlank(body.name) && NonBlank(other.name)
      ==> FieldError(other) == FieldError(body)
  {
  }

  /** `createCampaign`: the city list is normalised first, then the fields are
      checked, then a draft is inserted under the fresh id `newId`. */
  function CreateCampaign(st: Store, body: CampaignBody, creator: UserId, newId: CampaignId,
                          parseJson: string -> Option<Value>): (r: Result<Store, HttpError>)
    ensures r.Success? <==>
      NormalizeCityFilters(body.cityFilters, parseJson).Success? && ValidFields(body) && newId !in st.campaigns
    ensures NormalizeCityFilters(body.cityFilters, parseJson).Failure?
      ==> r == Failure(HttpError(BadRequest, NotAnArrayMessage))
    ensures NormalizeCityFilters(body.cityFilters, parseJson).Success? && !ValidFields(body)
      ==> r == Failure(FieldError(body).value)
    ensures r.Success? ==> newId in r.value.campaigns && r.value.campaigns[newId].status == Draft
  {
    var cities := NormalizeCityFilters(body.cityFilters, parseJson);
    if cities.Failure? then Failure(HttpError(BadRequest, cities.error))
    else
      match FieldError(body)
      case Some(e) => Failure(e)
      case None =>
        if newId in st.campaigns then Failure(HttpError(ServerError, ""))
        else
          var c := Campaign(newId, body.name.s, body.message.s, StoredImage(body.imageUrl),
                            ParseCategory(body.notificationType.s).value, StoredCities(cities.value),
                            Draft, None, creator);
          Success(st.(campaigns := st.campaigns[newId := c]))
  }

  /** What a successful create writes: one new draft, unscheduled, owned by
      the caller, holding the name and message as sent, the parsed type, the
      normalised city list (null when empty) and the trimmed image URL. */
  lemma CreatedCampaign(st: Store, body: CampaignBody, creator: UserId, newId: CampaignId,
                        parseJson: string -> Option<Value>)
    requires CreateCampaign(st, body, creator, newId, parseJson).Success?
    ensures var st' := CreateCampaign(st, body, creator, newId, parseJson).value;
      && newId in st'.campaigns
      && st' == st.(campaigns := st.campaigns[newId := st'.campaigns[newId]])
      && var c := st'.campaigns[newId];
      && c.id == newId && c.status == Draft && c.scheduledAt.None? && c.createdBy == creator
      && body.name == Str(c.name) && body.message == Str(c.message)
      && body.notificationType == Str(CategoryName(c.notificationType))
      && c.cityFilters == StoredCities(NormalizeCityFilters(body.cityFilters, parseJson).value)
      && c.imageUrl == StoredImage(body.imageUrl)
  {
  }

  /** The fields an update writes; `None` leaves the column alone. */
  datatype Patch = Patch(
    name: Option<string>, message: Option<string>,
    imageUrl: Option<Option<string>>, cityFilters: Option<Option<seq<string>>>)

  function Apply(c: Campaign, p: Patch): Campaign {
    c.(name := p.name.GetOr(c.name),
       message := p.message.GetOr(c.message),
       imageUrl := p.imageUrl.GetOr(c.imageUrl),
       cityFilters := p.cityFilters.GetOr(c.cityFilters))
  }

  const OnlyDraftsEditable: string := "Only draft campaigns can be edited"
  const NoFields: string := "No fields provided to update"

  const NameNotBlank: string := "Campaign name must be a non-empty string"
  const MessageNotBlank: string := "Campaign message must be a non-empty string"

  /** The `city_filters` part of an update: present whenever the body has the
      property, even with a null value, and then normalised, an empty list
      being stored as null. */
  function CitiesPatch(v: Value, parseJson: string -> Option<Value>): (r: Result<Option<Option<seq<string>>>, HttpError>)
    ensures r.Failure? <==> !v.Undefined? && NormalizeCityFilters(v, parseJson).Failure?
    ensures r.Failure? ==> r.error == HttpError(BadRequest, NotAnArrayMessage)
    ensures r.Success? ==> (r.value.Some? <==> !v.Undefined?)
    ensures r.Success? && r.value.Some? ==>
      && NormalizeCityFilters(v, parseJson).Success?
      && r.value.value == StoredCities(NormalizeCityFilters(v, parseJson).value)
  {
    if v.Undefined? then Success(None)
    else
      var cities := NormalizeCityFilters(v, parseJson);
      if cities.Failure? then Failure(HttpError(BadRequest, cities.error))
      else Success(Some(StoredCities(cities.value)))
  }

  /** The field checks of `updateCampaign`, in source order: `name` and
      `message` count when not null and must then be non-blank strings,
      `image_url` likewise must then be a string, and last the outcome
      `cities` of normalising `city_filters` is consulted. */
  function PatchOf(body: CampaignBody, cities: Result<Option<Option<seq<string>>>, HttpError>): (r: Result<Patch, HttpError>)
    ensures r.Success? <==>
      && (IsNullish(body.name) || NonBlank(body.name))
      && (IsNullish(body.message) || NonBlank(body.message))
      && (IsNullish(body.imageUrl) || body.imageUrl.Str?)
      && cities.Success?
    ensures !IsNullish(body.name) && !NonBlank(body.name) ==> r == Failure(HttpError(BadRequest, NameNotBlank))
    ensures r.Failure? ==> r.error.status == BadRequest || (cities.Failure? && r.error == cities.error)
    ensures r.Success? ==> (r.value.name.Some? <==> !IsNullish(body.name))
    ensures r.Success? && r.value.name.Some? ==> r.value.name.value == Trim(body.name.s)
    ensures r.Success? ==> (r.value.message.Some? <==> !IsNullish(body.message))
    ensures r.Success? && r.value.message.Some? ==> r.value.message.value == body.message.s
    ensures r.Success? ==> (r.value.imageUrl.Some? <==> !IsNullish(body.imageUrl))
    ensures r.Success? && r.value.imageUrl.Some? ==> r.value.imageUrl.value == StoredImage(body.imageUrl)
    ensures r.Success? ==> r.value.cityFilters == cities.value
  {
    if !IsNullish(body.name) && !NonBlank(body.name) then Failure(HttpError(BadRequest, NameNotBlank))
    else if !IsNullish(body.message) && !NonBlank(body.message) then Failure(HttpError(BadRequest, MessageNotBlank))
    else if !IsNullish(body.imageUrl) && !body.imageUrl.Str? then Failure(HttpError(BadRequest, ImageNotString))
    else
      match cities
      case Failure(e) => Failure(e)
      case Success(c) =>
        Success(Patch(
          if IsNullish(body.name) then None else Some(Trim(body.name.s)),
          if IsNullish(body.message) then None else Some(body.message.s),
          if IsNullish(body.imageUrl) then None else Some(StoredImage(body.imageUrl)),
          c))
  }

  predicate EmptyPatch(p: Patch) {
    p.name.None? && p.message.None? && p.imageUrl.None? && p.cityFilters.None?
  }

  /** Applying an edit twice is applying it once. */
  lemma ApplyIdempotent(c: Campaign, p: Patch)
    ensures Apply(Apply(c, p), p) == Apply(c, p)
    ensures Apply(c, p).status == c.status && Apply(c, p).id == c.id && Apply(c, p).createdBy == c.createdBy
    ensures Apply(c, p).notificationType == c.notificationType && Apply(c, p).scheduledAt == c.scheduledAt
  {
  }

  /** `updateCampaign`; `id` is `None` when the path parameter is not a finite number. */
  function UpdateCampaign(st: Store, id: Option<CampaignId>, body: CampaignBody,
                          parseJson: string -> Option<Value>): (r: Result<Store, HttpError>)
    ensures id.None? ==> r == Failure(HttpError(BadRequest, "Invalid campaign id"))
    ensures id.Some? && id.value !in st.campaigns ==> r == Failure(HttpError(NotFound, "Campaign not found"))
    ensures id.Some? && id.value in st.campaigns && st.campaigns[id.value].status != Draft
      ==> r == Failure(HttpError(BadRequest, OnlyDraftsEditable))
    ensures r.Success? <==>
      && id.Some? && id.value in st.campaigns && st.campaigns[id.value].status == Draft
      && var p := PatchOf(body, CitiesPatch(body.cityFilters, parseJson));
      && p.Success? && !EmptyPatch(p.value)
    ensures r.Success? ==>
      var p := PatchOf(body, CitiesPatch(body.cityFilters, parseJson));
      r.value == st.(campaigns := st.campaigns[id.value := Apply(st.campaigns[id.value], p.value)])
    ensures id.Some? && id.value in st.campaigns && st.campaigns[id.value].status == Draft
            && PatchOf(body, CitiesPatch(body.cityFilters, parseJson)).Failure?
      ==> r == Failure(PatchOf(body, CitiesPatch(body.cityFilters, parseJson)).error)
    ensures id.Some? && id.value in st.campaigns && st.campaigns[id.value].status == Draft
            && IsNullish(body.name) && IsNullish(body.message) && IsNullish(body.imageUrl) && body.cityFilters.Undefined?
      ==> r == Failure(HttpError(BadRequest, NoFields))
  {
    if id.None? then Failure(HttpError(BadRequest, "Invalid campaign id"))
    else if id.value !in st.campaigns then Failure(HttpError(NotFound, "Campaign not found"))
    else if st.campaigns[id.value].status != Draft then Failure(HttpError(BadRequest, OnlyDraftsEditable))
    else
      match PatchOf(body, CitiesPatch(body.cityFilters, parseJson))
      case Failure(e) => Failure(e)
      case Success(p) =>
        if EmptyPatch(p) then Failure(HttpError(BadRequest, NoFields))
        else Success(st.(campaigns := st.campaigns[id.value := Apply(st.campaigns[id.value], p)]))
  }

  /** An edit leaves the campaign a draft, keeps its identity, type, owner and
      schedule, and sends the same edit again to the same result. */
  lemma UpdateKeepsDraft(st: Store, id: CampaignId, body: CampaignBody, parseJson: string -> Option<Value>)
    requires UpdateCampaign(st, Some(id), body, parseJson).Success?
    ensures var st' := UpdateCampaign(st, Some(id), body, parseJson).value;
      && var c, c' := st.campaigns[id], st'.campaigns[id];
      && c'.status == Draft && c'.id == c.id && c'.createdBy == c.createdBy
      && c'.notificationType == c.notificationType && c'.scheduledAt == c.scheduledAt
      && UpdateCampaign(st', Some(id), body, parseJson) == Success(st')
  {
    var st' := UpdateCampaign(st, Some(id), body, parseJson).value;
    var p := PatchOf(body, CitiesPatch(body.cityFilters, parseJson)).value;
    var c := st.campaigns[id];
    ApplyIdempotent(c, p);
    assert st'.campaigns[id] == Apply(c, p);
    assert st'.campaigns[id := Apply(Apply(c, p), p)] == st'.campaigns;
  }

  /** A campaign the service has delivered can no longer be edited. */
  lemma DeliveredNotEditable(st: Store, id: CampaignId, allowed: Option<seq<CampaignStatus>>, now: Time, fault: bool,
                             body: CampaignBody, parseJson: string -> Option<Value>)
    requires CampaignDelivery.DeliverCampaignNow(st, id, allowed, now, fault).Success?
    requires CampaignDelivery.DeliverCampaignNow(st, id, allowed, now, fault).value.recipients > 0
    ensures UpdateCampaign(CampaignDelivery.DeliverCampaignNow(st, id, allowed, now, fault).value.store, Some(id), body, parseJson)
         == Failure(HttpError(BadRequest, OnlyDraftsEditable))
  {
  }

  /** Every draft, a freshly created one included, accepts a rename. */
  lemma DraftAcceptsRename(st: Store, id: CampaignId, edit: CampaignBody, parseJson: string -> Option<Value>)
    requires id in st.campaigns && st.campaigns[id].status == Draft
    requires NonBlank(edit.name)
    requires IsNullish(edit.message) && IsNullish(edit.imageUrl) && edit.cityFilters.Undefined?
    ensures UpdateCampaign(st, Some(id), edit, parseJson).Success?
    ensures UpdateCampaign(st, Some(id), edit, parseJson).value.campaigns[id].name == Trim(edit.name.s)
  {
    RenamePatch(edit, parseJson);
    var c := Apply(st.campaigns[id], Patch(Some(Trim(edit.name.s)), None, None, None));
    assert UpdateCampaign(st, Some(id), edit, parseJson) == Success(st.(campaigns := st.campaigns[id := c]));
  }

  /** A body with only a name is a rename. */
  lemma RenamePatch(edit: CampaignBody, parseJson: string -> Option<Value>)
    requires NonBlank(edit.name)
    requires IsNullish(edit.message) && IsNullish(edit.imageUrl) && edit.cityFilters.Undefined?
    ensures PatchOf(edit, CitiesPatch(edit.cityFilters, parseJson)) == Success(Patch(Some(Trim(edit.name.s)), None, None, None))
  {
    var cities := CitiesPatch(edit.cityFilters, parseJson);
    assert cities == Success(None);
    var r := PatchOf(edit, cities);
    assert r.Success?;
    assert !IsNullish(edit.name);
    assert r.value.name.Some?;
    assert r.value.name.value == Trim(edit.name.s);
    assert r.value.message.None? && r.value.imageUrl.None? && r.value.cityFilters.None?;
  }

  function StatusName(s: CampaignStatus): string {
    match s
    case Draft => "draft"
    case Scheduled => "scheduled"
    case Sending => "sending"
    case Sent => "sent"
  }

  /** No two statuses share a name, so a status filter selects one status. */
  lemma StatusNameInjective(a: CampaignStatus, b: CampaignStatus)
    ensures StatusName(a) == StatusName(b) <==> a == b
  {
  }

  /** The `type`, `status` and `city` query parameters, as received ("" when absent). */
  datatype CampaignQuery = CampaignQuery(typ: string, status: string, city: string)

  /** A creator only sees their own campaigns; other roles see all. */
  predicate VisibleTo(c: Campaign, role: Role, uid: UserId) {
    role == CreatorRole ==> c.createdBy == uid
  }

  /** The filters of the list: a trimmed `type` or `status` other than "" and
      "all" must match exactly; a city keeps campaigns for all cities (null
      filters) and those whose list contains it. */
  predicate MatchesQuery(c: Campaign, q: CampaignQuery) {
    var city := Trim(q.city);
    && Keeps(q.typ, CategoryName(c.notificationType))
    && Keeps(q.status, StatusName(c.status))
    && (city == "" || c.cityFilters.None? || city in c.cityFilters.value)
  }

  /** A campaign the caller sees and the query keeps. */
  predicate Listed(c: Campaign, role: Role, uid: UserId, q: CampaignQuery) {
    VisibleTo(c, role, uid) && MatchesQuery(c, q)
  }

  /** The `where` clause of the list over the campaigns in the list's order. */
  function Matching(ordered: seq<Campaign>, role: Role, uid: UserId, q: CampaignQuery): (r: seq<Campaign>)
    ensures forall c :: c in r <==> c in ordered && Listed(c, role, uid, q)
  {
    Filter(ordered, c => Listed(c, role, uid, q))
  }

  /** `getCampaigns` over the campaigns in the list's order (newest first). */
  function ListCampaigns(ordered: seq<Campaign>, role: Role, uid: UserId, q: CampaignQuery,
                         pageRaw: Option<int>, limitRaw: Option<int>): (r: (seq<Campaign>, PageMeta))
    ensures forall c :: c in r.0 ==> c in ordered && VisibleTo(c, role, uid) && MatchesQuery(c, q)
    ensures MinLimit <= r.1.limit <= WideMaxLimit && |r.0| <= r.1.limit
    ensures 1 <= r.1.page <= r.1.totalPages && (r.1.hasNext <==> r.1.page < r.1.totalPages)
    ensures r.1.total == |Matching(ordered, role, uid, q)|
  {
    var matching := Matching(ordered, role, uid, q);
    var r := Paginate(matching, pageRaw, limitRaw, WideMaxLimit);
    assert forall c :: c in r.0 ==> c in matching;
    r
  }

  /** Every visible matching campaign is listed on some page. */
  lemma EveryMatchListed(ordered: seq<Campaign>, role: Role, uid: UserId, q: CampaignQuery, c: Campaign, limit: int)
    requires c in ordered && VisibleTo(c, role, uid) && MatchesQuery(c, q)
    requires MinLimit <= limit <= WideMaxLimit
    ensures exists page :: page >= 1 && c in ListCampaigns(ordered, role, uid, q, Some(page), Some(limit)).0
  {
    var matching := Matching(ordered, role, uid, q);
    assert c in matching;
    var k :| 0 <= k < |matching| && matching[k] == c;
    var page := PageHoldsRow(matching, limit, WideMaxLimit, k);
    assert ListCampaigns(ordered, role, uid, q, Some(page), Some(limit))
        == Paginate(matching, Some(page), Some(limit), WideMaxLimit);
  }

  /** A campaign for all cities is listed whatever city is asked for. */
  lemma AllCitiesMatchAnyCity(c: Campaign, typ: string, status: string, city: string)
    requires c.cityFilters.None?
    ensures MatchesQuery(c, CampaignQuery(typ, status, city)) == MatchesQuery(c, CampaignQuery(typ, status, ""))
  {
  }

  /** The users of the legacy send: active, in the city list when it is
      non-empty, and with the legacy flag of the campaign's type set. */
  predicate LegacyEligible(u: User, prefs: map<UserId, Preference>, c: Campaign) {
    var cities := CampaignDelivery.CityList(c);
    && u.isActive
    && (|cities| == 0 || (u.city.Some? && u.city.value in cities))
    && u.id in prefs && LegacyFlag(prefs[u.id], c.notificationType)
  }

  function LegacyRecipients(st: Store, c: Campaign): (r: seq<User>)
    ensures forall u :: u in r <==> u in st.users && LegacyEligible(u, st.prefs, c)
  {
    Select(st.users, u => LegacyEligible(u, st.prefs, c))
  }

  /** One channel-less row per recipient. Each row reads the clock again:
      `clock(i)` is the time `new Date()` gives while building row `i`. */
  function LegacyRows(rec: seq<User>, id: CampaignId, clock: nat -> Time): (rows: seq<LogRow>)
    ensures |rows| == |rec|
    ensures forall i :: 0 <= i < |rows| ==>
      && rows[i].userId == rec[i].id && rows[i].channel.None?
      && rows[i].status == SuccessStatus && rows[i].sentAt == clock(i)
      && rows[i].campaignId == Some(id) && ExactlyOneSource(rows[i])
  {
    var rows := seq(|rec|, i requires 0 <= i < |rec| => MakeRow(rec[i].id, None, SuccessStatus, clock(i), FromCampaign(id)));
    forall i | 0 <= i < |rows|
      ensures && rows[i].userId == rec[i].id && rows[i].channel.None?
              && rows[i].status == SuccessStatus && rows[i].sentAt == clock(i)
              && rows[i].campaignId == Some(id) && ExactlyOneSource(rows[i])
    {
      assert rows[i] == MakeRow(rec[i].id, None, SuccessStatus, clock(i), FromCampaign(id));
      MakeRowSource(rec[i].id, None, SuccessStatus, clock(i), FromCampaign(id));
    }
    rows
  }

  /** The log after the legacy rows are appended: the old rows first, then
      one channel-less success row of the campaign per recipient. */
  lemma LegacyRowsAppended(logs: seq<LogRow>, rec: seq<User>, id: CampaignId, clock: nat -> Time)
    ensures var all := logs + LegacyRows(rec, id, clock);
      && |all| == |logs| + |rec|
      && all[..|logs|] == logs
      && forall j :: |logs| <= j < |all| ==>
           all[j].userId == rec[j - |logs|].id && all[j].sentAt == clock(j - |logs|)
           && all[j].channel.None? && all[j].campaignId == Some(id)
           && all[j].status == SuccessStatus && ExactlyOneSource(all[j])
  {
    var rows := LegacyRows(rec, id, clock);
    var all := logs + rows;
    assert all[..|logs|] == logs;
    forall j | |logs| <= j < |all|
      ensures all[j].userId == rec[j - |logs|].id && all[j].sentAt == clock(j - |logs|)
           && all[j].channel.None? && all[j].campaignId == Some(id)
           && all[j].status == SuccessStatus && ExactlyOneSource(all[j])
    {
      assert all[j] == rows[j - |logs|];
    }
  }

  const SendFailed: string := "Campaign sending failed. No data was changed."

  /** `sendCampaign`: the legacy "send now". It accepts a campaign in any
      status, writes one row without a channel per recipient and sets the
      status to sent without clearing `scheduled_at`. `fault` is the
      transaction throwing; `clock` the per-row clock of `LegacyRows`. The
      result is the store and `recipients`. */
  function LegacySendCampaign(st: Store, id: CampaignId, clock: nat -> Time, fault: bool): (r: Result<(Store, nat), HttpError>)
    ensures id !in st.campaigns ==> r == Failure(HttpError(NotFound, "Campaign not found"))
    ensures r.Success? <==> id in st.campaigns && !(fault && |LegacyRecipients(st, st.campaigns[id])| > 0)
    ensures r.Failure? && r.error.status != NotFound ==> fault && r.error == HttpError(ServerError, SendFailed)
    ensures r.Success? ==>
      var c := st.campaigns[id];
      var n := |LegacyRecipients(st, c)|;
      && r.value.1 == n
      && (n == 0 ==> r.value.0 == st)
      && (n > 0 ==>
            && !fault
            && |r.value.0.logs| == |st.logs| + n
            && r.value.0.logs[..|st.logs|] == st.logs
            && r.value.0.campaigns == st.campaigns[id := c.(status := Sent)]
            && r.value.0.(logs := st.logs, campaigns := st.campaigns) == st
            && forall j :: |st.logs| <= j < |r.value.0.logs| ==>
                 r.value.0.logs[j].userId == LegacyRecipients(st, c)[j - |st.logs|].id
                 && r.value.0.logs[j].sentAt == clock(j - |st.logs|)
                 && r.value.0.logs[j].channel.None? && r.value.0.logs[j].campaignId == Some(id)
                 && r.value.0.logs[j].status == SuccessStatus && ExactlyOneSource(r.value.0.logs[j]))
  {
    if id !in st.campaigns then Failure(HttpError(NotFound, "Campaign not found"))
    else
      var c := st.campaigns[id];
      var rec := LegacyRecipients(st, c);
      if |rec| == 0 then Success((st, 0))
      else if fault then Failure(HttpError(ServerError, SendFailed))
      else
        LegacyRowsAppended(st.logs, rec, id, clock);
        Success((st.(logs := st.logs + LegacyRows(rec, id, clock), campaigns := st.campaigns[id := c.(status := Sent)]), |rec|))
  }

  /** With no status precondition, sending a campaign that was already sent
      writes its rows a second time. */
  lemma LegacyResendRepeats(st: Store, id: CampaignId, clock: nat -> Time, clock2: nat -> Time)
    requires LegacySendCampaign(st, id, clock, false).Success?
    requires LegacySendCampaign(st, id, clock, false).value.1 > 0
    ensures var st' := LegacySendCampaign(st, id, clock, false).value.0;
      && LegacySendCampaign(st', id, clock2, false).Success?
      && LegacySendCampaign(st', id, clock2, false).value.1 == LegacySendCampaign(st, id, clock, false).value.1
      && |LegacySendCampaign(st', id, clock2, false).value.0.logs| == |st.logs| + 2 * LegacySendCampaign(st, id, clock, false).value.1
  {
    var st' := LegacySendCampaign(st, id, clock, false).value.0;
    var c := st.campaigns[id];
    assert st'.campaigns[id] == c.(status := Sent);
    assert LegacyRecipients(st', st'.campaigns[id]) == LegacyRecipients(st, c) by {
      assert st'.users == st.users && st'.prefs == st.prefs;
      assert forall u :: LegacyEligible(u, st'.prefs, st'.campaigns[id]) == LegacyEligible(u, st.prefs, c);
      SelectSameKeep(st.users, u => LegacyEligible(u, st'.prefs, st'.campaigns[id]), u => LegacyEligible(u, st.prefs, c));
    }
  }

  /** Two predicates that agree everywhere select the same rows. */
  lemma SelectSameKeep(users: seq<User>, k1: User -> bool, k2: User -> bool)
    requires forall u :: k1(u) == k2(u)
    ensures Select(users, k1) == Select(users, k2)
  {
    if |users| > 0 {
      SelectSameKeep(users[1..], k1, k2);
    }
  }

  /** The legacy send and the delivery service disagree: a user with the legacy
      `offers` flag but no offers channel gets a legacy row and no service row. */
  lemma LegacyDiffersFromService(clock: nat -> Time, now: Time)
    ensures var u := User(1, "a", "a@x", None, UserRole, None, true, "");
      var p := Preference(true, false, false, false, false, false, false, false, false, false, false, false);
      var c := Campaign(7, "n", "m", None, Offers, None, Draft, None, 1);
      var st := Store([u], map[1 := p], map[], [], map[7 := c], map[], map[], []);
      && LegacySendCampaign(st, 7, clock, false).Success?
      && LegacySendCampaign(st, 7, clock, false).value.1 == 1
      && CampaignDelivery.DeliverCampaignNow(st, 7, None, now, false) == Success(CampaignDelivery.Report(st, 0, 0))
  {
    var u := User(1, "a", "a@x", None, UserRole, None, true, "");
    var p := Preference(true, false, false, false, false, false, false, false, false, false, false, false);
    var c := Campaign(7, "n", "m", None, Offers, None, Draft, None, 1);
    var st := Store([u], map[1 := p], map[], [], map[7 := c], map[], map[], []);
    var legacy := LegacyRecipients(st, c);
    assert LegacyEligible(u, st.prefs, c);
    assert u in legacy;
    assert |legacy| == 1;
    var service := CampaignDelivery.CampaignRecipients(st, c);
    assert !CampaignDelivery.OffersEligible(u, st.prefs, CampaignDelivery.CityList(c));
  }
}

=== FILE: cities.dfy ===
/** The hard-coded list of Indian cities and the validators built on it. */
module Cities {
  import opened Text
  import opened Json

  /** The allowed cities, as listed in the source (Nashik and Vadodara appear twice). */
  const IndianCities: seq<string> := [
    "Ahmedabad", "Bangalore", "Bhopal", "Chandigarh", "Chennai", "Coimbatore",
    "Delhi", "Pune", "Hyderabad", "Indore", "Jaipur", "Kanpur", "Kolkata",
    "Lucknow", "Mumbai", "Nagpur", "Nashik", "Patna", "Surat", "Vadodara",
    "Visakhapatnam", "Aurangabad", "Bhubaneswar", "Ghaziabad", "Kochi",
    "Nashik", "Vadodara", "Khandwa", "Gwalior"
  ]

  /** `list.some((c) => c.toLowerCase() === s.toLowerCase())`. */
  function MatchesIgnoringCase(list: seq<string>, s: string): (r: bool)
    ensures r <==> exists i :: 0 <= i < |list| && Lower(list[i]) == Lower(s)
  {
    if |list| == 0 then false
    else Lower(list[0]) == Lower(s) || MatchesIgnoringCase(list[1..], s)
  }

  /** `isValidCity(city)`: a truthy string whose trimmed form names a listed
      city, ignoring case. */
  function IsValidCity(v: Value): (r: bool)
    ensures r <==> v.Str? && exists i :: 0 <= i < |IndianCities| && Lower(IndianCities[i]) == Lower(Trim(v.s))
    ensures r ==> |Trim(v.s)| > 0
  {
    CitiesNonEmpty();
    Truthy(v) && v.Str? && MatchesIgnoringCase(IndianCities, Trim(v.s))
  }

  lemma CitiesNonEmpty()
    ensures forall i :: 0 <= i < |IndianCities| ==> |IndianCities[i]| > 0
  {
  }

  /** Empty, null, undefined and non-string inputs are never valid. */
  lemma InvalidInputs(v: Value)
    requires v.Str? ==> v.s == ""
    ensures !IsValidCity(v)
  {
  }

  /** Changing the case of the input never changes the verdict. */
  lemma IsValidCityIgnoresCase(s: string)
    ensures IsValidCity(Str(Lower(s))) == IsValidCity(Str(s))
  {
    LowerTrimCommute(s);
    LowerIdempotent(Trim(s));
  }

  /** Surrounding whitespace never changes the verdict. */
  lemma IsValidCityIgnoresPadding(pre: string, s: string, post: string)
    requires AllSpace(pre) && AllSpace(post)
    ensures IsValidCity(Str(pre + s + post)) == IsValidCity(Str(s))
  {
    TrimIgnoresPadding(pre, s, post);
  }

  /** Two lists with the same entries accept the same names, so the repeated
      entries of the list are harmless. */
  lemma SameEntriesSameMatches(l1: seq<string>, l2: seq<string>, s: string)
    requires forall c :: c in l1 <==> c in l2
    ensures MatchesIgnoringCase(l1, s) == MatchesIgnoringCase(l2, s)
  {
    if MatchesIgnoringCase(l1, s) {
      var i :| 0 <= i < |l1| && Lower(l1[i]) == Lower(s);
      assert l1[i] in l2;
    }
    if MatchesIgnoringCase(l2, s) {
      var i :| 0 <= i < |l2| && Lower(l2[i]) == Lower(s);
      assert l2[i] in l1;
    }
  }

  /** Dropping the two repeated entries (the second Nashik and Vadodara)
      leaves every verdict unchanged. */
  lemma RepeatedCitiesIrrelevant(v: Value)
    ensures IsValidCity(v) <==> v.Str? && MatchesIgnoringCase(IndianCities[..25] + IndianCities[27..], Trim(v.s))
  {
    var distinct := IndianCities[..25] + IndianCities[27..];
    forall c ensures c in IndianCities <==> c in distinct {
      if c in IndianCities {
        var i :| 0 <= i < |IndianCities| && IndianCities[i] == c;
        if i < 25 { assert distinct[i] == c; }
        else if i == 25 { assert distinct[16] == c; }
        else if i == 26 { assert distinct[19] == c; }
        else { assert distinct[i - 2] == c; }
      }
    }
    if v.Str? {
      SameEntriesSameMatches(IndianCities, distinct, Trim(v.s));
    }
  }

  /** Every element is a valid city. */
  predicate AllValid(items: seq<Value>) {
    forall i :: 0 <= i < |items| ==> IsValidCity(items[i])
  }

  /** `cities.every(isValidCity)`, evaluated left to right. */
  function EveryValid(items: seq<Value>): (r: bool)
    ensures r <==> AllValid(items)
  {
    if |items| == 0 then true
    else IsValidCity(items[0]) && EveryValid(items[1..])
  }

  /** `areValidCities(cities)`: false for a non-array, otherwise every element valid. */
  function AreValidCities(v: Value): (r: bool)
    ensures r <==> v.Arr? && AllValid(v.items)
    ensures v == Arr([]) ==> r
  {
    v.Arr? && EveryValid(v.items)
  }
}

=== FILE: city_filters.dfy ===
/** `normalizeCityFilters` of the campaign controller: accepts an array, a JSON
    string or a comma-separated string and produces a trimmed list of city
    names without case-insensitive duplicates. */
module CityFilters {
  import opened Wrappers
  import opened Text
  import opened Json
  import opened Seqs

  const NotAnArrayMessage: string := "city_filters must be an array of city names"

  /** The mapped form of one entry: a string trimmed, anything else empty. */
  function Cleaned(v: Value): string {
    if v.Str? then Trim(v.s) else ""
  }

  /** `raw.map((c) => typeof c === "string" ? c.trim() : "").filter((c) => c.length > 0)`. */
  function CleanEntries(items: seq<Value>): (r: seq<string>)
    ensures |r| <= |items|
    ensures forall c :: c in r ==> |c| > 0 && IsTrimmed(c)
    ensures |items| == 1 ==> r == if |Cleaned(items[0])| > 0 then [Cleaned(items[0])] else []
  {
    if |items| == 0 then []
    else
      var c := Cleaned(items[0]);
      (if |c| > 0 then [c] else []) + CleanEntries(items[1..])
  }

  /** Cleaning works entry by entry and keeps the order: the entries of a
      concatenation are the entries of each part, one after the other. */
  lemma {:induction false} CleanEntriesAppend(a: seq<Value>, b: seq<Value>)
    ensures CleanEntries(a + b) == CleanEntries(a) + CleanEntries(b)
  {
    if |a| == 0 {
      assert a + b == b;
    } else {
      assert (a + b)[1..] == a[1..] + b;
      CleanEntriesAppend(a[1..], b);
    }
  }

  /** A name is among the cleaned entries iff it is non-empty and is the
      trimmed form of some string entry. */
  lemma {:induction false} CleanEntriesMembers(items: seq<Value>, c: string)
    ensures c in CleanEntries(items) <==> |c| > 0 && exists v :: v in items && v.Str? && Trim(v.s) == c
  {
    if |items| > 0 {
      CleanEntriesMembers(items[1..], c);
      assert items == [items[0]] + items[1..];
      forall v | v in items && v != items[0] ensures v in items[1..] { }
    }
  }

  /** The dedupe loop, started with the lower-cased keys already in `seen`:
      keeps an entry only when its lower-cased key is new. */
  function DedupeFrom(xs: seq<string>, seen: set<string>): (r: seq<string>)
    ensures |r| <= |xs|
    ensures forall c :: c in r ==> c in xs && Lower(c) !in seen
    ensures forall i, j :: 0 <= i < j < |r| ==> Lower(r[i]) != Lower(r[j])
  {
    if |xs| == 0 then []
    else if Lower(xs[0]) in seen then DedupeFrom(xs[1..], seen)
    else [xs[0]] + DedupeFrom(xs[1..], seen + {Lower(xs[0])})
  }

  function Dedupe(xs: seq<string>): seq<string> {
    DedupeFrom(xs, {})
  }

  /** The parsed form of a non-blank string: the JSON value when `JSON.parse`
      succeeds, otherwise the array of its comma-separated pieces. */
  function ParseString(trimmed: string, parseJson: string -> Option<Value>): Value {
    match parseJson(trimmed)
    case Some(parsed) => parsed
    case None => Arr(Strs(Split(trimmed, ',')))
  }

  /** `normalizeCityFilters(value)`. `parseJson` stands for `JSON.parse`:
      `None` where it throws. `Success(None)` is the null result. */
  function NormalizeCityFilters(v: Value, parseJson: string -> Option<Value>): (r: Result<Option<seq<string>>, string>)
    ensures IsNullish(v) ==> r == Success(None)
    ensures v.Str? && Trim(v.s) == "" ==> r == Success(Some([]))
    ensures v.Arr? ==> r.Success? && r.value.Some?
    ensures (v.Bool? || v.Num? || v.Obj?) ==> r == Failure(NotAnArrayMessage)
    ensures r.Failure? ==> r.error == NotAnArrayMessage
    ensures r.Success? && r.value.Some? ==>
      && (forall c :: c in r.value.value ==> |c| > 0 && IsTrimmed(c))
      && (forall i, j :: 0 <= i < j < |r.value.value| ==> Lower(r.value.value[i]) != Lower(r.value.value[j]))
  {
    if IsNullish(v) then Success(None)
    else
      var raw :=
        if v.Str? then
          var trimmed := Trim(v.s);
          if trimmed == "" then Arr([]) else ParseString(trimmed, parseJson)
        else v;
      if !raw.Arr? then Failure(NotAnArrayMessage)
      else Success(Some(Dedupe(CleanEntries(raw.items))))
  }

  /** The index of the first entry with the given lower-cased key, or `|xs|`. */
  function FirstKeyIndex(xs: seq<string>, key: string): (k: nat)
    ensures k <= |xs|
    ensures k < |xs| ==> Lower(xs[k]) == key
    ensures forall j :: 0 <= j < k ==> Lower(xs[j]) != key
  {
    if |xs| == 0 then 0
    else if Lower(xs[0]) == key then 0
    else 1 + FirstKeyIndex(xs[1..], key)
  }

  /** Where the key of `c` first occurs in `xs`. */
  function Position(xs: seq<string>, c: string): nat {
    FirstKeyIndex(xs, Lower(c))
  }

  /** The lower-cased keys of a list. */
  function Keys(xs: seq<string>): set<string> {
    set c | c in xs :: Lower(c)
  }

  /** A key other than the head's first occurs one place later than in the tail. */
  lemma PositionShift(xs: seq<string>, c: string)
    requires |xs| > 0 && Lower(xs[0]) != Lower(c)
    ensures Position(xs, c) == 1 + Position(xs[1..], c)
  {
  }

  /** The unfolding of one step of the dedupe loop. */
  lemma DedupeStep(xs: seq<string>, seen: set<string>)
    requires |xs| > 0
    ensures Lower(xs[0]) in seen ==> DedupeFrom(xs, seen) == DedupeFrom(xs[1..], seen)
    ensures Lower(xs[0]) !in seen ==>
      DedupeFrom(xs, seen) == [xs[0]] + DedupeFrom(xs[1..], seen + {Lower(xs[0])})
  {
  }

  /** Every key of the input that was not already seen is kept. */
  lemma {:induction false} DedupeComplete(xs: seq<string>, seen: set<string>)
    ensures forall c :: c in xs && Lower(c) !in seen ==> Lower(c) in Keys(DedupeFrom(xs, seen))
  {
    if |xs| > 0 {
      var key0 := Lower(xs[0]);
      var seen' := if key0 in seen then seen else seen + {key0};
      var tail := DedupeFrom(xs[1..], seen');
      DedupeStep(xs, seen);
      DedupeComplete(xs[1..], seen');
      forall c | c in xs && Lower(c) !in seen
        ensures Lower(c) in Keys(DedupeFrom(xs, seen))
      {
        if Lower(c) == key0 {
          assert xs[0] in DedupeFrom(xs, seen);
        } else {
          HeadTail(xs);
          var d :| d in tail && Lower(d) == Lower(c);
          assert d in DedupeFrom(xs, seen);
        }
      }
    }
  }

  /** Each kept entry is the first spelling of its key in the input. */
  lemma {:induction false} DedupeFirstSpelling(xs: seq<string>, seen: set<string>)
    ensures forall c :: c in DedupeFrom(xs, seen) ==> Position(xs, c) < |xs| && xs[Position(xs, c)] == c
  {
    if |xs| > 0 {
      var key0 := Lower(xs[0]);
      var seen' := if key0 in seen then seen else seen + {key0};
      var tail := DedupeFrom(xs[1..], seen');
      DedupeStep(xs, seen);
      DedupeFirstSpelling(xs[1..], seen');
      forall c | c in tail
        ensures Position(xs, c) < |xs| && xs[Position(xs, c)] == c
      {
        PositionShift(xs, c);
      }
    }
  }

  /** The entries of `r` appear in the order of the first occurrences of their keys in `xs`. */
  predicate InFirstOccurrenceOrder(xs: seq<string>, r: seq<string>) {
    forall i, j :: 0 <= i < j < |r| ==> Position(xs, r[i]) < Position(xs, r[j])
  }

  /** Entries whose keys differ from the head's keep their relative order when the head is put back. */
  lemma OrderShift(xs: seq<string>, tail: seq<string>)
    requires |xs| > 0
    requires forall c :: c in tail ==> Lower(c) != Lower(xs[0])
    requires InFirstOccurrenceOrder(xs[1..], tail)
    ensures InFirstOccurrenceOrder(xs, tail)
    ensures InFirstOccurrenceOrder(xs, [xs[0]] + tail)
  {
    forall c | c in tail
      ensures Position(xs, c) == 1 + Position(xs[1..], c)
    {
      PositionShift(xs, c);
    }
    var r := [xs[0]] + tail;
    forall i, j | 0 <= i < j < |r|
      ensures Position(xs, r[i]) < Position(xs, r[j])
    {
      assert r[j] == tail[j - 1];
      if i > 0 { assert r[i] == tail[i - 1]; }
    }
  }

  /** The kept entries appear in the order of the first occurrences of their keys. */
  lemma {:induction false} DedupeOrder(xs: seq<string>, seen: set<string>)
    ensures InFirstOccurrenceOrder(xs, DedupeFrom(xs, seen))
  {
    if |xs| > 0 {
      var key0 := Lower(xs[0]);
      var seen' := if key0 in seen then seen else seen + {key0};
      DedupeStep(xs, seen);
      DedupeOrder(xs[1..], seen');
      OrderShift(xs, DedupeFrom(xs[1..], seen'));
    }
  }

  /** An input whose keys are already distinct and unseen comes back unchanged. */
  lemma {:induction false} DedupeKeepsDistinct(xs: seq<string>, seen: set<string>)
    requires forall i :: 0 <= i < |xs| ==> Lower(xs[i]) !in seen
    requires forall i, j :: 0 <= i < j < |xs| ==> Lower(xs[i]) != Lower(xs[j])
    ensures DedupeFrom(xs, seen) == xs
  {
    if |xs| > 0 {
      var s' := seen + {Lower(xs[0])};
      forall i | 0 <= i < |xs[1..]| ensures Lower(xs[1..][i]) !in s' {
        assert xs[1..][i] == xs[i + 1];
      }
      DedupeStep(xs, seen);
      DedupeKeepsDistinct(xs[1..], s');
      HeadTail(xs);
    }
  }

  lemma StrsTail(xs: seq<string>)
    requires |xs| > 0
    ensures Strs(xs)[0] == Str(xs[0])
    ensures Strs(xs)[1..] == Strs(xs[1..])
  {
  }

  /** Entries that are already trimmed and non-empty pass the cleaning unchanged. */
  lemma {:induction false} CleanKeepsClean(xs: seq<string>)
    requires forall c :: c in xs ==> |c| > 0 && IsTrimmed(c)
    ensures CleanEntries(Strs(xs)) == xs
  {
    if |xs| > 0 {
      TrimTrimmed(xs[0]);
      StrsTail(xs);
      CleanKeepsClean(xs[1..]);
      HeadTail(xs);
    }
  }

  /** An array is cleaned and deduplicated, with no parsing involved. */
  lemma NormalizeOfArray(items: seq<Value>, parseJson: string -> Option<Value>)
    ensures NormalizeCityFilters(Arr(items), parseJson) == Success(Some(Dedupe(CleanEntries(items))))
  {
  }

  /** Normalising a normalised list returns it unchanged. */
  lemma NormalizeIdempotent(v: Value, parseJson: string -> Option<Value>)
    requires NormalizeCityFilters(v, parseJson).Success?
    requires NormalizeCityFilters(v, parseJson).value.Some?
    ensures var out := NormalizeCityFilters(v, parseJson).value.value;
      NormalizeCityFilters(Arr(Strs(out)), parseJson) == Success(Some(out))
  {
    var out := NormalizeCityFilters(v, parseJson).value.value;
    NormalizeOfArray(Strs(out), parseJson);
    CleanKeepsClean(out);
    DedupeKeepsDistinct(out, {});
  }

  /** What normalising an array keeps (see `NormalizeOfArray`): of the
      trimmed non-empty string entries, one spelling of every lower-cased key,
      only spellings it was given, each the first of its key, in order of
      first appearance. */
  lemma DedupeFacts(xs: seq<string>)
    ensures var r := Dedupe(xs);
      && (forall c :: c in xs ==> Lower(c) in Keys(r))
      && (forall c :: c in r ==> Position(xs, c) < |xs| && xs[Position(xs, c)] == c)
      && InFirstOccurrenceOrder(xs, r)
  {
    assert Dedupe(xs) == DedupeFrom(xs, {});
    DedupeComplete(xs, {});
    DedupeFirstSpelling(xs, {});
    DedupeOrder(xs, {});
  }

  /** A non-blank string that is not JSON is read as the array of its
      comma-separated pieces; joining those pieces gives the trimmed string back. */
  lemma CommaSeparatedString(s: string, parseJson: string -> Option<Value>)
    requires Trim(s) != "" && parseJson(Trim(s)).None?
    ensures NormalizeCityFilters(Str(s), parseJson)
         == NormalizeCityFilters(Arr(Strs(Split(Trim(s), ','))), parseJson)
    ensures Join(Split(Trim(s), ','), ',') == Trim(s)
  {
    JoinSplit(Trim(s), ',');
  }
}

=== FILE: delivery.dfy ===
/** `deliverCampaignNow`: resolves the recipients of a campaign, fans out one
    log row per enabled offers channel and marks the campaign sent, all in one
    transaction. */
module CampaignDelivery {
  import opened Wrappers
  import opened Domain

  /** The errors the service throws; `StoreFault` is the transaction failing. */
  datatype DeliveryError = CampaignNotFound | StatusNotDeliverable(status: CampaignStatus) | StoreFault

  /** The `code` property of the thrown error, when it has one. */
  function ErrorCode(e: DeliveryError): Option<string> {
    match e
    case CampaignNotFound => Some("CAMPAIGN_NOT_FOUND")
    case StatusNotDeliverable(_) => Some("CAMPAIGN_STATUS_NOT_DELIVERABLE")
    case StoreFault => None
  }

  /** The store after the call and the `{ recipients, logCount }` it returns. */
  datatype Report = Report(store: Store, recipients: nat, logCount: nat)

  /** `Array.isArray(city_filters) ? city_filters : []`: a null filter is the empty list. */
  function CityList(c: Campaign): seq<string> {
    c.cityFilters.GetOr([])
  }

  /** The `where` of the user query: active, in the city list when the list is
      non-empty, and with at least one offers channel on. The campaign's
      `notification_type` plays no part. */
  predicate OffersEligible(u: User, prefs: map<UserId, Preference>, cities: seq<string>) {
    && u.isActive
    && (|cities| == 0 || (u.city.Some? && u.city.value in cities))
    && u.id in prefs
    && (Flag(prefs[u.id], Offers, Push) || Flag(prefs[u.id], Offers, Email) || Flag(prefs[u.id], Offers, Sms))
  }

  /** The users the query returns, in directory order. */
  function Recipients(users: seq<User>, prefs: map<UserId, Preference>, cities: seq<string>): (r: seq<User>)
    ensures forall u :: u in r <==> u in users && OffersEligible(u, prefs, cities)
    ensures UniqueUserIds(users) ==> UniqueUserIds(r)
  {
    Select(users, u => OffersEligible(u, prefs, cities))
  }

  /** The recipients of campaign `c` in store `st`. */
  function CampaignRecipients(st: Store, c: Campaign): seq<User> {
    Recipients(st.users, st.prefs, CityList(c))
  }

  /** The rows the loop over the recipients collects. */
  function CampaignRows(st: Store, id: CampaignId, rec: seq<User>, now: Time): seq<LogRow> {
    FanOut(Ids(rec), st.prefs, Offers, FromCampaign(id), SuccessStatus, now)
  }

  /** The store after the transaction: logs appended, campaign sent with no schedule. */
  function Commit(st: Store, id: CampaignId, rows: seq<LogRow>): Store
    requires id in st.campaigns
  {
    st.(logs := st.logs + rows,
        campaigns := st.campaigns[id := st.campaigns[id].(status := Sent, scheduledAt := None)])
  }

  /** An eligible recipient has an offers channel, so it yields at least one row. */
  lemma EligibleReachable(st: Store, c: Campaign)
    ensures AllReachable(Ids(CampaignRecipients(st, c)), st.prefs, Offers)
  {
    var rec := CampaignRecipients(st, c);
    forall i | 0 <= i < |Ids(rec)| ensures |ChannelsOf(st.prefs, Ids(rec)[i], Offers)| > 0 {
      assert rec[i] in rec;
      var p := st.prefs[rec[i].id];
      assert Flag(p, Offers, Push) ==> Push in EnabledChannels(p, Offers);
      assert Flag(p, Offers, Email) ==> Email in EnabledChannels(p, Offers);
      assert Flag(p, Offers, Sms) ==> Sms in EnabledChannels(p, Offers);
    }
  }

  /** `deliverCampaignNow({ campaign_id: id, allowedStatuses })`, where `None`
      stands for an `allowedStatuses` that is not an array and `fault` for the
      transaction throwing. */
  function DeliverCampaignNow(st: Store, id: CampaignId, allowed: Option<seq<CampaignStatus>>,
                              now: Time, fault: bool): (r: Result<Report, DeliveryError>)
    ensures id !in st.campaigns ==> r == Failure(CampaignNotFound)
    ensures id in st.campaigns && allowed.Some? && st.campaigns[id].status !in allowed.value
      ==> r == Failure(StatusNotDeliverable(st.campaigns[id].status))
    ensures r.Failure? && r.error == StoreFault ==> fault
    ensures r.Success? <==>
      && id in st.campaigns && (allowed.None? || st.campaigns[id].status in allowed.value)
      && !(fault && |CampaignRecipients(st, st.campaigns[id])| > 0)
    ensures id in st.campaigns && (allowed.None? || st.campaigns[id].status in allowed.value)
            && fault && |CampaignRecipients(st, st.campaigns[id])| > 0
      ==> r == Failure(StoreFault)
    ensures r.Success? ==>
      var c := st.campaigns[id];
      var n := |CampaignRecipients(st, c)|;
      && r.value.recipients == n
      && r.value.logCount == ChannelTotal(Ids(CampaignRecipients(st, c)), st.prefs, Offers)
      && r.value.recipients <= r.value.logCount <= 3 * r.value.recipients
      && (n == 0 <==> r.value.store == st)
      && (n > 0 ==>
            && !fault
            && |r.value.store.logs| == |st.logs| + r.value.logCount
            && r.value.store.logs[..|st.logs|] == st.logs
            && r.value.store.campaigns == st.campaigns[id := c.(status := Sent, scheduledAt := None)]
            && r.value.store.(logs := st.logs, campaigns := st.campaigns) == st)
    ensures r.Success? ==> forall j :: |st.logs| <= j < |r.value.store.logs| ==>
      var row := r.value.store.logs[j];
      && row.status == SuccessStatus && row.sentAt == now && row.channel.Some?
      && row.campaignId == Some(id) && ExactlyOneSource(row)
      && exists u :: u in CampaignRecipients(st, st.campaigns[id]) && u.id == row.userId
  {
    if id !in st.campaigns then Failure(CampaignNotFound)
    else
      var c := st.campaigns[id];
      if allowed.Some? && c.status !in allowed.value then Failure(StatusNotDeliverable(c.status))
      else
        var rec := CampaignRecipients(st, c);
        var rows := CampaignRows(st, id, rec, now);
        RowsCount(st, c, id, now);
        // The source checks both; with every recipient reachable the second never fires.
        if |rec| == 0 || |rows| == 0 then Success(Report(st, 0, 0))
        else if fault then Failure(StoreFault)
        else
          RowsShape(st, c, id, now);
          CommitFacts(st, id, rows);
          Success(Report(Commit(st, id, rows), |rec|, |rows|))
  }

  /** The number of rows: one per enabled channel, between one and three per recipient. */
  lemma RowsCount(st: Store, c: Campaign, id: CampaignId, now: Time)
    ensures var rec := CampaignRecipients(st, c);
      && |CampaignRows(st, id, rec, now)| == ChannelTotal(Ids(rec), st.prefs, Offers)
      && |rec| <= |CampaignRows(st, id, rec, now)| <= 3 * |rec|
  {
    var rec := CampaignRecipients(st, c);
    EligibleReachable(st, c);
    FanOutCount(Ids(rec), st.prefs, Offers, FromCampaign(id), SuccessStatus, now);
  }

  /** Every row carries status `success`, the shared time, a channel, the
      campaign as its only source and a recipient's id. */
  lemma RowsShape(st: Store, c: Campaign, id: CampaignId, now: Time)
    ensures forall row :: row in CampaignRows(st, id, CampaignRecipients(st, c), now) ==>
      && row.status == SuccessStatus && row.sentAt == now && row.channel.Some?
      && row.campaignId == Some(id) && ExactlyOneSource(row)
      && exists u :: u in CampaignRecipients(st, c) && u.id == row.userId
  {
    var rec := CampaignRecipients(st, c);
    FanOutRows(Ids(rec), st.prefs, Offers, FromCampaign(id), SuccessStatus, now);
    forall row | row in CampaignRows(st, id, rec, now) ensures exists u :: u in rec && u.id == row.userId {
      var k :| 0 <= k < |Ids(rec)| && Ids(rec)[k] == row.userId;
      assert rec[k] in rec;
    }
  }

  /** The committed store differs from the old one only in the campaign and the appended rows. */
  lemma CommitFacts(st: Store, id: CampaignId, rows: seq<LogRow>)
    requires id in st.campaigns && |rows| > 0
    ensures var st' := Commit(st, id, rows);
      && st'.logs[..|st.logs|] == st.logs
      && |st'.logs| == |st.logs| + |rows|
      && (forall j :: |st.logs| <= j < |st'.logs| ==> st'.logs[j] in rows)
      && st' != st
      && st'.(logs := st.logs, campaigns := st.campaigns) == st
  {
    var st' := Commit(st, id, rows);
    assert st'.logs[..|st.logs|] == st.logs;
    forall j | |st.logs| <= j < |st'.logs| ensures st'.logs[j] in rows {
      assert st'.logs[j] == rows[j - |st.logs|];
    }
    assert |st'.logs| > |st.logs|;
  }

  /** Per user, a successful delivery logs exactly the user's enabled offers
      channels in push, email, sms order when the user is eligible, and
      nothing otherwise. */
  lemma RowsPerUser(st: Store, id: CampaignId, allowed: Option<seq<CampaignStatus>>, now: Time, fault: bool, u: User)
    requires UniqueUserIds(st.users) && u in st.users
    requires DeliverCampaignNow(st, id, allowed, now, fault).Success?
    ensures var r := DeliverCampaignNow(st, id, allowed, now, fault).value;
      RowsFor(r.store.logs[|st.logs|..], u.id)
        == if r.recipients > 0 && OffersEligible(u, st.prefs, CityList(st.campaigns[id]))
           then UserRows(u.id, EnabledChannels(st.prefs[u.id], Offers), FromCampaign(id), SuccessStatus, now)
           else []
  {
    var r := DeliverCampaignNow(st, id, allowed, now, fault).value;
    var c := st.campaigns[id];
    var rec := CampaignRecipients(st, c);
    if r.recipients > 0 {
      var ids := Ids(rec);
      assert r.store.logs[|st.logs|..] == CampaignRows(st, id, rec, now);
      FanOutPerUser(ids, st.prefs, Offers, FromCampaign(id), SuccessStatus, now, u.id);
      IdListedIffUser(st.users, rec, u);
    } else {
      assert r.store.logs[|st.logs|..] == [];
    }
  }

  /** A campaign without a city list, or with an empty one, reaches every
      active user with an offers channel, wherever they live. */
  lemma NoCityListMeansAllCities(st: Store, c: Campaign, u: User)
    requires c.cityFilters.None? || c.cityFilters == Some([])
    ensures OffersEligible(u, st.prefs, CityList(c)) <==>
      u.isActive && u.id in st.prefs && |EnabledChannels(st.prefs[u.id], Offers)| > 0
  {
  }

  /** The campaign's `notification_type` never changes the outcome. */
  lemma NotificationTypeIgnored(st: Store, id: CampaignId, t: Category,
                                allowed: Option<seq<CampaignStatus>>, now: Time, fault: bool)
    requires id in st.campaigns
    ensures var st2 := st.(campaigns := st.campaigns[id := st.campaigns[id].(notificationType := t)]);
      var r1 := DeliverCampaignNow(st, id, allowed, now, fault);
      var r2 := DeliverCampaignNow(st2, id, allowed, now, fault);
      && r1.Success? == r2.Success?
      && (r1.Success? ==>
            && r1.value.recipients == r2.value.recipients
            && r1.value.store.logs == r2.value.store.logs)
  {
    var st2 := st.(campaigns := st.campaigns[id := st.campaigns[id].(notificationType := t)]);
    assert CityList(st.campaigns[id]) == CityList(st2.campaigns[id]);
    assert CampaignRecipients(st, st.campaigns[id]) == CampaignRecipients(st2, st2.campaigns[id]);
  }

  /** Once delivered, a campaign is `sent`, so a second delivery restricted to
      statuses other than `sent` is refused and writes nothing more. */
  lemma NoSecondDelivery(st: Store, id: CampaignId, allowed: Option<seq<CampaignStatus>>, now: Time, fault: bool,
                         allowed2: seq<CampaignStatus>, now2: Time, fault2: bool)
    requires DeliverCampaignNow(st, id, allowed, now, fault).Success?
    requires DeliverCampaignNow(st, id, allowed, now, fault).value.recipients > 0
    requires Sent !in allowed2
    ensures DeliverCampaignNow(DeliverCampaignNow(st, id, allowed, now, fault).value.store, id, Some(allowed2), now2, fault2)
         == Failure(StatusNotDeliverable(Sent))
  {
  }
}

=== FILE: domain.dfy ===
/** The entities of the notification platform, the in-memory store that stands
    for the relational database, and the per-channel fan-out of log rows that
    the campaign, newsletter and order flows share. */
module Domain {
  import opened Wrappers
  import opened Seqs

  type UserId = int
  type CampaignId = int
  type ArticleId = string
  type NewsletterId = string
  type OrderId = string
  /** Milliseconds since the epoch. */
  type Time = int

  datatype Role = AdminRole | CreatorRole | ViewerRole | UserRole

  /** The role as stored in the `role` column. */
  function RoleName(r: Role): string {
    match r
    case AdminRole => "admin"
    case CreatorRole => "creator"
    case ViewerRole => "viewer"
    case UserRole => "user"
  }

  datatype Channel = Push | Email | Sms

  /** The order in which every flow emits channels: push, email, sms. */
  function ChannelRank(ch: Channel): nat {
    match ch
    case Push => 0
    case Email => 1
    case Sms => 2
  }

  /** A notification topic; each has one legacy flag and three channel flags. */
  datatype Category = Offers | OrderUpdates | Newsletter

  function CategoryName(c: Category): string {
    match c
    case Offers => "offers"
    case OrderUpdates => "order_updates"
    case Newsletter => "newsletter"
  }

  /** The `notification_type` string of a request, if it names a category. */
  function ParseCategory(s: string): (r: Option<Category>)
    ensures r.Some? <==> s in {"offers", "order_updates", "newsletter"}
    ensures r.Some? ==> CategoryName(r.value) == s
  {
    if s == "offers" then Some(Offers)
    else if s == "order_updates" then Some(OrderUpdates)
    else if s == "newsletter" then Some(Newsletter)
    else None
  }

  /** One preference row: three legacy aggregate flags and nine channel flags. */
  datatype Preference = Preference(
    offers: bool, orderUpdates: bool, newsletter: bool,
    offersPush: bool, offersEmail: bool, offersSms: bool,
    orderUpdatesPush: bool, orderUpdatesEmail: bool, orderUpdatesSms: bool,
    newsletterPush: bool, newsletterEmail: bool, newsletterSms: bool)

  /** The legacy boolean `preference[notification_type]`. */
  function LegacyFlag(p: Preference, cat: Category): bool {
    match cat
    case Offers => p.offers
    case OrderUpdates => p.orderUpdates
    case Newsletter => p.newsletter
  }

  /** The channel flag `<category>_<channel>`. */
  function Flag(p: Preference, cat: Category, ch: Channel): bool {
    match (cat, ch)
    case (Offers, Push) => p.offersPush
    case (Offers, Email) => p.offersEmail
    case (Offers, Sms) => p.offersSms
    case (OrderUpdates, Push) => p.orderUpdatesPush
    case (OrderUpdates, Email) => p.orderUpdatesEmail
    case (OrderUpdates, Sms) => p.orderUpdatesSms
    case (Newsletter, Push) => p.newsletterPush
    case (Newsletter, Email) => p.newsletterEmail
    case (Newsletter, Sms) => p.newsletterSms
  }

  /** The channels enabled for a category, in push, email, sms order. */
  function EnabledChannels(p: Preference, cat: Category): (r: seq<Channel>)
    ensures |r| <= 3
    ensures forall ch :: ch in r <==> Flag(p, cat, ch)
    ensures forall i, j :: 0 <= i < j < |r| ==> ChannelRank(r[i]) < ChannelRank(r[j])
  {
    (if Flag(p, cat, Push) then [Push] else [])
    + (if Flag(p, cat, Email) then [Email] else [])
    + (if Flag(p, cat, Sms) then [Sms] else [])
  }

  /** The channels of a user's preference row for a category; a missing row
      enables nothing (`pref?.x` is undefined). */
  function ChannelsOf(prefs: map<UserId, Preference>, uid: UserId, cat: Category): seq<Channel> {
    if uid in prefs then EnabledChannels(prefs[uid], cat) else []
  }

  /** `{ <cat>_push: true } OR { <cat>_email: true } OR { <cat>_sms: true }`. */
  predicate HasChannel(p: Preference, cat: Category) {
    Flag(p, cat, Push) || Flag(p, cat, Email) || Flag(p, cat, Sms)
  }

  /** A preference with some channel on for a category enables at least one channel. */
  lemma HasChannelEnables(p: Preference, cat: Category)
    ensures HasChannel(p, cat) <==> |EnabledChannels(p, cat)| > 0
  {
    if Flag(p, cat, Push) { assert Push in EnabledChannels(p, cat); }
    if Flag(p, cat, Email) { assert Email in EnabledChannels(p, cat); }
    if Flag(p, cat, Sms) { assert Sms in EnabledChannels(p, cat); }
  }

  /** Exactly k enabled flags give exactly k channels. */
  lemma ChannelCount(p: Preference, cat: Category)
    ensures |EnabledChannels(p, cat)|
         == (if Flag(p, cat, Push) then 1 else 0)
          + (if Flag(p, cat, Email) then 1 else 0)
          + (if Flag(p, cat, Sms) then 1 else 0)
  {
  }

  datatype User = User(
    id: UserId, name: string, email: string, phone: Option<string>,
    role: Role, city: Option<string>, isActive: bool, passwordHash: string)

  datatype CampaignStatus = Draft | Scheduled | Sending | Sent

  datatype Campaign = Campaign(
    id: CampaignId, name: string, message: string, imageUrl: Option<string>,
    notificationType: Category, cityFilters: Option<seq<string>>,
    status: CampaignStatus, scheduledAt: Option<Time>, createdBy: UserId)

  datatype NewsletterCategory = NewsletterCategory(
    id: NewsletterId, title: string, shortDescription: string, coverImageUrl: Option<string>, createdBy: UserId)

  datatype ArticleStatus = ArticleDraft | ArticleSent

  datatype Article = Article(
    id: ArticleId, newsletterId: NewsletterId, title: string, message: string,
    status: ArticleStatus, createdBy: UserId, publishedAt: Option<Time>)

  datatype Subscription = Subscription(userId: UserId, newsletterId: NewsletterId, subscribedAt: Time)

  datatype OrderStatus = OrderConfirmed | Shipped | OutForDelivery | Delivered | Cancelled

  function OrderStatusName(s: OrderStatus): string {
    match s
    case OrderConfirmed => "ORDER_CONFIRMED"
    case Shipped => "SHIPPED"
    case OutForDelivery => "OUT_FOR_DELIVERY"
    case Delivered => "DELIVERED"
    case Cancelled => "CANCELLED"
  }

  datatype Order = Order(id: OrderId, userId: UserId, status: OrderStatus, totalAmount: int, createdAt: Time)

  /** The status every campaign and newsletter row carries. */
  const SuccessStatus: string := "success"

  /** One row of the append-only notification log. The three source columns
      are separate nullable foreign keys, as in the schema; the legacy send path
      writes rows without a channel. */
  datatype LogRow = LogRow(
    userId: UserId, channel: Option<Channel>, status: string, sentAt: Time,
    campaignId: Option<CampaignId>, articleId: Option<ArticleId>, orderId: Option<OrderId>)

  /** What a batch of log rows is about. */
  datatype Source = FromCampaign(cid: CampaignId) | FromArticle(aid: ArticleId) | FromOrder(oid: OrderId)

  function MakeRow(uid: UserId, ch: Option<Channel>, status: string, now: Time, src: Source): LogRow {
    match src
    case FromCampaign(c) => LogRow(uid, ch, status, now, Some(c), None, None)
    case FromArticle(a) => LogRow(uid, ch, status, now, None, Some(a), None)
    case FromOrder(o) => LogRow(uid, ch, status, now, None, None, Some(o))
  }

  /** Exactly one of the three source columns is set. */
  predicate ExactlyOneSource(row: LogRow) {
    (if row.campaignId.Some? then 1 else 0)
    + (if row.articleId.Some? then 1 else 0)
    + (if row.orderId.Some? then 1 else 0) == 1
  }

  /** The row names `src` as its source. */
  predicate HasSource(row: LogRow, src: Source) {
    match src
    case FromCampaign(c) => row.campaignId == Some(c)
    case FromArticle(a) => row.articleId == Some(a)
    case FromOrder(o) => row.orderId == Some(o)
  }

  lemma MakeRowSource(uid: UserId, ch: Option<Channel>, status: string, now: Time, src: Source)
    ensures ExactlyOneSource(MakeRow(uid, ch, status, now, src))
    ensures HasSource(MakeRow(uid, ch, status, now, src), src)
  {
  }

  /** The whole database: the user directory in query order, the preference
      rows, the newsletter tables, campaigns, orders and the log. */
  datatype Store = Store(
    users: seq<User>,
    prefs: map<UserId, Preference>,
    categories: map<NewsletterId, NewsletterCategory>,
    subscriptions: seq<Subscription>,
    campaigns: map<CampaignId, Campaign>,
    articles: map<ArticleId, Article>,
    orders: map<OrderId, Order>,
    logs: seq<LogRow>)

  /** `user_id` is the primary key of the directory. */
  predicate UniqueUserIds(users: seq<User>) {
    forall i, j :: 0 <= i < j < |users| ==> users[i].id != users[j].id
  }

  function Ids(users: seq<User>): (r: seq<UserId>)
    ensures |r| == |users|
    ensures forall i :: 0 <= i < |users| ==> r[i] == users[i].id
    ensures UniqueUserIds(users) <==> Distinct(r)
  {
    seq(|users|, i requires 0 <= i < |users| => users[i].id)
  }

  /** Among rows taken from a directory with unique ids, a directory user's
      id is listed exactly when the user is. */
  lemma IdListedIffUser(users: seq<User>, rec: seq<User>, u: User)
    requires UniqueUserIds(users) && u in users
    requires forall v :: v in rec ==> v in users
    ensures u.id in Ids(rec) <==> u in rec
  {
    var ids := Ids(rec);
    if u in rec {
      var k :| 0 <= k < |rec| && rec[k] == u;
      assert ids[k] == u.id;
    }
    if u.id in ids {
      var k :| 0 <= k < |ids| && ids[k] == u.id;
      assert rec[k] in rec;
      var i :| 0 <= i < |users| && users[i] == rec[k];
      var j :| 0 <= j < |users| && users[j] == u;
      assert i == j;
    }
  }

  /** The directory rows a query keeps, in directory order. */
  function Select(users: seq<User>, keep: User -> bool): (r: seq<User>)
    ensures |r| <= |users|
    ensures forall u :: u in r <==> u in users && keep(u)
    ensures UniqueUserIds(users) ==> UniqueUserIds(r)
  {
    if |users| == 0 then []
    else
      var rest := Select(users[1..], keep);
      HeadIdUnique(users);
      if keep(users[0]) then [users[0]] + rest else rest
  }

  lemma HeadIdUnique(users: seq<User>)
    requires |users| > 0
    ensures UniqueUserIds(users) ==> UniqueUserIds(users[1..]) && forall u :: u in users[1..] ==> u.id != users[0].id
  {
    if UniqueUserIds(users) {
      forall u | u in users[1..] ensures u.id != users[0].id {
        var k :| 0 <= k < |users[1..]| && users[1..][k] == u;
        assert users[k + 1] == u;
      }
    }
  }

  /** The rows of a query's result: those that satisfy `keep`, in their original order. */
  function Filter<T(!new)>(xs: seq<T>, keep: T -> bool): (r: seq<T>)
    ensures |r| <= |xs|
    ensures forall x :: x in r <==> x in xs && keep(x)
  {
    if |xs| == 0 then []
    else (if keep(xs[0]) then [xs[0]] else []) + Filter(xs[1..], keep)
  }

  /** Filtering a filtered list again with the same test changes nothing. */
  lemma {:induction false} FilterIdempotent<T(!new)>(xs: seq<T>, keep: T -> bool)
    ensures Filter(Filter(xs, keep), keep) == Filter(xs, keep)
  {
    if |xs| > 0 {
      var rest := Filter(xs[1..], keep);
      FilterIdempotent(xs[1..], keep);
      if keep(xs[0]) {
        TailOfAppend([xs[0]], rest);
      } else {
        EmptyLeft(rest);
      }
    }
  }

  /** Filtering with a test every row passes keeps the whole list. */
  lemma {:induction false} FilterAllKept<T(!new)>(xs: seq<T>, keep: T -> bool)
    requires forall x :: x in xs ==> keep(x)
    ensures Filter(xs, keep) == xs
  {
    if |xs| > 0 {
      assert xs[0] in xs;
      assert forall x :: x in xs[1..] ==> x in xs;
      FilterAllKept(xs[1..], keep);
      HeadTail(xs);
    }
  }

  /** A stricter test keeps no more rows. */
  lemma {:induction false} FilterMonotone<T(!new)>(xs: seq<T>, strict: T -> bool, loose: T -> bool)
    requires forall x :: x in xs && strict(x) ==> loose(x)
    ensures |Filter(xs, strict)| <= |Filter(xs, loose)|
  {
    if |xs| > 0 {
      assert xs[0] in xs;
      assert forall x :: x in xs[1..] ==> x in xs;
      FilterMonotone(xs[1..], strict, loose);
    }
  }

  /** Two tests that agree on every row keep the same rows. */
  lemma {:induction false} FilterAgree<T(!new)>(xs: seq<T>, a: T -> bool, b: T -> bool)
    requires forall x :: x in xs ==> a(x) == b(x)
    ensures Filter(xs, a) == Filter(xs, b)
  {
    if |xs| > 0 {
      assert xs[0] in xs;
      assert forall x :: x in xs[1..] ==> x in xs;
      FilterAgree(xs[1..], a, b);
    }
  }

  /** Three tests that never hold together, each stricter than `whole`,
      keep no more rows between them than `whole` does. */
  lemma {:induction false} FilterDisjointCounts<T(!new)>(xs: seq<T>, a: T -> bool, b: T -> bool, c: T -> bool,
                                                        whole: T -> bool)
    requires forall x :: x in xs ==> (a(x) || b(x) || c(x) ==> whole(x))
    requires forall x :: x in xs ==> !(a(x) && b(x)) && !(a(x) && c(x)) && !(b(x) && c(x))
    ensures |Filter(xs, a)| + |Filter(xs, b)| + |Filter(xs, c)| <= |Filter(xs, whole)|
  {
    if |xs| > 0 {
      assert xs[0] in xs;
      assert forall x :: x in xs[1..] ==> x in xs;
      FilterDisjointCounts(xs[1..], a, b, c, whole);
    }
  }

  /** The store's key constraints: user ids are unique and every keyed row is
      stored under its own id. */
  predicate WellFormed(st: Store) {
    && UniqueUserIds(st.users)
    && (forall id :: id in st.campaigns ==> st.campaigns[id].id == id)
    && (forall id :: id in st.articles ==> st.articles[id].id == id)
    && (forall id :: id in st.orders ==> st.orders[id].id == id)
    && (forall id :: id in st.categories ==> st.categories[id].id == id)
  }

  /** The rows written for one user: one per channel, all sharing status, time and source. */
  function UserRows(uid: UserId, channels: seq<Channel>, src: Source, status: string, now: Time): (rows: seq<LogRow>)
    ensures |rows| == |channels|
    ensures forall i :: 0 <= i < |rows| ==> rows[i] == MakeRow(uid, Some(channels[i]), status, now, src)
  {
    seq(|channels|, i requires 0 <= i < |channels| => MakeRow(uid, Some(channels[i]), status, now, src))
  }

  /** The log rows of a delivery: for each recipient in turn, one row per
      channel enabled for the category. */
  function FanOut(uids: seq<UserId>, prefs: map<UserId, Preference>, cat: Category,
                  src: Source, status: string, now: Time): seq<LogRow>
  {
    if |uids| == 0 then []
    else UserRows(uids[0], ChannelsOf(prefs, uids[0], cat), src, status, now)
         + FanOut(uids[1..], prefs, cat, src, status, now)
  }

  /** The total number of enabled channels over the recipients. */
  function ChannelTotal(uids: seq<UserId>, prefs: map<UserId, Preference>, cat: Category): nat {
    if |uids| == 0 then 0
    else |ChannelsOf(prefs, uids[0], cat)| + ChannelTotal(uids[1..], prefs, cat)
  }

  /** Every recipient has at least one enabled channel. */
  predicate AllReachable(uids: seq<UserId>, prefs: map<UserId, Preference>, cat: Category) {
    forall i :: 0 <= i < |uids| ==> |ChannelsOf(prefs, uids[i], cat)| > 0
  }

  /** The fan-out writes one row per enabled channel, so between one and three
      rows per reachable recipient. */
  lemma {:induction false} FanOutCount(uids: seq<UserId>, prefs: map<UserId, Preference>, cat: Category,
                                       src: Source, status: string, now: Time)
    ensures |FanOut(uids, prefs, cat, src, status, now)| == ChannelTotal(uids, prefs, cat)
    ensures ChannelTotal(uids, prefs, cat) <= 3 * |uids|
    ensures AllReachable(uids, prefs, cat) ==> |uids| <= ChannelTotal(uids, prefs, cat)
  {
    if |uids| > 0 {
      FanOutCount(uids[1..], prefs, cat, src, status, now);
      assert AllReachable(uids, prefs, cat) ==> AllReachable(uids[1..], prefs, cat) by {
        if AllReachable(uids, prefs, cat) {
          forall i | 0 <= i < |uids[1..]| ensures |ChannelsOf(prefs, uids[1..][i], cat)| > 0 {
            assert uids[1..][i] == uids[i + 1];
          }
        }
      }
    }
  }

  /** Every fanned-out row has a channel, the given status and time, a recipient
      from the list, and exactly the given source. */
  lemma {:induction false} FanOutRows(uids: seq<UserId>, prefs: map<UserId, Preference>, cat: Category,
                                      src: Source, status: string, now: Time)
    ensures forall row :: row in FanOut(uids, prefs, cat, src, status, now) ==>
      && row.userId in uids && row.channel.Some? && row.status == status && row.sentAt == now
      && ExactlyOneSource(row) && HasSource(row, src)
  {
    if |uids| > 0 {
      FanOutRows(uids[1..], prefs, cat, src, status, now);
      var head := UserRows(uids[0], ChannelsOf(prefs, uids[0], cat), src, status, now);
      forall row | row in head
        ensures row.userId in uids && row.channel.Some? && row.status == status && row.sentAt == now
        ensures ExactlyOneSource(row) && HasSource(row, src)
      {
        var i :| 0 <= i < |head| && head[i] == row;
        MakeRowSource(uids[0], Some(ChannelsOf(prefs, uids[0], cat)[i]), status, now, src);
      }
    }
  }

  /** The rows of a log addressed to one user, in order. */
  function RowsFor(rows: seq<LogRow>, uid: UserId): (r: seq<LogRow>)
    ensures |r| <= |rows|
    ensures forall row :: row in r <==> row in rows && row.userId == uid
  {
    if |rows| == 0 then []
    else (if rows[0].userId == uid then [rows[0]] else []) + RowsFor(rows[1..], uid)
  }

  lemma RowsForAppend(a: seq<LogRow>, b: seq<LogRow>, uid: UserId)
    ensures RowsFor(a + b, uid) == RowsFor(a, uid) + RowsFor(b, uid)
  {
    if |a| > 0 {
      TailOfAppend(a, b);
      RowsForAppend(a[1..], b, uid);
      Regroup(if a[0].userId == uid then [a[0]] else [], RowsFor(a[1..], uid), RowsFor(b, uid));
    } else {
      EmptyLeft(b);
      EmptyLeft(RowsFor(b, uid));
    }
  }

  lemma RowsForUserRows(uid: UserId, other: UserId, chans: seq<Channel>, src: Source, status: string, now: Time)
    ensures RowsFor(UserRows(other, chans, src, status, now), uid)
         == if other == uid then UserRows(other, chans, src, status, now) else []
    decreases |chans|
  {
    var rows := UserRows(other, chans, src, status, now);
    if |chans| > 0 {
      assert rows[1..] == UserRows(other, chans[1..], src, status, now);
      RowsForUserRows(uid, other, chans[1..], src, status, now);
      assert rows == [rows[0]] + rows[1..];
    }
  }

  /** Per recipient, the fan-out holds exactly that recipient's enabled channels
      in push, email, sms order, and nothing for anyone else. */
  lemma {:induction false} FanOutPerUser(uids: seq<UserId>, prefs: map<UserId, Preference>, cat: Category,
                                         src: Source, status: string, now: Time, uid: UserId)
    requires Distinct(uids)
    ensures RowsFor(FanOut(uids, prefs, cat, src, status, now), uid)
         == if uid in uids then UserRows(uid, ChannelsOf(prefs, uid, cat), src, status, now) else []
  {
    if |uids| > 0 {
      var chans := ChannelsOf(prefs, uids[0], cat);
      var head := UserRows(uids[0], chans, src, status, now);
      var rest := uids[1..];
      var tail := FanOut(rest, prefs, cat, src, status, now);
      assert FanOut(uids, prefs, cat, src, status, now) == head + tail;
      RowsForAppend(head, tail, uid);
      RowsForUserRows(uid, uids[0], chans, src, status, now);
      DistinctTail(uids);
      InHeadOrTail(uids, uid);
      FanOutPerUser(rest, prefs, cat, src, status, now, uid);
      if uid == uids[0] {
        EmptyRight(head);
      } else {
        EmptyLeft(RowsFor(tail, uid));
      }
    }
  }
}

=== FILE: filters.dfy ===
/** The query-string filters the list handlers share: an exact-match
    parameter where "all" means any value, and the whole-day date range. */
module Filters {
  import opened Wrappers
  import opened Text
  import opened Domain

  /** An exact-match parameter, trimmed: blank and "all" keep every row,
      anything else keeps the rows whose column spells it exactly. */
  predicate Keeps(query: string, column: string) {
    var q := Trim(query);
    q == "" || q == "all" || q == column
  }

  /** "all" keeps every row: the default of every such parameter. */
  lemma AllKeepsEverything(column: string)
    ensures Keeps("all", column) && Keeps("", column)
  {
    AllKeeps(column);
    BlankKeeps(column);
  }

  lemma AllKeeps(column: string)
    ensures Keeps("all", column)
  {
    TrimTrimmed("all");
  }

  lemma BlankKeeps(column: string)
    ensures Keeps("", column)
  {
  }

  /** Surrounding whitespace in the parameter does not matter. */
  lemma KeepsIgnoresPadding(pre: string, query: string, post: string, column: string)
    requires AllSpace(pre) && AllSpace(post)
    ensures Keeps(pre + query + post, column) == Keeps(query, column)
  {
    TrimIgnoresPadding(pre, query, post);
  }

  const DayMillis: int := 86_400_000

  /** The bounds of a `from` / `to` filter; `None` adds no bound. */
  datatype DayRange = DayRange(lo: Option<Time>, hi: Option<Time>)

  /** The timestamp text of the first millisecond of `day` (UTC). */
  function DayStart(day: string): string {
    day + "T00:00:00.000Z"
  }

  /** The timestamp text of the last millisecond of `day` (UTC). */
  function DayEnd(day: string): string {
    day + "T23:59:59.999Z"
  }

  /** `from` and `to` as received. `parse` is `new Date(text).getTime()`,
      `None` where that is NaN. A bound is taken from the start of the `from`
      day and from the last millisecond of the `to` day. */
  function RangeOf(fromRaw: string, toRaw: string, parse: string -> Option<Time>): (r: DayRange)
    ensures Trim(fromRaw) == "" ==> r.lo.None?
    ensures Trim(toRaw) == "" ==> r.hi.None?
    ensures Trim(fromRaw) != "" ==> r.lo == parse(DayStart(Trim(fromRaw)))
    ensures Trim(toRaw) != "" ==> r.hi == parse(DayEnd(Trim(toRaw)))
  {
    var from, to := Trim(fromRaw), Trim(toRaw);
    DayRange(if from == "" then None else parse(DayStart(from)),
             if to == "" then None else parse(DayEnd(to)))
  }

  /** Both bounds are inclusive (`gte` and `lte`). */
  predicate InRange(t: Time, r: DayRange) {
    (r.lo.None? || r.lo.value <= t) && (r.hi.None? || t <= r.hi.value)
  }

  /** When `parse` reads a calendar day as its first and last millisecond,
      asking for one day keeps exactly the times within that day. */
  lemma OneWholeDay(day: string, parse: string -> Option<Time>, start: Time, t: Time)
    requires Trim(day) == day && day != ""
    requires parse(DayStart(day)) == Some(start)
    requires parse(DayEnd(day)) == Some(start + DayMillis - 1)
    ensures InRange(t, RangeOf(day, day, parse)) <==> start <= t < start + DayMillis
  {
    var r := RangeOf(day, day, parse);
    assert r.lo == Some(start);
    assert r.hi == Some(start + DayMillis - 1);
  }

  /** A date that does not parse adds no bound: the filter is as if the
      parameter were absent. */
  lemma UnparseableIgnored(fromRaw: string, toRaw: string, parse: string -> Option<Time>, t: Time)
    ensures Trim(fromRaw) != "" && parse(DayStart(Trim(fromRaw))).None? ==>
      (InRange(t, RangeOf(fromRaw, toRaw, parse)) <==> InRange(t, RangeOf("", toRaw, parse)))
    ensures Trim(toRaw) != "" && parse(DayEnd(Trim(toRaw))).None? ==>
      (InRange(t, RangeOf(fromRaw, toRaw, parse)) <==> InRange(t, RangeOf(fromRaw, "", parse)))
  {
    TrimTrimmed("");
  }
}

=== FILE: http.dfy ===
/** The error responses of the HTTP handlers: a status code and a message. */
module Http {
  datatype HttpError = HttpError(status: int, message: string)

  const BadRequest: int := 400
  const Unauthorized: int := 401
  const Forbidden: int := 403
  const NotFound: int := 404
  /** A thrown exception caught by the handler's outer `catch`. */
  const ServerError: int := 500
}

=== FILE: json.dfy ===
/** The JavaScript values that arrive in request bodies, where the handlers
    switch on `typeof`, `Array.isArray` or truthiness. Numbers are restricted
    to integers. */
module Json {
  import opened Text

  datatype Value =
    | Undefined
    | Null
    | Bool(b: bool)
    | Num(n: int)
    | Str(s: string)
    | Arr(items: seq<Value>)
    | Obj

  /** `v == null`: loose equality with null holds for null and undefined. */
  predicate IsNullish(v: Value) {
    v.Undefined? || v.Null?
  }

  /** `!!v` in JavaScript. */
  predicate Truthy(v: Value) {
    match v
    case Undefined => false
    case Null => false
    case Bool(b) => b
    case Num(n) => n != 0
    case Str(s) => |s| > 0
    case Arr(_) => true
    case Obj => true
  }

  /** A string that is not empty after trimming. */
  predicate NonBlank(v: Value) {
    v.Str? && |Trim(v.s)| > 0
  }

  /** Wraps each string as a JSON string value. */
  function Strs(xs: seq<string>): (r: seq<Value>)
    ensures |r| == |xs|
    ensures forall i :: 0 <= i < |xs| ==> r[i] == Str(xs[i])
  {
    seq(|xs|, i requires 0 <= i < |xs| => Str(xs[i]))
  }

  function DigitChar(d: nat): char
    requires d < 10
  {
    "0123456789"[d]
  }

  /** The decimal digits of a natural number, without leading zeros. */
  function Digits(n: nat): (r: string)
    ensures |r| >= 1
    decreases n
  {
    if n < 10 then [DigitChar(n)] else Digits(n / 10) + [DigitChar(n % 10)]
  }

  /** `String(n)` for an integer. */
  function NumberString(n: int): (r: string)
    ensures |r| >= 1 && r[|r| - 1] in "0123456789"
  {
    if n < 0 then "-" + Digits(-n) else Digits(n)
  }

  /** `String(v)`: arrays join their elements with commas, null and undefined
      elements becoming empty. */
  function JsString(v: Value): string
    decreases v, 1
  {
    match v
    case Undefined => "undefined"
    case Null => "null"
    case Bool(b) => if b then "true" else "false"
    case Num(n) => NumberString(n)
    case Str(s) => s
    case Arr(items) => JoinItems(v, items)
    case Obj => "[object Object]"
  }

  /** The elements of the array `whole`, from `items` on, joined with commas. */
  function JoinItems(whole: Value, items: seq<Value>): string
    requires forall x :: x in items ==> x < whole
    decreases whole, 0, |items|
  {
    if |items| == 0 then ""
    else
      assert items[0] in items;
      assert forall x :: x in items[1..] ==> x in items;
      var first := if IsNullish(items[0]) then "" else JsString(items[0]);
      if |items| == 1 then first else first + "," + JoinItems(whole, items[1..])
  }

  /** The commas of `String(array)` are the separators of `join(",")` when
      every element is a string. */
  lemma {:induction false} JoinItemsOfStrings(whole: Value, items: seq<Value>, xs: seq<string>)
    requires forall x :: x in items ==> x < whole
    requires |xs| >= 1 && |items| == |xs|
    requires forall i :: 0 <= i < |xs| ==> items[i] == Str(xs[i])
    ensures JoinItems(whole, items) == Join(xs, ',')
    decreases |items|
  {
    if |items| > 1 {
      assert forall x :: x in items[1..] ==> x in items;
      JoinItemsOfStrings(whole, items[1..], xs[1..]);
    }
  }

  /** `String` of an array of strings joins them with commas, so it undoes
      the comma split of a string. */
  lemma JsStringOfSplit(s: string)
    ensures JsString(Arr(Strs(Split(s, ',')))) == s
  {
    var v := Arr(Strs(Split(s, ',')));
    JoinItemsOfStrings(v, v.items, Split(s, ','));
    JoinSplit(s, ',');
  }
}

=== FILE: logs.dfy ===
/** The log controller: the filtered delivery log of the dashboards (scoped
    to their own campaigns for creators), a user's own notification feed and
    the counts of that feed by type. */
module Logs {
  import opened Wrappers
  import opened Text
  import opened Domain
  import opened Pagination
  import opened Filters
  import Orders

  /** The campaign a row belongs to, when it has one. */
  function CampaignOf(row: LogRow, campaigns: map<CampaignId, Campaign>): (r: Option<Campaign>)
    ensures r.Some? <==> row.campaignId.Some? && row.campaignId.value in campaigns
    ensures r.Some? ==> r.value == campaigns[row.campaignId.value]
  {
    if row.campaignId.Some? && row.campaignId.value in campaigns then Some(campaigns[row.campaignId.value])
    else None
  }

  /** The `notification_type` a `type` filter compares with: that of the
      row's campaign. A row without a campaign has none, which no non-blank
      parameter spells. */
  function TypeColumn(row: LogRow, campaigns: map<CampaignId, Campaign>): (t: string)
    ensures t == "" <==> CampaignOf(row, campaigns).None?
  {
    var c := CampaignOf(row, campaigns);
    if c.Some? then CategoryName(c.value.notificationType) else ""
  }

  /** The `type` filter keeps a row of a campaign of category `cat` when
      it names `cat`, and a row with no campaign only when it is blank or
      "all". */
  lemma TypeFilterMeaning(typeQuery: string, row: LogRow, campaigns: map<CampaignId, Campaign>)
    ensures var t := Trim(typeQuery);
      Keeps(typeQuery, TypeColumn(row, campaigns)) <==>
        t == "" || t == "all"
        || (CampaignOf(row, campaigns).Some? && CategoryName(CampaignOf(row, campaigns).value.notificationType) == t)
  {
  }

  // ----------------------------------------------------------------- getLogs

  /** The `status`, `type`, `from` and `to` parameters, the dates already
      read as a range. */
  datatype LogQuery = LogQuery(status: string, typ: string, range: DayRange)

  /** The row belongs to a campaign the user `viewer` created. */
  predicate OwnCampaignRow(row: LogRow, campaigns: map<CampaignId, Campaign>, viewer: UserId) {
    CampaignOf(row, campaigns).Some? && CampaignOf(row, campaigns).value.createdBy == viewer
  }

  /** The rows `getLogs` counts for a viewer with id `viewer` and role `role`. */
  predicate LogListed(row: LogRow, campaigns: map<CampaignId, Campaign>, viewer: UserId, role: Role, q: LogQuery) {
    && (role == CreatorRole ==> OwnCampaignRow(row, campaigns, viewer))
    && Keeps(q.status, row.status)
    && Keeps(q.typ, TypeColumn(row, campaigns))
    && InRange(row.sentAt, q.range)
  }

  function LogTest(campaigns: map<CampaignId, Campaign>, viewer: UserId, role: Role, q: LogQuery): LogRow -> bool {
    (row: LogRow) => LogListed(row, campaigns, viewer, role, q)
  }

  function VisibleLogs(ordered: seq<LogRow>, campaigns: map<CampaignId, Campaign>, viewer: UserId, role: Role,
                       q: LogQuery): (r: seq<LogRow>)
    ensures forall row :: row in r <==> row in ordered && LogListed(row, campaigns, viewer, role, q)
  {
    Filter(ordered, LogTest(campaigns, viewer, role, q))
  }

  /** `getLogs` over the log in the list's order (newest first). */
  function GetLogs(ordered: seq<LogRow>, campaigns: map<CampaignId, Campaign>, viewer: UserId, role: Role,
                   q: LogQuery, pageRaw: Option<int>, limitRaw: Option<int>): (r: (seq<LogRow>, PageMeta))
    ensures forall row :: row in r.0 ==> row in ordered && LogListed(row, campaigns, viewer, role, q)
    ensures role == CreatorRole ==> forall row :: row in r.0 ==>
      row.campaignId.Some? && row.campaignId.value in campaigns && campaigns[row.campaignId.value].createdBy == viewer
    ensures r.1.total == |VisibleLogs(ordered, campaigns, viewer, role, q)|
    ensures MinLimit <= r.1.limit <= WideMaxLimit && |r.0| <= r.1.limit
    ensures 1 <= r.1.page <= r.1.totalPages && (r.1.hasNext <==> r.1.page < r.1.totalPages)
  {
    var matching := VisibleLogs(ordered, campaigns, viewer, role, q);
    var r := Paginate(matching, pageRaw, limitRaw, WideMaxLimit);
    assert forall row :: row in r.0 ==> row in matching;
    r
  }

  /** A creator sees a subset of what an administrator sees with the same filters. */
  lemma CreatorSeesNoMore(ordered: seq<LogRow>, campaigns: map<CampaignId, Campaign>, viewer: UserId, q: LogQuery)
    ensures forall row :: row in VisibleLogs(ordered, campaigns, viewer, CreatorRole, q) ==>
      row in VisibleLogs(ordered, campaigns, viewer, AdminRole, q)
    ensures |VisibleLogs(ordered, campaigns, viewer, CreatorRole, q)| <= |VisibleLogs(ordered, campaigns, viewer, AdminRole, q)|
  {
    FilterMonotone(ordered, LogTest(campaigns, viewer, CreatorRole, q), LogTest(campaigns, viewer, AdminRole, q));
  }

  /** A creator never sees order or newsletter rows, nor rows of another
      creator's campaigns. */
  lemma CreatorSeesOnlyOwnCampaigns(ordered: seq<LogRow>, campaigns: map<CampaignId, Campaign>, viewer: UserId,
                                    q: LogQuery, row: LogRow)
    requires row in VisibleLogs(ordered, campaigns, viewer, CreatorRole, q)
    requires ExactlyOneSource(row)
    ensures row.orderId.None? && row.articleId.None?
    ensures row.campaignId.Some? && campaigns[row.campaignId.value].createdBy == viewer
  {
  }

  /** The unfiltered dashboard of an administrator or viewer lists the whole log. */
  lemma UnfilteredListsEverything(ordered: seq<LogRow>, campaigns: map<CampaignId, Campaign>, viewer: UserId, role: Role)
    requires role != CreatorRole
    ensures VisibleLogs(ordered, campaigns, viewer, role, LogQuery("all", "all", DayRange(None, None))) == ordered
  {
    var q := LogQuery("all", "all", DayRange(None, None));
    forall row | row in ordered ensures LogTest(campaigns, viewer, role, q)(row) {
      AllKeepsEverything(row.status);
      AllKeepsEverything(TypeColumn(row, campaigns));
    }
    FilterAllKept(ordered, LogTest(campaigns, viewer, role, q));
  }

  // ------------------------------------------------------- getMyNotifications

  /** The rows of `uid`'s own feed: delivered to them, with the `type` and
      date filters. */
  predicate FeedListed(row: LogRow, campaigns: map<CampaignId, Campaign>, uid: UserId, typeQuery: string, range: DayRange) {
    && row.userId == uid
    && row.status == SuccessStatus
    && Keeps(typeQuery, TypeColumn(row, campaigns))
    && InRange(row.sentAt, range)
  }

  function FeedTest(campaigns: map<CampaignId, Campaign>, uid: UserId, typeQuery: string, range: DayRange): LogRow -> bool {
    (row: LogRow) => FeedListed(row, campaigns, uid, typeQuery, range)
  }

  function Feed(ordered: seq<LogRow>, campaigns: map<CampaignId, Campaign>, uid: UserId, typeQuery: string,
                range: DayRange): (r: seq<LogRow>)
    ensures forall row :: row in r <==> row in ordered && FeedListed(row, campaigns, uid, typeQuery, range)
  {
    Filter(ordered, FeedTest(campaigns, uid, typeQuery, range))
  }

  /** `getMyNotifications` for the signed-in `uid`. */
  function GetMyNotifications(ordered: seq<LogRow>, campaigns: map<CampaignId, Campaign>, uid: UserId,
                              typeQuery: string, range: DayRange, pageRaw: Option<int>, limitRaw: Option<int>)
    : (r: (seq<LogRow>, PageMeta))
    ensures forall row :: row in r.0 ==> row in ordered && row.userId == uid && row.status == SuccessStatus
    ensures forall row :: row in r.0 ==> FeedListed(row, campaigns, uid, typeQuery, range)
    ensures r.1.total == |Feed(ordered, campaigns, uid, typeQuery, range)|
    ensures MinLimit <= r.1.limit <= NarrowMaxLimit && |r.0| <= r.1.limit
    ensures 1 <= r.1.page <= r.1.totalPages && (r.1.hasNext <==> r.1.page < r.1.totalPages)
  {
    var matching := Feed(ordered, campaigns, uid, typeQuery, range);
    var r := Paginate(matching, pageRaw, limitRaw, NarrowMaxLimit);
    assert forall row :: row in r.0 ==> row in matching;
    r
  }

  /** The feed never shows the rows an order status change writes: they
      carry the order status, not "success". */
  lemma OrderRowsNotInFeed(ordered: seq<LogRow>, campaigns: map<CampaignId, Campaign>, uid: UserId,
                           typeQuery: string, range: DayRange,
                           prefs: map<UserId, Preference>, oid: OrderId, s: OrderStatus, now: Time)
    ensures forall row :: row in Orders.OrderRows(prefs, uid, oid, s, now) ==>
      row !in Feed(ordered, campaigns, uid, typeQuery, range)
  {
    Orders.OrderRowsNeverSuccess(prefs, uid, oid, s, now);
  }

  /** The feed is the caller's part of the dashboard log: filtering the
      dashboard by the caller and "success" gives the same rows. */
  lemma FeedIsOwnDeliveredLog(ordered: seq<LogRow>, campaigns: map<CampaignId, Campaign>, uid: UserId,
                              typeQuery: string, range: DayRange)
    ensures forall row :: row in Feed(ordered, campaigns, uid, typeQuery, range) <==>
      row in VisibleLogs(ordered, campaigns, uid, AdminRole, LogQuery(SuccessStatus, typeQuery, range))
      && row.userId == uid
  {
    TrimTrimmed(SuccessStatus);
  }

  // --------------------------------------------------------------- getMyStats

  /** The counts of `getMyStats`. */
  datatype Stats = Stats(total: nat, offers: nat, orderUpdates: nat, newsletter: nat)

  /** A row delivered to `uid`. */
  predicate Delivered(row: LogRow, uid: UserId) {
    row.userId == uid && row.status == SuccessStatus
  }

  /** A row delivered to `uid` for a campaign of category `cat`. */
  predicate DeliveredOfType(row: LogRow, campaigns: map<CampaignId, Campaign>, uid: UserId, cat: Category) {
    Delivered(row, uid) && CampaignOf(row, campaigns).Some? && CampaignOf(row, campaigns).value.notificationType == cat
  }

  function DeliveredTest(uid: UserId): LogRow -> bool {
    (row: LogRow) => Delivered(row, uid)
  }

  function TypeTest(campaigns: map<CampaignId, Campaign>, uid: UserId, cat: Category): LogRow -> bool {
    (row: LogRow) => DeliveredOfType(row, campaigns, uid, cat)
  }

  /** `getMyStats` for `uid` over the whole log. Newsletter rows have no
      campaign, so they count in the total and in no type. */
  function MyStats(logs: seq<LogRow>, campaigns: map<CampaignId, Campaign>, uid: UserId): (s: Stats)
    ensures s.total <= |logs|
    ensures s.offers + s.orderUpdates + s.newsletter <= s.total
    ensures s.total == |Filter(logs, DeliveredTest(uid))|
    ensures s.offers == |Filter(logs, TypeTest(campaigns, uid, Offers))|
    ensures s.orderUpdates == |Filter(logs, TypeTest(campaigns, uid, OrderUpdates))|
    ensures s.newsletter == |Filter(logs, TypeTest(campaigns, uid, Newsletter))|
  {
    var s := Stats(|Filter(logs, DeliveredTest(uid))|,
                   |Filter(logs, TypeTest(campaigns, uid, Offers))|,
                   |Filter(logs, TypeTest(campaigns, uid, OrderUpdates))|,
                   |Filter(logs, TypeTest(campaigns, uid, Newsletter))|);
    FilterDisjointCounts(logs, TypeTest(campaigns, uid, Offers), TypeTest(campaigns, uid, OrderUpdates),
                         TypeTest(campaigns, uid, Newsletter), DeliveredTest(uid));
    s
  }

  /** The stats agree with the feed: the total is the unfiltered feed's
      count, and each type's count is the feed's count for that type. */
  lemma StatsMatchFeed(logs: seq<LogRow>, campaigns: map<CampaignId, Campaign>, uid: UserId, cat: Category)
    ensures MyStats(logs, campaigns, uid).total == |Feed(logs, campaigns, uid, "all", DayRange(None, None))|
    ensures var s := MyStats(logs, campaigns, uid);
      (match cat case Offers => s.offers case OrderUpdates => s.orderUpdates case Newsletter => s.newsletter)
      == |Feed(logs, campaigns, uid, CategoryName(cat), DayRange(None, None))|
  {
    var all := DayRange(None, None);
    forall row | row in logs ensures DeliveredTest(uid)(row) == FeedTest(campaigns, uid, "all", all)(row) {
      AllKeepsEverything(TypeColumn(row, campaigns));
    }
    FilterAgree(logs, DeliveredTest(uid), FeedTest(campaigns, uid, "all", all));
    forall row | row in logs
      ensures TypeTest(campaigns, uid, cat)(row) == FeedTest(campaigns, uid, CategoryName(cat), all)(row)
    {
      CategoryNameTrimmed(cat);
      CategoryNameNames(cat, row, campaigns);
    }
    FilterAgree(logs, TypeTest(campaigns, uid, cat), FeedTest(campaigns, uid, CategoryName(cat), all));
  }

  lemma CategoryNameTrimmed(cat: Category)
    ensures Trim(CategoryName(cat)) == CategoryName(cat)
  {
    match cat
    case Offers => TrimTrimmed("offers");
    case OrderUpdates => TrimTrimmed("order_updates");
    case Newsletter => TrimTrimmed("newsletter");
  }

  /** A category's name selects exactly the rows of campaigns of that category. */
  lemma CategoryNameNames(cat: Category, row: LogRow, campaigns: map<CampaignId, Campaign>)
    requires Trim(CategoryName(cat)) == CategoryName(cat)
    ensures Keeps(CategoryName(cat), TypeColumn(row, campaigns)) <==>
      CampaignOf(row, campaigns).Some? && CampaignOf(row, campaigns).value.notificationType == cat
  {
    var c := CampaignOf(row, campaigns);
    if c.Some? {
      assert ParseCategory(CategoryName(c.value.notificationType)) == Some(c.value.notificationType);
      assert ParseCategory(CategoryName(cat)) == Some(cat);
    }
  }
}

=== FILE: newsletters.dfy ===
/** The newsletter controller: categories and their articles, publishing an
    article to the subscribers of its category, the recipient preview of a
    draft article, and subscriptions. */
module Newsletters {
  import opened Wrappers
  import opened Seqs
  import opened Text
  import opened Json
  import opened Domain
  import opened Http
  import opened Pagination
  import opened Filters

  /** Only a creator is ever refused, and only for what someone else created;
      the other roles the routes let through manage everything. */
  predicate MayManage(role: Role, uid: UserId, owner: UserId) {
    role == CreatorRole ==> owner == uid
  }

  const NoFields: string := "No fields provided to update"

  /** An optional text field of an update: null or absent leaves the column
      alone, anything else must be a string that is not blank. */
  function OptionalText(v: Value, err: string): (r: Result<Option<string>, HttpError>)
    ensures r.Success? <==> IsNullish(v) || NonBlank(v)
    ensures r.Failure? ==> r.error == HttpError(BadRequest, err)
    ensures r.Success? ==> (r.value.Some? <==> !IsNullish(v))
    ensures r.Success? && r.value.Some? ==> v == Str(r.value.value)
  {
    if IsNullish(v) then Success(None)
    else if NonBlank(v) then Success(Some(v.s))
    else Failure(HttpError(BadRequest, err))
  }

  // ---------------------------------------------------------------- categories

  /** The fields of an update request; an absent field is `Undefined`. */
  datatype CategoryBody = CategoryBody(title: Value, shortDescription: Value, coverImageUrl: Value)

  /** A trimmed cover URL, or null when it is blank. */
  function TrimmedOrNull(s: string): (r: Option<string>)
    ensures r.Some? ==> r.value == Trim(s) && |r.value| > 0
    ensures r.None? ==> Trim(s) == ""
  {
    var t := Trim(s);
    if t == "" then None else Some(t)
  }

  /** `updateCategory`: the owner check, then the field checks in source
      order; title and description are stored trimmed. */
  function UpdateCategory(st: Store, nid: NewsletterId, body: CategoryBody, role: Role, uid: UserId): (r: Result<Store, HttpError>)
    ensures nid !in st.categories ==> r == Failure(HttpError(NotFound, "Category not found"))
    ensures nid in st.categories && !MayManage(role, uid, st.categories[nid].createdBy)
      ==> r == Failure(HttpError(Forbidden, "Forbidden"))
    ensures nid in st.categories && MayManage(role, uid, st.categories[nid].createdBy)
            && IsNullish(body.title) && IsNullish(body.shortDescription) && IsNullish(body.coverImageUrl)
      ==> r == Failure(HttpError(BadRequest, NoFields))
    ensures r.Success? <==>
      && nid in st.categories && MayManage(role, uid, st.categories[nid].createdBy)
      && (IsNullish(body.title) || NonBlank(body.title))
      && (IsNullish(body.shortDescription) || NonBlank(body.shortDescription))
      && (IsNullish(body.coverImageUrl) || body.coverImageUrl.Str?)
      && !(IsNullish(body.title) && IsNullish(body.shortDescription) && IsNullish(body.coverImageUrl))
    ensures r.Success? ==>
      && nid in r.value.categories
      && r.value == st.(categories := st.categories[nid := r.value.categories[nid]])
    ensures r.Success? ==>
      var c, c' := st.categories[nid], r.value.categories[nid];
      && c'.id == c.id && c'.createdBy == c.createdBy
      && c' == c.(title := c'.title, shortDescription := c'.shortDescription, coverImageUrl := c'.coverImageUrl)
      && (if IsNullish(body.title) then c'.title == c.title else NonBlank(body.title) && c'.title == Trim(body.title.s))
      && (if IsNullish(body.shortDescription) then c'.shortDescription == c.shortDescription
          else NonBlank(body.shortDescription) && c'.shortDescription == Trim(body.shortDescription.s))
      && (if IsNullish(body.coverImageUrl) then c'.coverImageUrl == c.coverImageUrl
          else body.coverImageUrl.Str? && c'.coverImageUrl == TrimmedOrNull(body.coverImageUrl.s))
  {
    if nid !in st.categories then Failure(HttpError(NotFound, "Category not found"))
    else
      var c := st.categories[nid];
      if !MayManage(role, uid, c.createdBy) then Failure(HttpError(Forbidden, "Forbidden"))
      else
        var title := OptionalText(body.title, "Title must be a non-empty string");
        var desc := OptionalText(body.shortDescription, "Short description must be a non-empty string");
        if title.Failure? then Failure(title.error)
        else if desc.Failure? then Failure(desc.error)
        else if !IsNullish(body.coverImageUrl) && !body.coverImageUrl.Str? then
          Failure(HttpError(BadRequest, "cover_image_url must be a string"))
        else if title.value.None? && desc.value.None? && IsNullish(body.coverImageUrl) then
          Failure(HttpError(BadRequest, NoFields))
        else
          var c' := c.(
            title := if title.value.Some? then Trim(title.value.value) else c.title,
            shortDescription := if desc.value.Some? then Trim(desc.value.value) else c.shortDescription,
            coverImageUrl := if IsNullish(body.coverImageUrl) then c.coverImageUrl else TrimmedOrNull(body.coverImageUrl.s));
          Success(st.(categories := st.categories[nid := c']))
  }

  /** Sending the same update again changes nothing more: the stored fields
      depend only on the request. */
  lemma UpdateCategoryIdempotent(st: Store, nid: NewsletterId, body: CategoryBody, role: Role, uid: UserId)
    requires UpdateCategory(st, nid, body, role, uid).Success?
    ensures var st' := UpdateCategory(st, nid, body, role, uid).value;
      UpdateCategory(st', nid, body, role, uid) == Success(st')
  {
    var st' := UpdateCategory(st, nid, body, role, uid).value;
    var st'' := UpdateCategory(st', nid, body, role, uid).value;
    assert st''.categories[nid] == st'.categories[nid];
    assert st'.categories[nid := st'.categories[nid]] == st'.categories;
  }

  /** A category the caller's list shows: creators see only their own. */
  predicate CategoryVisible(c: NewsletterCategory, role: Role, uid: UserId) {
    role == CreatorRole ==> c.createdBy == uid
  }

  /** `getCategories` over the categories in the list's order (newest first). */
  function ListCategories(ordered: seq<NewsletterCategory>, role: Role, uid: UserId,
                          pageRaw: Option<int>, limitRaw: Option<int>): (r: (seq<NewsletterCategory>, PageMeta))
    ensures forall c :: c in r.0 ==> c in ordered && CategoryVisible(c, role, uid)
    ensures r.1.total == |VisibleCategories(ordered, role, uid)|
    ensures MinLimit <= r.1.limit <= WideMaxLimit && |r.0| <= r.1.limit
    ensures 1 <= r.1.page <= r.1.totalPages
  {
    var visible := VisibleCategories(ordered, role, uid);
    var r := Paginate(visible, pageRaw, limitRaw, WideMaxLimit);
    assert forall c :: c in r.0 ==> c in visible;
    r
  }

  function VisibleTest(role: Role, uid: UserId): NewsletterCategory -> bool {
    c => CategoryVisible(c, role, uid)
  }

  function VisibleCategories(ordered: seq<NewsletterCategory>, role: Role, uid: UserId): (r: seq<NewsletterCategory>)
    ensures forall c :: c in r <==> c in ordered && CategoryVisible(c, role, uid)
  {
    Filter(ordered, VisibleTest(role, uid))
  }

  /** Admins and the other non-creator roles see every category. */
  lemma AdminSeesAllCategories(ordered: seq<NewsletterCategory>, uid: UserId)
    ensures VisibleCategories(ordered, AdminRole, uid) == ordered
  {
    FilterAllKept(ordered, VisibleTest(AdminRole, uid));
  }

  // ------------------------------------------------------------------ articles

  /** `!v || String(v).trim() === ""`. */
  predicate Blank(v: Value) {
    !Truthy(v) || |Trim(JsString(v))| == 0
  }

  /** `createArticle`. `nidParam` is the category id as received; `newId` is
      the id the database generates. */
  function CreateArticle(st: Store, nidParam: string, title: Value, message: Value,
                         role: Role, uid: UserId, newId: ArticleId): (r: Result<Store, HttpError>)
    ensures Trim(nidParam) == "" ==> r == Failure(HttpError(BadRequest, "Newsletter category ID is required"))
    ensures Trim(nidParam) != "" && Blank(title) ==> r == Failure(HttpError(BadRequest, "Title is required"))
    ensures Trim(nidParam) != "" && !Blank(title) && Blank(message)
      ==> r == Failure(HttpError(BadRequest, "Message is required"))
    ensures Trim(nidParam) != "" && !Blank(title) && !Blank(message) && Trim(nidParam) !in st.categories
      ==> r == Failure(HttpError(NotFound, "Newsletter category not found"))
    ensures r.Success? <==>
      && Trim(nidParam) != "" && !Blank(title) && !Blank(message)
      && Trim(nidParam) in st.categories && MayManage(role, uid, st.categories[Trim(nidParam)].createdBy)
      && newId !in st.articles
    ensures r.Success? ==>
      && newId in r.value.articles
      && r.value == st.(articles := st.articles[newId := r.value.articles[newId]])
      && var a := r.value.articles[newId];
      && a.id == newId && a.newsletterId == Trim(nidParam) && a.status == ArticleDraft
      && a.createdBy == uid && a.publishedAt.None?
      && a.title == Trim(JsString(title)) && |a.title| > 0 && a.message == JsString(message)
  {
    var nid := Trim(nidParam);
    if nid == "" then Failure(HttpError(BadRequest, "Newsletter category ID is required"))
    else if Blank(title) then Failure(HttpError(BadRequest, "Title is required"))
    else if Blank(message) then Failure(HttpError(BadRequest, "Message is required"))
    else if nid !in st.categories then Failure(HttpError(NotFound, "Newsletter category not found"))
    else if !MayManage(role, uid, st.categories[nid].createdBy) then
      Failure(HttpError(Forbidden, "Forbidden: not the category creator"))
    else if newId in st.articles then Failure(HttpError(ServerError, ""))
    else
      var a := Article(newId, nid, Trim(JsString(title)), JsString(message), ArticleDraft, uid, None);
      Success(st.(articles := st.articles[newId := a]))
  }

  const OnlyDraftArticles: string := "Only draft articles can be edited"

  /** `updateArticle`: found, owned, still a draft, then the field checks. */
  function UpdateArticle(st: Store, id: ArticleId, title: Value, message: Value, role: Role, uid: UserId): (r: Result<Store, HttpError>)
    ensures id !in st.articles ==> r == Failure(HttpError(NotFound, "Article not found"))
    ensures id in st.articles && !MayManage(role, uid, st.articles[id].createdBy)
      ==> r == Failure(HttpError(Forbidden, "Forbidden"))
    ensures id in st.articles && MayManage(role, uid, st.articles[id].createdBy) && st.articles[id].status != ArticleDraft
      ==> r == Failure(HttpError(BadRequest, OnlyDraftArticles))
    ensures r.Success? <==>
      && id in st.articles && MayManage(role, uid, st.articles[id].createdBy) && st.articles[id].status == ArticleDraft
      && (IsNullish(title) || NonBlank(title)) && (IsNullish(message) || NonBlank(message))
      && !(IsNullish(title) && IsNullish(message))
    ensures r.Success? ==>
      && id in r.value.articles && r.value == st.(articles := st.articles[id := r.value.articles[id]])
      && var a, a' := st.articles[id], r.value.articles[id];
      && a'.status == ArticleDraft && a'.id == a.id && a'.newsletterId == a.newsletterId
      && a'.createdBy == a.createdBy && a'.publishedAt == a.publishedAt
      && a'.title == (if IsNullish(title) then a.title else Trim(title.s))
      && a'.message == (if IsNullish(message) then a.message else message.s)
  {
    if id !in st.articles then Failure(HttpError(NotFound, "Article not found"))
    else
      var a := st.articles[id];
      if !MayManage(role, uid, a.createdBy) then Failure(HttpError(Forbidden, "Forbidden"))
      else if a.status != ArticleDraft then Failure(HttpError(BadRequest, OnlyDraftArticles))
      else
        var t := OptionalText(title, "Title must be a non-empty string");
        var m := OptionalText(message, "Message must be a non-empty string");
        if t.Failure? then Failure(t.error)
        else if m.Failure? then Failure(m.error)
        else if t.value.None? && m.value.None? then Failure(HttpError(BadRequest, NoFields))
        else
          var a' := a.(title := if t.value.Some? then Trim(t.value.value) else a.title,
                       message := m.value.GetOr(a.message));
          Success(st.(articles := st.articles[id := a']))
  }

  /** The article's status as the `status` column and query parameter spell it. */
  function ArticleStatusName(s: ArticleStatus): string {
    match s
    case ArticleDraft => "draft"
    case ArticleSent => "sent"
  }

  /** The filters of `getArticles`: the category, a trimmed `status` other than
      "" and "all", and for the `user` role published articles only. */
  predicate ArticleListed(a: Article, nid: NewsletterId, role: Role, statusQuery: string) {
    && a.newsletterId == nid
    && Keeps(statusQuery, ArticleStatusName(a.status))
    && (role == UserRole ==> a.status == ArticleSent)
  }

  function ListedArticles(ordered: seq<Article>, nid: NewsletterId, role: Role, statusQuery: string): (r: seq<Article>)
    ensures forall a :: a in r <==> a in ordered && ArticleListed(a, nid, role, statusQuery)
  {
    Filter(ordered, a => ArticleListed(a, nid, role, statusQuery))
  }

  /** `getArticles` over the articles in the list's order (newest first). */
  function ListArticles(st: Store, ordered: seq<Article>, nid: NewsletterId, role: Role, uid: UserId,
                        statusQuery: string, pageRaw: Option<int>, limitRaw: Option<int>)
    : (r: Result<(seq<Article>, PageMeta), HttpError>)
    ensures nid !in st.categories ==> r == Failure(HttpError(NotFound, "Category not found"))
    ensures nid in st.categories && !MayManage(role, uid, st.categories[nid].createdBy)
      ==> r == Failure(HttpError(Forbidden, "Forbidden"))
    ensures r.Success? <==> nid in st.categories && MayManage(role, uid, st.categories[nid].createdBy)
    ensures r.Success? ==>
      && (forall a :: a in r.value.0 ==> a in ordered && ArticleListed(a, nid, role, statusQuery))
      && r.value.1.total == |ListedArticles(ordered, nid, role, statusQuery)|
      && MinLimit <= r.value.1.limit <= WideMaxLimit && |r.value.0| <= r.value.1.limit
  {
    if nid !in st.categories then Failure(HttpError(NotFound, "Category not found"))
    else if !MayManage(role, uid, st.categories[nid].createdBy) then Failure(HttpError(Forbidden, "Forbidden"))
    else
      var listed := ListedArticles(ordered, nid, role, statusQuery);
      var page := Paginate(listed, pageRaw, limitRaw, WideMaxLimit);
      assert forall a :: a in page.0 ==> a in listed;
      Success(page)
  }

  /** A reader never sees a draft, whatever status is asked for. */
  lemma ReadersSeeOnlyPublished(ordered: seq<Article>, nid: NewsletterId, statusQuery: string)
    ensures forall a :: a in ListedArticles(ordered, nid, UserRole, statusQuery) ==> a.status == ArticleSent
  {
  }

  /** A new article is a draft that its creator finds in the category's list
      with the default status filter, and that no reader sees until it is
      published. */
  lemma CreatedArticleListing(st: Store, nidParam: string, title: Value, message: Value, role: Role, uid: UserId,
                              newId: ArticleId, ordered: seq<Article>, statusQuery: string,
                              pageRaw: Option<int>, limitRaw: Option<int>)
    requires CreateArticle(st, nidParam, title, message, role, uid, newId).Success?
    ensures var st' := CreateArticle(st, nidParam, title, message, role, uid, newId).value;
      var a := st'.articles[newId];
      && ListArticles(st', ordered, a.newsletterId, role, uid, "all", pageRaw, limitRaw).Success?
      && (a in ordered && role != UserRole ==> a in ListedArticles(ordered, a.newsletterId, role, "all"))
      && a !in ListedArticles(ordered, a.newsletterId, UserRole, statusQuery)
  {
    var a := CreateArticle(st, nidParam, title, message, role, uid, newId).value.articles[newId];
    AllKeepsEverything(ArticleStatusName(a.status));
  }

  // --------------------------------------------------------------- publishing

  /** `newsletterSubscriptions: { some: { newsletter_id } }`. */
  predicate SubscribedTo(subs: seq<Subscription>, uid: UserId, nid: NewsletterId) {
    exists s :: s in subs && s.userId == uid && s.newsletterId == nid
  }

  /** The `where` of the publish query: active, some newsletter channel on,
      and subscribed to the category. */
  predicate NewsletterEligible(u: User, st: Store, nid: NewsletterId) {
    && u.isActive
    && u.id in st.prefs && HasChannel(st.prefs[u.id], Newsletter)
    && SubscribedTo(st.subscriptions, u.id, nid)
  }

  /** The users the publish query returns, in directory order. */
  function Subscribers(st: Store, nid: NewsletterId): (r: seq<User>)
    ensures forall u :: u in r <==> u in st.users && NewsletterEligible(u, st, nid)
    ensures UniqueUserIds(st.users) ==> UniqueUserIds(r)
  {
    Select(st.users, u => NewsletterEligible(u, st, nid))
  }

  /** The rows the loop over the recipients collects. */
  function ArticleRows(st: Store, id: ArticleId, rec: seq<User>, now: Time): seq<LogRow> {
    FanOut(Ids(rec), st.prefs, Newsletter, FromArticle(id), SuccessStatus, now)
  }

  /** The store after the transaction: rows appended, article sent at `now`. */
  function MarkPublished(st: Store, id: ArticleId, rows: seq<LogRow>, now: Time): Store
    requires id in st.articles
  {
    st.(logs := st.logs + rows,
        articles := st.articles[id := st.articles[id].(status := ArticleSent, publishedAt := Some(now))])
  }

  const AlreadyPublished: string := "Article already published"
  const PublishFailed: string := "Publishing failed"

  /** `publishArticle`: `fault` is the transaction throwing. The result is the
      store and the `recipients` count of the response. */
  function PublishArticle(st: Store, id: ArticleId, role: Role, uid: UserId, now: Time, fault: bool)
    : (r: Result<(Store, nat), HttpError>)
    ensures id !in st.articles ==> r == Failure(HttpError(NotFound, "Article not found"))
    ensures id in st.articles && !MayManage(role, uid, st.articles[id].createdBy)
      ==> r == Failure(HttpError(Forbidden, "Forbidden"))
    ensures id in st.articles && MayManage(role, uid, st.articles[id].createdBy) && st.articles[id].status == ArticleSent
      ==> r == Failure(HttpError(BadRequest, AlreadyPublished))
    ensures r.Failure? && r.error.status == ServerError ==> fault && r.error.message == PublishFailed
    ensures r.Success? <==>
      && id in st.articles && MayManage(role, uid, st.articles[id].createdBy) && st.articles[id].status == ArticleDraft
      && !(fault && |Subscribers(st, st.articles[id].newsletterId)| > 0)
    ensures r.Success? ==>
      var a := st.articles[id];
      var rec := Subscribers(st, a.newsletterId);
      var n := |rec|;
      && r.value.1 == n
      && (n == 0 <==> r.value.0 == st)
      && (n > 0 ==>
            && !fault
            && |r.value.0.logs| == |st.logs| + ChannelTotal(Ids(rec), st.prefs, Newsletter)
            && n <= |r.value.0.logs| - |st.logs| <= 3 * n
            && r.value.0.logs[..|st.logs|] == st.logs
            && r.value.0.articles == st.articles[id := a.(status := ArticleSent, publishedAt := Some(now))]
            && r.value.0.(logs := st.logs, articles := st.articles) == st)
    ensures r.Success? ==> forall j :: |st.logs| <= j < |r.value.0.logs| ==>
      var row := r.value.0.logs[j];
      && row.status == SuccessStatus && row.sentAt == now && row.channel.Some?
      && row.articleId == Some(id) && ExactlyOneSource(row)
      && exists u :: u in Subscribers(st, st.articles[id].newsletterId) && u.id == row.userId
  {
    if id !in st.articles then Failure(HttpError(NotFound, "Article not found"))
    else
      var a := st.articles[id];
      if !MayManage(role, uid, a.createdBy) then Failure(HttpError(Forbidden, "Forbidden"))
      else if a.status.ArticleSent? then Failure(HttpError(BadRequest, AlreadyPublished))
      else
        var rec := Subscribers(st, a.newsletterId);
        var rows := ArticleRows(st, id, rec, now);
        PublishRowsCount(st, a.newsletterId, id, now);
        // The source checks both; with every recipient reachable the second never fires.
        if |rec| == 0 || |rows| == 0 then Success((st, 0))
        else if fault then Failure(HttpError(ServerError, PublishFailed))
        else
          PublishRowsShape(st, a.newsletterId, id, now);
          PublishedFacts(st, id, rows, now);
          Success((MarkPublished(st, id, rows, now), |rec|))
  }

  /** Every subscriber has a newsletter channel on, so yields at least one row. */
  lemma SubscribersReachable(st: Store, nid: NewsletterId)
    ensures AllReachable(Ids(Subscribers(st, nid)), st.prefs, Newsletter)
  {
    var rec := Subscribers(st, nid);
    forall i | 0 <= i < |Ids(rec)| ensures |ChannelsOf(st.prefs, Ids(rec)[i], Newsletter)| > 0 {
      assert rec[i] in rec;
      HasChannelEnables(st.prefs[rec[i].id], Newsletter);
    }
  }

  /** One row per enabled channel, between one and three per recipient. */
  lemma PublishRowsCount(st: Store, nid: NewsletterId, id: ArticleId, now: Time)
    ensures var rec := Subscribers(st, nid);
      && |ArticleRows(st, id, rec, now)| == ChannelTotal(Ids(rec), st.prefs, Newsletter)
      && |rec| <= |ArticleRows(st, id, rec, now)| <= 3 * |rec|
  {
    var rec := Subscribers(st, nid);
    SubscribersReachable(st, nid);
    FanOutCount(Ids(rec), st.prefs, Newsletter, FromArticle(id), SuccessStatus, now);
  }

  /** Every row carries status `success`, the shared time, a channel, the
      article as its only source and a recipient's id. */
  lemma PublishRowsShape(st: Store, nid: NewsletterId, id: ArticleId, now: Time)
    ensures forall row :: row in ArticleRows(st, id, Subscribers(st, nid), now) ==>
      && row.status == SuccessStatus && row.sentAt == now && row.channel.Some?
      && row.articleId == Some(id) && ExactlyOneSource(row)
      && exists u :: u in Subscribers(st, nid) && u.id == row.userId
  {
    var rec := Subscribers(st, nid);
    FanOutRows(Ids(rec), st.prefs, Newsletter, FromArticle(id), SuccessStatus, now);
    forall row | row in ArticleRows(st, id, rec, now) ensures exists u :: u in rec && u.id == row.userId {
      var k :| 0 <= k < |Ids(rec)| && Ids(rec)[k] == row.userId;
      assert rec[k] in rec;
    }
  }

  /** The published store differs from the old one only in the article and the appended rows. */
  lemma PublishedFacts(st: Store, id: ArticleId, rows: seq<LogRow>, now: Time)
    requires id in st.articles && |rows| > 0
    ensures var st' := MarkPublished(st, id, rows, now);
      && st'.logs[..|st.logs|] == st.logs
      && |st'.logs| == |st.logs| + |rows|
      && (forall j :: |st.logs| <= j < |st'.logs| ==> st'.logs[j] in rows)
      && st' != st
      && st'.(logs := st.logs, articles := st.articles) == st
  {
    AppendParts(st.logs, rows);
  }

  /** Once published with recipients, an article is neither published again
      nor edited. */
  lemma PublishedIsFinal(st: Store, id: ArticleId, role: Role, uid: UserId, now: Time, fault: bool,
                         now2: Time, fault2: bool, title: Value, message: Value)
    requires PublishArticle(st, id, role, uid, now, fault).Success?
    requires PublishArticle(st, id, role, uid, now, fault).value.1 > 0
    ensures var st' := PublishArticle(st, id, role, uid, now, fault).value.0;
      && PublishArticle(st', id, role, uid, now2, fault2) == Failure(HttpError(BadRequest, AlreadyPublished))
      && UpdateArticle(st', id, title, message, role, uid) == Failure(HttpError(BadRequest, OnlyDraftArticles))
  {
  }

  /** With no subscriber to reach, publishing leaves the article a draft. */
  lemma NoSubscribersStaysDraft(st: Store, id: ArticleId, role: Role, uid: UserId, now: Time, fault: bool)
    requires PublishArticle(st, id, role, uid, now, fault).Success?
    requires PublishArticle(st, id, role, uid, now, fault).value.1 == 0
    ensures PublishArticle(st, id, role, uid, now, fault).value.0.articles[id].status == ArticleDraft
    ensures PublishArticle(st, id, role, uid, now, fault).value.0.logs == st.logs
  {
  }

  // ------------------------------------------------------------------- preview

  /** One line of the draft preview: the user and the channels publishing would use. */
  datatype PreviewEntry = PreviewEntry(user: User, channels: seq<Channel>)

  /** The draft-mode answer of `getArticleRecipients`; a published article
      lists its delivered rows instead, which is a log query. */
  datatype Preview = SentArticle | DraftPreview(items: seq<PreviewEntry>, meta: PageMeta)

  /** The `role` query parameter, trimmed: "" and "all" mean any role. */
  predicate RoleMatches(u: User, roleQuery: string) {
    Keeps(roleQuery, RoleName(u.role))
  }

  /** The preview line of a user: the enabled newsletter channels in push, email, sms order. */
  function EntryOf(st: Store, u: User): PreviewEntry {
    PreviewEntry(u, ChannelsOf(st.prefs, u.id, Newsletter))
  }

  function Entries(st: Store, users: seq<User>): (r: seq<PreviewEntry>)
    ensures |r| == |users|
    ensures forall i :: 0 <= i < |users| ==> r[i] == EntryOf(st, users[i])
  {
    seq(|users|, i requires 0 <= i < |users| => EntryOf(st, users[i]))
  }

  /** Every line of the preview before paging: the publish recipients with the
      requested role. */
  function PreviewEntries(st: Store, nid: NewsletterId, roleQuery: string): (r: seq<PreviewEntry>)
    ensures forall e :: e in r ==>
      && e.user in st.users && NewsletterEligible(e.user, st, nid) && RoleMatches(e.user, roleQuery)
      && e == EntryOf(st, e.user)
    ensures forall u :: u in st.users && NewsletterEligible(u, st, nid) && RoleMatches(u, roleQuery) ==> EntryOf(st, u) in r
  {
    var users := Select(st.users, u => NewsletterEligible(u, st, nid) && RoleMatches(u, roleQuery));
    var r := Entries(st, users);
    forall e | e in r ensures e.user in users && e == EntryOf(st, e.user) {
      var k :| 0 <= k < |r| && r[k] == e;
      assert users[k] in users;
    }
    forall u | u in st.users && NewsletterEligible(u, st, nid) && RoleMatches(u, roleQuery) ensures EntryOf(st, u) in r {
      var k :| 0 <= k < |users| && users[k] == u;
      assert r[k] == EntryOf(st, u);
    }
    r
  }

  /** `getArticleRecipients` for an article; there is no ownership check. */
  function PreviewRecipients(st: Store, id: ArticleId, roleQuery: string, pageRaw: Option<int>, limitRaw: Option<int>)
    : (r: Result<Preview, HttpError>)
    ensures id !in st.articles ==> r == Failure(HttpError(NotFound, "Article not found"))
    ensures id in st.articles && st.articles[id].status == ArticleSent ==> r == Success(SentArticle)
    ensures id in st.articles && st.articles[id].status == ArticleDraft ==>
      && r.Success? && r.value.DraftPreview?
      && var all := PreviewEntries(st, st.articles[id].newsletterId, roleQuery);
      && (forall e :: e in r.value.items ==> e in all)
      && r.value.meta.total == |all|
      && MinLimit <= r.value.meta.limit <= WideMaxLimit && |r.value.items| <= r.value.meta.limit
  {
    if id !in st.articles then Failure(HttpError(NotFound, "Article not found"))
    else
      var a := st.articles[id];
      if a.status == ArticleSent then Success(SentArticle)
      else
        var all := PreviewEntries(st, a.newsletterId, roleQuery);
        var page := Paginate(all, pageRaw, limitRaw, WideMaxLimit);
        assert forall e :: e in page.0 ==> e in all;
        Success(DraftPreview(page.0, page.1))
  }

  /** Every role filter lets a user through when it is blank or "all". */
  lemma AllRolesMatch(u: User)
    ensures RoleMatches(u, "all") && RoleMatches(u, "")
  {
    AllKeepsEverything(RoleName(u.role));
  }

  /** A user of the directory has a preview line, under a role filter the user
      passes, exactly when publishing would reach the user. */
  lemma PreviewListsSubscribers(st: Store, nid: NewsletterId, roleQuery: string, u: User)
    requires u in st.users && RoleMatches(u, roleQuery)
    ensures EntryOf(st, u) in PreviewEntries(st, nid, roleQuery) <==> u in Subscribers(st, nid)
  {
  }

  /** With unique user ids, a user's id is among the recipients' ids exactly
      when the user is a recipient. */
  lemma SubscriberById(st: Store, nid: NewsletterId, u: User)
    requires UniqueUserIds(st.users) && u in st.users
    ensures u.id in Ids(Subscribers(st, nid)) <==> u in Subscribers(st, nid)
  {
    IdListedIffUser(st.users, Subscribers(st, nid), u);
  }

  /** The preview tells the truth: for every user of the directory that the
      role filter lets through, publishing logs exactly the channels of the
      user's preview line (push, email, sms), and nothing for a user the
      preview does not list. */
  lemma PreviewMatchesPublish(st: Store, id: ArticleId, role: Role, uid: UserId, now: Time, fault: bool,
                              roleQuery: string, u: User)
    requires UniqueUserIds(st.users) && u in st.users && RoleMatches(u, roleQuery)
    requires PublishArticle(st, id, role, uid, now, fault).Success?
    ensures var st' := PublishArticle(st, id, role, uid, now, fault).value.0;
      var e := EntryOf(st, u);
      RowsFor(st'.logs[|st.logs|..], u.id)
        == if e in PreviewEntries(st, st.articles[id].newsletterId, roleQuery)
           then UserRows(u.id, e.channels, FromArticle(id), SuccessStatus, now)
           else []
  {
    var r := PublishArticle(st, id, role, uid, now, fault).value;
    var a := st.articles[id];
    var rec := Subscribers(st, a.newsletterId);
    PreviewListsSubscribers(st, a.newsletterId, roleQuery, u);
    if r.1 > 0 {
      var ids := Ids(rec);
      AppendParts(st.logs, ArticleRows(st, id, rec, now));
      assert r.0.logs[|st.logs|..] == ArticleRows(st, id, rec, now);
      FanOutPerUser(ids, st.prefs, Newsletter, FromArticle(id), SuccessStatus, now, u.id);
      SubscriberById(st, a.newsletterId, u);
    } else {
      assert |rec| == 0;
      assert r.0.logs[|st.logs|..] == [];
    }
  }

  // ------------------------------------------------------------- subscriptions

  /** The unique index on `(user_id, newsletter_id)`. */
  predicate UniquePairs(subs: seq<Subscription>) {
    forall i, j :: 0 <= i < j < |subs| ==>
      subs[i].userId != subs[j].userId || subs[i].newsletterId != subs[j].newsletterId
  }

  /** The `update` branch of the upsert: the matching row gets a new `subscribed_at`. */
  function Touch(subs: seq<Subscription>, uid: UserId, nid: NewsletterId, now: Time): (r: seq<Subscription>)
    ensures |r| == |subs|
    ensures forall i :: 0 <= i < |subs| ==> r[i].(subscribedAt := subs[i].subscribedAt) == subs[i]
    ensures forall i :: 0 <= i < |subs| && subs[i].userId == uid && subs[i].newsletterId == nid ==>
      r[i].subscribedAt == now
    ensures forall i :: 0 <= i < |subs| && (subs[i].userId != uid || subs[i].newsletterId != nid) ==>
      r[i] == subs[i]
  {
    seq(|subs|, i requires 0 <= i < |subs| =>
      if subs[i].userId == uid && subs[i].newsletterId == nid then subs[i].(subscribedAt := now) else subs[i])
  }

  /** Touching rows keeps every (user, category) pair where it was. */
  lemma TouchKeepsPairs(subs: seq<Subscription>, uid: UserId, nid: NewsletterId, now: Time)
    ensures forall u, n :: SubscribedTo(Touch(subs, uid, nid, now), u, n) <==> SubscribedTo(subs, u, n)
    ensures UniquePairs(subs) ==> UniquePairs(Touch(subs, uid, nid, now))
  {
    var t := Touch(subs, uid, nid, now);
    forall u, n ensures SubscribedTo(t, u, n) <==> SubscribedTo(subs, u, n) {
      if SubscribedTo(t, u, n) {
        var s :| s in t && s.userId == u && s.newsletterId == n;
        var k :| 0 <= k < |t| && t[k] == s;
        assert subs[k] in subs;
      }
      if SubscribedTo(subs, u, n) {
        var s :| s in subs && s.userId == u && s.newsletterId == n;
        var k :| 0 <= k < |subs| && subs[k] == s;
        assert t[k] in t;
      }
    }
  }

  /** `subscribeToCategory`: an upsert on the (user, category) pair. */
  function Subscribe(st: Store, uid: UserId, nidParam: string, now: Time): (r: Result<Store, HttpError>)
    ensures Trim(nidParam) == "" ==> r == Failure(HttpError(BadRequest, "newsletter_id is required"))
    ensures Trim(nidParam) != "" && Trim(nidParam) !in st.categories
      ==> r == Failure(HttpError(NotFound, "Newsletter category not found"))
    ensures r.Success? <==> Trim(nidParam) != "" && Trim(nidParam) in st.categories
    ensures r.Success? ==>
      && r.value == st.(subscriptions := r.value.subscriptions)
      && SubscribedTo(r.value.subscriptions, uid, Trim(nidParam))
      && (forall u, n :: u != uid || n != Trim(nidParam) ==>
            (SubscribedTo(r.value.subscriptions, u, n) <==> SubscribedTo(st.subscriptions, u, n)))
      && (UniquePairs(st.subscriptions) ==> UniquePairs(r.value.subscriptions))
      && (SubscribedTo(st.subscriptions, uid, Trim(nidParam)) ==> |r.value.subscriptions| == |st.subscriptions|)
  {
    var nid := Trim(nidParam);
    if nid == "" then Failure(HttpError(BadRequest, "newsletter_id is required"))
    else if nid !in st.categories then Failure(HttpError(NotFound, "Newsletter category not found"))
    else if SubscribedTo(st.subscriptions, uid, nid) then
      TouchKeepsPairs(st.subscriptions, uid, nid, now);
      Success(st.(subscriptions := Touch(st.subscriptions, uid, nid, now)))
    else
      var subs := st.subscriptions + [Subscription(uid, nid, now)];
      AddKeepsPairs(st.subscriptions, Subscription(uid, nid, now));
      Success(st.(subscriptions := subs))
  }

  /** Appending a row for a new pair adds that pair and nothing else. */
  lemma AddKeepsPairs(subs: seq<Subscription>, s: Subscription)
    requires !SubscribedTo(subs, s.userId, s.newsletterId)
    ensures SubscribedTo(subs + [s], s.userId, s.newsletterId)
    ensures forall u, n :: u != s.userId || n != s.newsletterId ==>
      (SubscribedTo(subs + [s], u, n) <==> SubscribedTo(subs, u, n))
    ensures UniquePairs(subs) ==> UniquePairs(subs + [s])
  {
    var t := subs + [s];
    assert t[|subs|] == s;
    forall i | 0 <= i < |subs| ensures t[i] == subs[i] && (subs[i].userId != s.userId || subs[i].newsletterId != s.newsletterId) {
      assert subs[i] in subs;
    }
  }

  /** Subscribing again only refreshes the date: there is still one row for the pair. */
  lemma SubscribeTwice(st: Store, uid: UserId, nidParam: string, now: Time, now2: Time)
    requires Subscribe(st, uid, nidParam, now).Success?
    ensures var st' := Subscribe(st, uid, nidParam, now).value;
      && Subscribe(st', uid, nidParam, now2).Success?
      && |Subscribe(st', uid, nidParam, now2).value.subscriptions| == |st'.subscriptions|
  {
  }

  /** The rows `deleteMany` keeps: those of other users or other categories. */
  function Unsubscribed(subs: seq<Subscription>, uid: UserId, nid: NewsletterId): (r: seq<Subscription>)
    ensures forall s :: s in r <==> s in subs && (s.userId != uid || s.newsletterId != nid)
  {
    Filter(subs, OtherPairs(uid, nid))
  }

  function OtherPairs(uid: UserId, nid: NewsletterId): Subscription -> bool {
    (s: Subscription) => s.userId != uid || s.newsletterId != nid
  }

  /** `unsubscribeFromCategory`: no check that the category exists. */
  function Unsubscribe(st: Store, uid: UserId, nidParam: string): (r: Result<Store, HttpError>)
    ensures Trim(nidParam) == "" ==> r == Failure(HttpError(BadRequest, "newsletter_id is required"))
    ensures r.Success? <==> Trim(nidParam) != ""
    ensures r.Success? ==>
      && r.value == st.(subscriptions := r.value.subscriptions)
      && !SubscribedTo(r.value.subscriptions, uid, Trim(nidParam))
      && (forall u, n :: u != uid || n != Trim(nidParam) ==>
            (SubscribedTo(r.value.subscriptions, u, n) <==> SubscribedTo(st.subscriptions, u, n)))
  {
    var nid := Trim(nidParam);
    if nid == "" then Failure(HttpError(BadRequest, "newsletter_id is required"))
    else Success(st.(subscriptions := Unsubscribed(st.subscriptions, uid, nid)))
  }

  /** Unsubscribing twice is unsubscribing once. */
  lemma UnsubscribeIdempotent(st: Store, uid: UserId, nidParam: string)
    requires Unsubscribe(st, uid, nidParam).Success?
    ensures Unsubscribe(Unsubscribe(st, uid, nidParam).value, uid, nidParam) == Unsubscribe(st, uid, nidParam)
  {
    var nid := Trim(nidParam);
    FilterIdempotent(st.subscriptions, OtherPairs(uid, nid));
  }
}

=== FILE: orders.dfy ===
/** The order controller: creating an order and changing its status, each
    followed by one log row per enabled `order_updates` channel of the owner,
    and the two order lists. The order write and the log write are separate
    statements, not one transaction. */
module Orders {
  import opened Wrappers
  import opened Json
  import opened Domain
  import opened Http
  import opened Pagination
  import opened Filters

  /** The store after the handler and its reply. A failure after the order
      write still leaves that write in the store. */
  datatype Outcome = Outcome(store: Store, reply: Result<Order, HttpError>)

  const ItemsRequired: string := "Items are required"
  const AmountRequired: string := "Valid total amount is required"
  const UserMissing: string := "User not found. Please log out and log in again."
  const InvalidStatus: string := "Invalid status"
  const OrderMissing: string := "Order not found"

  /** `items` is present, an array and not empty. */
  predicate ItemsGiven(items: Value) {
    items.Arr? && |items.items| > 0
  }

  /** JavaScript's `v < 0`, which first coerces `v` to a number. A number is
      compared as it is; a string goes through `Number` (`toNumber`, where
      `None` is NaN), an array through its `String` form; null is 0, and
      booleans (0 or 1), undefined and objects (NaN) are never below zero. */
  predicate BelowZero(v: Value, toNumber: string -> Option<int>) {
    match v
    case Num(n) => n < 0
    case Str(s) => toNumber(s).Some? && toNumber(s).value < 0
    case Arr(_) => toNumber(JsString(v)).Some? && toNumber(JsString(v)).value < 0
    case _ => false
  }

  /** The amount check passes: not `total_amount == null || total_amount < 0`,
      applied to the raw body value. */
  predicate AmountValid(amount: Value, toNumber: string -> Option<int>) {
    !IsNullish(amount) && !BelowZero(amount, toNumber)
  }

  /** `parseFloat(total_amount)`: a number is itself, anything else is read
      from its `String` form by `parseFloat` (`None` is NaN). */
  function ParsedAmount(amount: Value, parseFloat: string -> Option<int>): Option<int> {
    if amount.Num? then Some(amount.n) else parseFloat(JsString(amount))
  }

  predicate UserExists(users: seq<User>, uid: UserId) {
    exists u :: u in users && u.id == uid
  }

  /** The rows of one order event: one per `order_updates` channel the owner
      enabled, each carrying the order's status string. */
  function OrderRows(prefs: map<UserId, Preference>, uid: UserId, oid: OrderId, s: OrderStatus, now: Time): (rows: seq<LogRow>)
    ensures |rows| == |ChannelsOf(prefs, uid, OrderUpdates)| && |rows| <= 3
    ensures forall row :: row in rows ==>
      && row.userId == uid && row.status == OrderStatusName(s) && row.sentAt == now
      && row.orderId == Some(oid) && ExactlyOneSource(row)
      && row.channel.Some? && uid in prefs && Flag(prefs[uid], OrderUpdates, row.channel.value)
  {
    var chans := ChannelsOf(prefs, uid, OrderUpdates);
    var rows := UserRows(uid, chans, FromOrder(oid), OrderStatusName(s), now);
    forall row | row in rows
      ensures row.orderId == Some(oid) && ExactlyOneSource(row) && row.channel.Some? && row.channel.value in chans
    {
      var i :| 0 <= i < |rows| && rows[i] == row;
      MakeRowSource(uid, Some(chans[i]), OrderStatusName(s), now, FromOrder(oid));
    }
    rows
  }

  /** A missing preference row, or one with every order channel off, writes nothing. */
  lemma NoChannelNoRows(prefs: map<UserId, Preference>, uid: UserId, oid: OrderId, s: OrderStatus, now: Time)
    requires uid !in prefs || !HasChannel(prefs[uid], OrderUpdates)
    ensures OrderRows(prefs, uid, oid, s, now) == []
  {
    if uid in prefs {
      HasChannelEnables(prefs[uid], OrderUpdates);
    }
  }

  /** No order row ever reads `success`: the status names are the five order statuses. */
  lemma OrderRowsNeverSuccess(prefs: map<UserId, Preference>, uid: UserId, oid: OrderId, s: OrderStatus, now: Time)
    ensures forall row :: row in OrderRows(prefs, uid, oid, s, now) ==> row.status != SuccessStatus
  {
    assert OrderStatusName(s) != SuccessStatus;
  }

  /** `createOrder` for the caller `uid`, with `total_amount` as received.
      `toNumber` and `parseFloat` stand for JavaScript's `Number` and
      `parseFloat` on text; `newId` and `now` are what the database generates;
      `logFault` is the log insert throwing. An order insert with a NaN
      amount, or under an id already taken, fails with a 500. */
  function CreateOrder(st: Store, uid: UserId, items: Value, amount: Value,
                       toNumber: string -> Option<int>, parseFloat: string -> Option<int>,
                       newId: OrderId, now: Time, logFault: bool): (r: Outcome)
    ensures !ItemsGiven(items) ==> r == Outcome(st, Failure(HttpError(BadRequest, ItemsRequired)))
    ensures ItemsGiven(items) && !AmountValid(amount, toNumber)
      ==> r == Outcome(st, Failure(HttpError(BadRequest, AmountRequired)))
    ensures ItemsGiven(items) && AmountValid(amount, toNumber) && !UserExists(st.users, uid)
      ==> r == Outcome(st, Failure(HttpError(NotFound, UserMissing)))
    ensures r.reply.Success? <==>
      && ItemsGiven(items) && AmountValid(amount, toNumber) && UserExists(st.users, uid) && newId !in st.orders
      && ParsedAmount(amount, parseFloat).Some?
      && !(logFault && |ChannelsOf(st.prefs, uid, OrderUpdates)| > 0)
    ensures r.reply.Failure? && r.reply.error.status != ServerError ==> r.store == st
    ensures r.reply.Success? ==>
      && r.reply.value == Order(newId, uid, OrderConfirmed, ParsedAmount(amount, parseFloat).value, now)
      && r.store == st.(orders := st.orders[newId := r.reply.value],
                        logs := st.logs + OrderRows(st.prefs, uid, newId, OrderConfirmed, now))
    ensures r.reply.Failure? && r.store != st ==>
      && r.reply.error.status == ServerError && logFault && ParsedAmount(amount, parseFloat).Some?
      && r.store == st.(orders := st.orders[newId := Order(newId, uid, OrderConfirmed, ParsedAmount(amount, parseFloat).value, now)])
  {
    if !ItemsGiven(items) then Outcome(st, Failure(HttpError(BadRequest, ItemsRequired)))
    else if !AmountValid(amount, toNumber) then Outcome(st, Failure(HttpError(BadRequest, AmountRequired)))
    else if !UserExists(st.users, uid) then Outcome(st, Failure(HttpError(NotFound, UserMissing)))
    else if newId in st.orders || ParsedAmount(amount, parseFloat).None? then Outcome(st, Failure(HttpError(ServerError, "")))
    else
      var order := Order(newId, uid, OrderConfirmed, ParsedAmount(amount, parseFloat).value, now);
      var placed := st.(orders := st.orders[newId := order]);
      var rows := OrderRows(st.prefs, uid, newId, OrderConfirmed, now);
      if |rows| == 0 then Outcome(placed, Success(order))
      else if logFault then Outcome(placed, Failure(HttpError(ServerError, "")))
      else Outcome(placed.(logs := st.logs + rows), Success(order))
  }

  /** The order write and the log write are not atomic: when the log insert
      fails the caller sees an error while the order stays placed. */
  lemma OrderSurvivesLogFailure(st: Store, uid: UserId, items: Value, amount: Value,
                                toNumber: string -> Option<int>, parseFloat: string -> Option<int>,
                                newId: OrderId, now: Time)
    requires ItemsGiven(items) && AmountValid(amount, toNumber) && ParsedAmount(amount, parseFloat).Some?
    requires UserExists(st.users, uid) && newId !in st.orders
    requires uid in st.prefs && HasChannel(st.prefs[uid], OrderUpdates)
    ensures var r := CreateOrder(st, uid, items, amount, toNumber, parseFloat, newId, now, true);
      && r.reply == Failure(HttpError(ServerError, ""))
      && newId in r.store.orders && r.store.logs == st.logs
  {
    HasChannelEnables(st.prefs[uid], OrderUpdates);
  }

  /** The amount check runs on the raw value and the parse comes after it: a
      text such as "-5x" is NaN to `Number`, so it is not below zero, while
      `parseFloat` reads its prefix -5, and the order is stored with a
      negative amount. */
  lemma PrefixNegativeStored(st: Store, uid: UserId, newId: OrderId, now: Time,
                             toNumber: string -> Option<int>, parseFloat: string -> Option<int>)
    requires UserExists(st.users, uid) && newId !in st.orders
    requires toNumber("-5x") == None && parseFloat("-5x") == Some(-5)
    ensures var r := CreateOrder(st, uid, Arr([Num(1)]), Str("-5x"), toNumber, parseFloat, newId, now, false);
      r.reply.Success? && r.reply.value.totalAmount == -5
  {
    assert JsString(Str("-5x")) == "-5x";
    assert ItemsGiven(Arr([Num(1)]));
  }

  /** `createOrder` with the amount check applied to the parsed amount, which
      the "Valid total amount is required" reply evidently intends: an amount
      that parses to NaN or to a negative number is refused with that 400. */
  function CreateOrderChecked(st: Store, uid: UserId, items: Value, amount: Value,
                              toNumber: string -> Option<int>, parseFloat: string -> Option<int>,
                              newId: OrderId, now: Time, logFault: bool): (r: Outcome)
    ensures ItemsGiven(items) && (ParsedAmount(amount, parseFloat).None? || ParsedAmount(amount, parseFloat).value < 0)
      ==> r == Outcome(st, Failure(HttpError(BadRequest, AmountRequired)))
    ensures r.reply.Success? <==>
      && CreateOrder(st, uid, items, amount, toNumber, parseFloat, newId, now, logFault).reply.Success?
      && ParsedAmount(amount, parseFloat).value >= 0
    ensures r.reply.Success? ==> r.reply.value.totalAmount >= 0
    ensures forall row :: row in r.store.orders.Values && row !in st.orders.Values ==> row.totalAmount >= 0
  {
    var parsed := ParsedAmount(amount, parseFloat);
    if ItemsGiven(items) && (IsNullish(amount) || parsed.None? || parsed.value < 0) then
      Outcome(st, Failure(HttpError(BadRequest, AmountRequired)))
    else CreateOrder(st, uid, items, amount, toNumber, parseFloat, newId, now, logFault)
  }

  /** For a JSON number the two checks agree: the correction changes nothing
      for the amounts a well-behaved client sends. */
  lemma CheckedAgreesOnNumbers(st: Store, uid: UserId, items: Value, n: int,
                               toNumber: string -> Option<int>, parseFloat: string -> Option<int>,
                               newId: OrderId, now: Time, logFault: bool)
    ensures CreateOrderChecked(st, uid, items, Num(n), toNumber, parseFloat, newId, now, logFault)
         == CreateOrder(st, uid, items, Num(n), toNumber, parseFloat, newId, now, logFault)
  {
  }

  /** `validStatuses.includes(status)`: a string naming one of the five statuses. */
  function ParseOrderStatus(v: Value): (r: Option<OrderStatus>)
    ensures r.Some? <==> v.Str? && v.s in {"ORDER_CONFIRMED", "SHIPPED", "OUT_FOR_DELIVERY", "DELIVERED", "CANCELLED"}
    ensures r.Some? ==> v == Str(OrderStatusName(r.value))
  {
    if v == Str("ORDER_CONFIRMED") then Some(OrderConfirmed)
    else if v == Str("SHIPPED") then Some(Shipped)
    else if v == Str("OUT_FOR_DELIVERY") then Some(OutForDelivery)
    else if v == Str("DELIVERED") then Some(Delivered)
    else if v == Str("CANCELLED") then Some(Cancelled)
    else None
  }

  /** Every status is accepted under its own name, and two names never collide. */
  lemma ParseStatusName(s: OrderStatus, t: OrderStatus)
    ensures ParseOrderStatus(Str(OrderStatusName(s))) == Some(s)
    ensures OrderStatusName(s) == OrderStatusName(t) ==> s == t
  {
  }

  /** `updateOrderStatus`: the status is checked before the store is read. */
  function UpdateOrderStatus(st: Store, id: OrderId, status: Value, now: Time, logFault: bool): (r: Outcome)
    ensures ParseOrderStatus(status).None? ==> r == Outcome(st, Failure(HttpError(BadRequest, InvalidStatus)))
    ensures ParseOrderStatus(status).Some? && id !in st.orders ==> r == Outcome(st, Failure(HttpError(NotFound, OrderMissing)))
    ensures r.reply.Success? <==>
      && ParseOrderStatus(status).Some? && id in st.orders
      && !(logFault && |ChannelsOf(st.prefs, st.orders[id].userId, OrderUpdates)| > 0)
    ensures r.reply.Success? ==>
      var o := st.orders[id];
      var s := ParseOrderStatus(status).value;
      && r.reply.value == o.(status := s)
      && r.store == st.(orders := st.orders[id := o.(status := s)],
                        logs := st.logs + OrderRows(st.prefs, o.userId, id, s, now))
    ensures r.reply.Failure? && r.store != st ==>
      && r.reply.error.status == ServerError && logFault && id in st.orders
      && r.store == st.(orders := st.orders[id := st.orders[id].(status := ParseOrderStatus(status).value)])
  {
    var parsed := ParseOrderStatus(status);
    if parsed.None? then Outcome(st, Failure(HttpError(BadRequest, InvalidStatus)))
    else if id !in st.orders then Outcome(st, Failure(HttpError(NotFound, OrderMissing)))
    else
      var o := st.orders[id];
      var o' := o.(status := parsed.value);
      var updated := st.(orders := st.orders[id := o']);
      var rows := OrderRows(st.prefs, o.userId, id, parsed.value, now);
      if |rows| == 0 then Outcome(updated, Success(o'))
      else if logFault then Outcome(updated, Failure(HttpError(ServerError, "")))
      else Outcome(updated.(logs := st.logs + rows), Success(o'))
  }

  /** There is no transition order: from any status, any of the five is accepted. */
  lemma AnyTransitionAccepted(st: Store, id: OrderId, s: OrderStatus, now: Time, logFault: bool)
    requires id in st.orders
    requires !logFault
    ensures UpdateOrderStatus(st, id, Str(OrderStatusName(s)), now, logFault).reply == Success(st.orders[id].(status := s))
  {
    ParseStatusName(s, s);
  }

  /** Setting the same status twice leaves the order as after the first call,
      but notifies the owner a second time. */
  lemma RepeatedStatusNotifiesAgain(st: Store, id: OrderId, s: OrderStatus, now: Time, now2: Time)
    requires id in st.orders
    ensures var st1 := UpdateOrderStatus(st, id, Str(OrderStatusName(s)), now, false).store;
      var st2 := UpdateOrderStatus(st1, id, Str(OrderStatusName(s)), now2, false).store;
      var rows := |ChannelsOf(st.prefs, st.orders[id].userId, OrderUpdates)|;
      && st2.orders == st1.orders
      && |st2.logs| == |st1.logs| + rows == |st.logs| + 2 * rows
  {
    ParseStatusName(s, s);
  }

  // --------------------------------------------------------------------- lists

  /** The `status`, `from` and `to` filters of both order lists. */
  predicate OrderMatches(o: Order, statusQuery: string, range: DayRange) {
    Keeps(statusQuery, OrderStatusName(o.status)) && InRange(o.createdAt, range)
  }

  function AllMatching(ordered: seq<Order>, statusQuery: string, range: DayRange): (r: seq<Order>)
    ensures forall o :: o in r <==> o in ordered && OrderMatches(o, statusQuery, range)
  {
    Filter(ordered, MatchTest(statusQuery, range))
  }

  function MatchTest(statusQuery: string, range: DayRange): Order -> bool {
    (o: Order) => OrderMatches(o, statusQuery, range)
  }

  function MineTest(uid: UserId, statusQuery: string, range: DayRange): Order -> bool {
    (o: Order) => o.userId == uid && OrderMatches(o, statusQuery, range)
  }

  /** `getAllOrders` over the orders in the list's order (newest first). */
  function ListAllOrders(ordered: seq<Order>, statusQuery: string, range: DayRange,
                         pageRaw: Option<int>, limitRaw: Option<int>): (r: (seq<Order>, PageMeta))
    ensures forall o :: o in r.0 ==> o in ordered && OrderMatches(o, statusQuery, range)
    ensures r.1.total == |AllMatching(ordered, statusQuery, range)|
    ensures MinLimit <= r.1.limit <= NarrowMaxLimit && |r.0| <= r.1.limit
  {
    var matching := AllMatching(ordered, statusQuery, range);
    var r := Paginate(matching, pageRaw, limitRaw, NarrowMaxLimit);
    assert forall o :: o in r.0 ==> o in matching;
    r
  }

  /** The caller's orders among those the filters keep. */
  function MyMatching(ordered: seq<Order>, uid: UserId, statusQuery: string, range: DayRange): (r: seq<Order>)
    ensures forall o :: o in r <==> o in AllMatching(ordered, statusQuery, range) && o.userId == uid
  {
    Filter(ordered, MineTest(uid, statusQuery, range))
  }

  /** `getMyOrders`: the same filters, scoped to the caller's own orders. */
  function ListMyOrders(ordered: seq<Order>, uid: UserId, statusQuery: string, range: DayRange,
                        pageRaw: Option<int>, limitRaw: Option<int>): (r: (seq<Order>, PageMeta))
    ensures forall o :: o in r.0 ==> o in ordered && o.userId == uid && OrderMatches(o, statusQuery, range)
    ensures r.1.total == |MyMatching(ordered, uid, statusQuery, range)|
    ensures MinLimit <= r.1.limit <= NarrowMaxLimit && |r.0| <= r.1.limit
  {
    var matching := MyMatching(ordered, uid, statusQuery, range);
    var r := Paginate(matching, pageRaw, limitRaw, NarrowMaxLimit);
    assert forall o :: o in r.0 ==> o in matching;
    r
  }

  /** The caller's list never counts more than the full list. */
  lemma MyOrdersWithinAll(ordered: seq<Order>, uid: UserId, statusQuery: string, range: DayRange)
    ensures |MyMatching(ordered, uid, statusQuery, range)| <= |AllMatching(ordered, statusQuery, range)|
  {
    FilterMonotone(ordered, MineTest(uid, statusQuery, range), MatchTest(statusQuery, range));
  }
}

=== FILE: pagination.dfy ===
/** The clamped pagination that every list handler repeats: the `page` and
    `limit` query parameters, the page count and the window of rows returned. */
module Pagination {
  import opened Wrappers

  const MinLimit: int := 5
  const DefaultLimit: int := 10
  /** The upper limit of the campaign, user, log, category, article and recipient lists. */
  const WideMaxLimit: int := 100
  /** The upper limit of the order lists and of a user's own notifications. */
  const NarrowMaxLimit: int := 50

  /** `parseInt(raw || "<d>", 10) || d`, where `parsed` is what `parseInt`
      returned (`None` for NaN): zero and NaN fall back to the default. */
  function OrDefault(parsed: Option<int>, d: int): int {
    if parsed.None? || parsed.value == 0 then d else parsed.value
  }

  /** `Math.max(1, parseInt(pageRaw || "1", 10) || 1)`. */
  function PageParam(parsed: Option<int>): (p: int)
    ensures p >= 1
    ensures parsed.Some? && parsed.value >= 1 ==> p == parsed.value
    ensures parsed.None? || parsed.value < 1 ==> p == 1
  {
    var requested := OrDefault(parsed, 1);
    if requested < 1 then 1 else requested
  }

  /** `Math.min(max, Math.max(5, parseInt(limitRaw || "10", 10) || 10))`. */
  function LimitParam(parsed: Option<int>, maxLimit: int): (l: int)
    requires maxLimit >= DefaultLimit
    ensures MinLimit <= l <= maxLimit
    ensures parsed.Some? && MinLimit <= parsed.value <= maxLimit ==> l == parsed.value
    ensures parsed.None? || parsed.value == 0 ==> l == DefaultLimit
    ensures parsed.Some? && parsed.value != 0 && parsed.value < MinLimit ==> l == MinLimit
    ensures parsed.Some? && parsed.value > maxLimit ==> l == maxLimit
  {
    var requested := OrDefault(parsed, DefaultLimit);
    var atLeast := if requested < MinLimit then MinLimit else requested;
    if atLeast > maxLimit then maxLimit else atLeast
  }

  /** The `meta` object of a list response. */
  datatype PageMeta = PageMeta(page: int, limit: int, total: nat, totalPages: int, hasPrev: bool, hasNext: bool)

  /** `Math.ceil(a / b)` on exact integers. */
  function CeilDiv(a: nat, b: int): int
    requires b > 0
  {
    (a + b - 1) / b
  }

  lemma CeilDivBounds(a: nat, b: int)
    requires b > 0
    ensures CeilDiv(a, b) >= 0
    ensures a > 0 ==> CeilDiv(a, b) >= 1 && (CeilDiv(a, b) - 1) * b < a <= CeilDiv(a, b) * b
  {
    var q, r := (a + b - 1) / b, (a + b - 1) % b;
    assert a + b - 1 == q * b + r && 0 <= r < b;
    assert (q - 1) * b == q * b - b;
  }

  lemma MulMono(x: int, y: int, b: int)
    requires 0 <= x <= y && b > 0
    ensures x * b <= y * b
  {
  }

  /** The page count, the clamped page and the page flags for `total` rows. */
  function Meta(total: nat, page: int, limit: int): (m: PageMeta)
    requires page >= 1 && limit >= 1
    ensures m.total == total && m.limit == limit
    ensures m.totalPages >= 1
    ensures total == 0 ==> m.totalPages == 1
    ensures total > 0 ==> (m.totalPages - 1) * limit < total <= m.totalPages * limit
    ensures 1 <= m.page <= m.totalPages
    ensures page <= m.totalPages ==> m.page == page
    ensures page > m.totalPages ==> m.page == m.totalPages
    ensures m.hasPrev <==> m.page > 1
    ensures m.hasNext <==> m.page < m.totalPages
  {
    CeilDivBounds(total, limit);
    var totalPages := if total == 0 then 1 else CeilDiv(total, limit);
    var safePage := if page < totalPages then page else totalPages;
    PageMeta(safePage, limit, total, totalPages, safePage > 1, safePage < totalPages)
  }

  /** `(safePage - 1) * limit`. */
  function Skip(m: PageMeta): int {
    (m.page - 1) * m.limit
  }

  /** The skipped rows never reach past the matching ones, and only the last
      page may be short. */
  lemma WindowBounds(total: nat, page: int, limit: int)
    requires page >= 1 && limit >= 1
    ensures var m := Meta(total, page, limit);
      && 0 <= Skip(m)
      && (total == 0 ==> Skip(m) == 0)
      && (total > 0 ==> Skip(m) < total)
      && (m.hasNext ==> Skip(m) + limit < total)
  {
    var m := Meta(total, page, limit);
    MulMono(0, m.page - 1, limit);
    if total > 0 {
      MulMono(m.page - 1, m.totalPages - 1, limit);
      if m.hasNext {
        MulMono(m.page, m.totalPages - 1, limit);
        assert Skip(m) + limit == m.page * limit;
      }
    }
  }

  /** `findMany({ skip, take: limit })` over the matching rows, with the meta
      computed from the request's raw `page` and `limit`. */
  function Paginate<T>(matching: seq<T>, pageRaw: Option<int>, limitRaw: Option<int>, maxLimit: int): (r: (seq<T>, PageMeta))
    requires maxLimit >= DefaultLimit
    ensures r.1 == Meta(|matching|, PageParam(pageRaw), LimitParam(limitRaw, maxLimit))
    ensures MinLimit <= r.1.limit <= maxLimit
    ensures 0 <= Skip(r.1) <= |matching| && Skip(r.1) + |r.0| <= |matching|
    ensures r.0 == matching[Skip(r.1)..Skip(r.1) + |r.0|]
    ensures |r.0| <= r.1.limit
    ensures |matching| > 0 ==> |r.0| > 0
    ensures r.1.hasNext ==> |r.0| == r.1.limit
    ensures !r.1.hasNext ==> Skip(r.1) + |r.0| == |matching|
  {
    var m := Meta(|matching|, PageParam(pageRaw), LimitParam(limitRaw, maxLimit));
    var skip := Skip(m);
    WindowBounds(|matching|, PageParam(pageRaw), LimitParam(limitRaw, maxLimit));
    var end := if skip + m.limit < |matching| then skip + m.limit else |matching|;
    (matching[skip..end], m)
  }

  /** Every matching row can be reached: row `k` is in the window of page
      `k / limit + 1`, which is never clamped away. */
  lemma PageOfRow(total: nat, limit: int, k: nat)
    requires limit >= 1 && k < total
    ensures var m := Meta(total, k / limit + 1, limit);
      m.page == k / limit + 1 && Skip(m) <= k < Skip(m) + limit
  {
    var p := k / limit + 1;
    var m := Meta(total, p, limit);
    assert k == (p - 1) * limit + k % limit;
    if p > m.totalPages {
      MulMono(m.totalPages, p - 1, limit);
    }
  }

  /** Asking for row `k`'s page, `k / limit + 1`, with a limit inside the
      clamp returns a page that holds row `k`. */
  lemma PageHoldsRow<T>(matching: seq<T>, limit: int, maxLimit: int, k: nat) returns (page: int)
    requires MinLimit <= limit <= maxLimit && maxLimit >= DefaultLimit
    requires k < |matching|
    ensures page == k / limit + 1 && page >= 1
    ensures matching[k] in Paginate(matching, Some(page), Some(limit), maxLimit).0
  {
    page := k / limit + 1;
    var r := Paginate(matching, Some(page), Some(limit), maxLimit);
    PageOfRow(|matching|, limit, k);
    var skip := Skip(r.1);
    assert r.0[k - skip] == matching[k];
  }
}

=== FILE: preferences.dfy ===
/** The preference controller: reading a user's preference row, and the
    update that writes only the three legacy flags, creating the row when the
    user has none. */
module Preferences {
  import opened Wrappers
  import opened Json
  import opened Domain
  import opened Http

  const PreferencesMissing: string := "Preferences not found"

  /** `getPreferences` for the `userId` path parameter (`None` when
      `parseInt` gives NaN, which the query rejects). Any caller may read. */
  function GetPreferences(st: Store, target: Option<int>): (r: Result<Preference, HttpError>)
    ensures target.None? ==> r.Failure? && r.error.status == ServerError
    ensures target.Some? && target.value !in st.prefs ==> r == Failure(HttpError(NotFound, PreferencesMissing))
    ensures r.Success? <==> target.Some? && target.value in st.prefs
    ensures r.Success? ==> r.value == st.prefs[target.value]
  {
    if target.None? then Failure(HttpError(ServerError, ""))
    else if target.value !in st.prefs then Failure(HttpError(NotFound, PreferencesMissing))
    else Success(st.prefs[target.value])
  }

  /** The `offers`, `order_updates` and `newsletter` of the body; an absent
      field is `Undefined`. */
  datatype LegacyBody = LegacyBody(offers: Value, orderUpdates: Value, newsletter: Value)

  /** A field the column accepts: absent (left alone) or a boolean. */
  predicate Writable(v: Value) {
    v.Undefined? || v.Bool?
  }

  /** The column after the write: an absent field keeps `current`. */
  function Written(v: Value, current: bool): (b: bool)
    requires Writable(v)
    ensures v.Bool? ==> b == v.b
    ensures v.Undefined? ==> b == current
  {
    if v.Bool? then v.b else current
  }

  /** The row with the three legacy flags of the body written over `base`. */
  function WithLegacy(base: Preference, body: LegacyBody): (p: Preference)
    requires Writable(body.offers) && Writable(body.orderUpdates) && Writable(body.newsletter)
    ensures forall cat, ch :: Flag(p, cat, ch) == Flag(base, cat, ch)
    ensures p.offers == Written(body.offers, base.offers)
    ensures p.orderUpdates == Written(body.orderUpdates, base.orderUpdates)
    ensures p.newsletter == Written(body.newsletter, base.newsletter)
  {
    base.(offers := Written(body.offers, base.offers),
          orderUpdates := Written(body.orderUpdates, base.orderUpdates),
          newsletter := Written(body.newsletter, base.newsletter))
  }

  /** `updatePreferences` by `caller` for the `userId` path parameter.
      `defaults` is the row the schema's column defaults give a new user. */
  function UpdatePreferences(st: Store, caller: UserId, target: Option<int>, body: LegacyBody, defaults: Preference)
    : (r: Result<Store, HttpError>)
    ensures target != Some(caller) ==> r == Failure(HttpError(Forbidden, "Forbidden"))
    ensures r.Success? <==>
      && target == Some(caller)
      && Writable(body.offers) && Writable(body.orderUpdates) && Writable(body.newsletter)
      && (caller in st.prefs || exists u :: u in st.users && u.id == caller)
    ensures r.Success? ==>
      && caller in r.value.prefs
      && r.value == st.(prefs := st.prefs[caller := r.value.prefs[caller]])
      && r.value.prefs[caller] == WithLegacy(if caller in st.prefs then st.prefs[caller] else defaults, body)
  {
    if target != Some(caller) then Failure(HttpError(Forbidden, "Forbidden"))
    else if !(Writable(body.offers) && Writable(body.orderUpdates) && Writable(body.newsletter)) then
      Failure(HttpError(ServerError, ""))
    else if caller in st.prefs then
      Success(st.(prefs := st.prefs[caller := WithLegacy(st.prefs[caller], body)]))
    else if exists u :: u in st.users && u.id == caller then
      Success(st.(prefs := st.prefs[caller := WithLegacy(defaults, body)]))
    else Failure(HttpError(ServerError, ""))
  }

  /** A user may only write their own row, whatever the body says. */
  lemma OnlyOwnRow(st: Store, caller: UserId, other: UserId, body: LegacyBody, defaults: Preference)
    requires other != caller
    ensures UpdatePreferences(st, caller, Some(other), body, defaults) == Failure(HttpError(Forbidden, "Forbidden"))
  {
  }

  /** Updating an existing row never changes a channel flag, so every flow
      reaches the same users on the same channels as before. */
  lemma ChannelsUntouched(st: Store, caller: UserId, body: LegacyBody, defaults: Preference,
                          uid: UserId, cat: Category)
    requires caller in st.prefs
    requires UpdatePreferences(st, caller, Some(caller), body, defaults).Success?
    ensures ChannelsOf(UpdatePreferences(st, caller, Some(caller), body, defaults).value.prefs, uid, cat)
         == ChannelsOf(st.prefs, uid, cat)
  {
    var p := UpdatePreferences(st, caller, Some(caller), body, defaults).value.prefs;
    if uid == caller {
      var before, after := st.prefs[caller], p[caller];
      assert Flag(after, cat, Push) == Flag(before, cat, Push);
      assert Flag(after, cat, Email) == Flag(before, cat, Email);
      assert Flag(after, cat, Sms) == Flag(before, cat, Sms);
    }
  }

  /** Writing the same body twice is writing it once. */
  lemma UpdateIdempotent(st: Store, caller: UserId, body: LegacyBody, defaults: Preference)
    requires UpdatePreferences(st, caller, Some(caller), body, defaults).Success?
    ensures var st' := UpdatePreferences(st, caller, Some(caller), body, defaults).value;
      UpdatePreferences(st', caller, Some(caller), body, defaults) == Success(st')
  {
    var st' := UpdatePreferences(st, caller, Some(caller), body, defaults).value;
    var p := st'.prefs[caller];
    assert WithLegacy(p, body) == p;
    assert st'.prefs[caller := p] == st'.prefs;
  }

  /** After a successful update the row is there to read, with the body's flags. */
  lemma UpdateThenGet(st: Store, caller: UserId, body: LegacyBody, defaults: Preference)
    requires UpdatePreferences(st, caller, Some(caller), body, defaults).Success?
    requires body.offers.Bool?
    ensures var st' := UpdatePreferences(st, caller, Some(caller), body, defaults).value;
      && GetPreferences(st', Some(caller)).Success?
      && GetPreferences(st', Some(caller)).value.offers == body.offers.b
  {
  }
}

=== FILE: scheduler.dfy ===
/** The once-a-minute scheduler tick: selects the due campaigns, claims each
    with a compare-and-set on its status, delivers it and reconciles the
    status with the outcome. */
module CampaignScheduler {
  import opened Wrappers
  import opened Domain
  import opened CampaignDelivery

  /** The `take` of the due query. */
  const BatchSize: nat := 50

  /** Status `scheduled` and a `scheduled_at` no later than now (a null time never matches). */
  predicate IsDue(c: Campaign, now: Time) {
    c.status == Scheduled && c.scheduledAt.Some? && c.scheduledAt.value <= now
  }

  function DueIds(st: Store, now: Time): (r: set<CampaignId>)
    ensures forall id :: id in r <==> id in st.campaigns && IsDue(st.campaigns[id], now)
  {
    set id | id in st.campaigns && IsDue(st.campaigns[id], now)
  }

  /** The sort key of the due query. */
  function When(st: Store, id: CampaignId): int
    requires id in st.campaigns
  {
    st.campaigns[id].scheduledAt.GetOr(0)
  }

  /** What the due query returns: distinct due campaigns, as many as allowed,
      in ascending `scheduled_at`, none later than a due campaign left out. */
  predicate IsDueBatch(st: Store, now: Time, batch: seq<CampaignId>) {
    && (forall i :: 0 <= i < |batch| ==> batch[i] in DueIds(st, now))
    && (forall i, j :: 0 <= i < j < |batch| ==> batch[i] != batch[j])
    && |batch| == (if |DueIds(st, now)| < BatchSize then |DueIds(st, now)| else BatchSize)
    && (forall i, j :: 0 <= i < j < |batch| ==> When(st, batch[i]) <= When(st, batch[j]))
    && (forall i, id :: 0 <= i < |batch| && id in DueIds(st, now) && id !in batch ==> When(st, batch[i]) <= When(st, id))
  }

  /** The earliest of `s` is the earlier of `y` and the earliest of the rest. */
  lemma MinStep(st: Store, s: set<CampaignId>, y: CampaignId, m: CampaignId)
    requires y in s && m in s && forall x :: x in s ==> x in st.campaigns
    requires forall x :: x in s - {y} ==> When(st, m) <= When(st, x)
    ensures exists w :: w in s && forall x :: x in s ==> When(st, w) <= When(st, x)
  {
    var w := if When(st, y) < When(st, m) then y else m;
    assert forall x :: x in s ==> When(st, w) <= When(st, x);
  }

  lemma HasMember(s: set<CampaignId>)
    requires |s| > 0
    ensures exists y :: y in s
  {
    if forall y :: y !in s {
      assert false;
    }
  }

  lemma {:induction false} MinimumExists(st: Store, s: set<CampaignId>)
    requires |s| > 0 && forall x :: x in s ==> x in st.campaigns
    ensures exists m :: m in s && forall x :: x in s ==> When(st, m) <= When(st, x)
    decreases |s|
  {
    HasMember(s);
    var y :| y in s;
    var rest := s - {y};
    assert |rest| == |s| - 1;
    if |rest| == 0 {
      forall x | x in s ensures When(st, y) <= When(st, x) {
        if x != y {
          assert false;
        }
      }
    } else {
      MinimumExists(st, s - {y});
      var m :| m in s - {y} && forall x :: x in s - {y} ==> When(st, m) <= When(st, x);
      MinStep(st, s, y, m);
    }
  }

  /** `findMany({ where: due, orderBy: scheduled_at asc, take: 50 })`, as a
      repeated choice of an earliest remaining due campaign. Ties are broken
      arbitrarily, as the database may. */
  method SelectDue(st: Store, now: Time) returns (batch: seq<CampaignId>)
    ensures IsDueBatch(st, now, batch)
  {
    var due := DueIds(st, now);
    var remaining := due;
    batch := [];
    while |batch| < BatchSize && |remaining| > 0
      invariant Chosen(st, due, batch, remaining)
      invariant |batch| <= BatchSize
      decreases BatchSize - |batch|
    {
      MinimumExists(st, remaining);
      var m :| m in remaining && forall x :: x in remaining ==> When(st, m) <= When(st, x);
      ChooseNext(st, due, batch, remaining, m);
      batch := batch + [m];
      remaining := remaining - {m};
    }
  }

  /** The state of the selection: `batch` holds distinct due campaigns in
      ascending order, none later than one still `remaining`, and the
      remaining ones are the due campaigns not yet chosen. */
  ghost predicate Chosen(st: Store, due: set<CampaignId>, batch: seq<CampaignId>, remaining: set<CampaignId>)
    requires forall id :: id in due ==> id in st.campaigns
  {
    && (forall id :: id in remaining <==> id in due && id !in batch)
    && (forall i :: 0 <= i < |batch| ==> batch[i] in due)
    && (forall i, j :: 0 <= i < j < |batch| ==> batch[i] != batch[j])
    && |batch| + |remaining| == |due|
    && (forall i, j :: 0 <= i < j < |batch| ==> When(st, batch[i]) <= When(st, batch[j]))
    && (forall i, id :: 0 <= i < |batch| && id in remaining ==> When(st, batch[i]) <= When(st, id))
  }

  /** Moving an earliest remaining campaign to the batch keeps the selection state. */
  lemma ChooseNext(st: Store, due: set<CampaignId>, batch: seq<CampaignId>, remaining: set<CampaignId>, m: CampaignId)
    requires forall id :: id in due ==> id in st.campaigns
    requires Chosen(st, due, batch, remaining)
    requires m in remaining && forall x :: x in remaining ==> When(st, m) <= When(st, x)
    ensures Chosen(st, due, batch + [m], remaining - {m})
  {
    var next := batch + [m];
    assert forall i :: 0 <= i < |batch| ==> next[i] == batch[i];
    assert next[|batch|] == m;
  }

  /** `updateMany({ where: { campaign_id, status: "scheduled" }, data: { status: "sending" } })`;
      the flag is `count > 0`. */
  function Claim(st: Store, id: CampaignId): (r: (Store, bool))
    ensures r.1 <==> id in st.campaigns && st.campaigns[id].status == Scheduled
    ensures r.1 ==> r.0.campaigns == st.campaigns[id := st.campaigns[id].(status := Sending)]
    ensures r.0.(campaigns := st.campaigns) == st
    ensures !r.1 ==> r.0 == st
  {
    if id in st.campaigns && st.campaigns[id].status == Scheduled then
      (st.(campaigns := st.campaigns[id := st.campaigns[id].(status := Sending)]), true)
    else (st, false)
  }

  /** Of two claims of the same campaign, at most one succeeds. */
  lemma ClaimExclusive(st: Store, id: CampaignId)
    ensures !(Claim(st, id).1 && Claim(Claim(st, id).0, id).1)
  {
  }

  /** A conditional update that applies only while the campaign is still
      `sending`: sets `status` and, when `clear`, nulls `scheduled_at`. */
  function Release(st: Store, id: CampaignId, status: CampaignStatus, clear: bool): (r: Store)
    ensures id in st.campaigns && st.campaigns[id].status == Sending ==>
      var c := st.campaigns[id];
      r.campaigns == st.campaigns[id := c.(status := status, scheduledAt := if clear then None else c.scheduledAt)]
    ensures !(id in st.campaigns && st.campaigns[id].status == Sending) ==> r == st
    ensures r.(campaigns := st.campaigns) == st
  {
    if id in st.campaigns && st.campaigns[id].status == Sending then
      var c := st.campaigns[id];
      st.(campaigns := st.campaigns[id := c.(status := status, scheduledAt := if clear then None else c.scheduledAt)])
    else st
  }

  /** What one iteration of the loop did with a campaign. */
  datatype Outcome =
    | Skipped                                       // the claim found it no longer scheduled
    | DeliveredTo(recipients: nat, logCount: nat)   // delivered and marked sent
    | Unlocked                                      // nobody to send to: back to draft
    | Retried                                       // delivery threw: back to scheduled

  /** The campaign after an outcome, given the campaign before the claim. */
  predicate Settled(before: Campaign, after: Campaign, o: Outcome) {
    match o
    case Skipped => after == before
    case DeliveredTo(n, _) => n > 0 && after == before.(status := Sent, scheduledAt := None)
    case Unlocked => after == before.(status := Draft, scheduledAt := None)
    case Retried => after == before
  }

  /** Delivery of a campaign this tick has claimed (status `sending`): a
      release to `scheduled` on an error, to `draft` with no recipients. The
      outcome is settled against the campaign as it was before the claim. */
  function DeliverClaimed(claimed: Store, id: CampaignId, now: Time, fail: bool): (r: (Store, Outcome))
    requires id in claimed.campaigns && claimed.campaigns[id].status == Sending
    ensures var before := claimed.campaigns[id].(status := Scheduled);
      id in r.0.campaigns && !r.1.Skipped? && Settled(before, r.0.campaigns[id], r.1)
    ensures r.1.Retried? ==> fail
    ensures r.0.campaigns.Keys == claimed.campaigns.Keys
    ensures forall other :: other in claimed.campaigns && other != id ==> r.0.campaigns[other] == claimed.campaigns[other]
    ensures r.0.(campaigns := claimed.campaigns, logs := claimed.logs) == claimed
    ensures !r.1.DeliveredTo? ==> r.0.logs == claimed.logs
    ensures r.1.DeliveredTo? ==>
      && r.1.recipients == |CampaignRecipients(claimed, claimed.campaigns[id])|
      && |r.0.logs| == |claimed.logs| + r.1.logCount
      && r.0.logs[..|claimed.logs|] == claimed.logs
      && forall j :: |claimed.logs| <= j < |r.0.logs| ==> r.0.logs[j].campaignId == Some(id)
  {
    var res := DeliverCampaignNow(claimed, id, Some([Sending]), now, fail);
    if res.Failure? then (Release(claimed, id, Scheduled, false), Retried)
    else if res.value.recipients == 0 then
      assert res.value.store == claimed;
      (Release(claimed, id, Draft, true), Unlocked)
    else (res.value.store, DeliveredTo(res.value.recipients, res.value.logCount))
  }

  /** One iteration: claim, deliver with `allowedStatuses = ["sending"]`, and
      release on zero recipients or on an error. `fail` is the delivery's
      transaction throwing. */
  function ProcessOne(st: Store, id: CampaignId, now: Time, fail: bool): (r: (Store, Outcome))
    ensures r.1.Skipped? <==> !(id in st.campaigns && st.campaigns[id].status == Scheduled)
    ensures r.1.Skipped? || r.1.Retried? ==> r.0 == st
    ensures r.1.Retried? ==> fail
    ensures id in st.campaigns ==> id in r.0.campaigns && Settled(st.campaigns[id], r.0.campaigns[id], r.1)
    ensures r.0.campaigns.Keys == st.campaigns.Keys
    ensures forall other :: other in st.campaigns && other != id ==> r.0.campaigns[other] == st.campaigns[other]
    ensures r.0.(campaigns := st.campaigns, logs := st.logs) == st
    ensures !r.1.DeliveredTo? ==> r.0.logs == st.logs
    ensures r.1.DeliveredTo? ==>
      && r.1.recipients == |CampaignRecipients(st, st.campaigns[id])|
      && |r.0.logs| == |st.logs| + r.1.logCount
      && r.0.logs[..|st.logs|] == st.logs
      && forall j :: |st.logs| <= j < |r.0.logs| ==> r.0.logs[j].campaignId == Some(id)
  {
    var (claimed, ok) := Claim(st, id);
    if !ok then (st, Skipped)
    else
      assert claimed.campaigns[id].(status := Scheduled) == st.campaigns[id];
      assert CampaignRecipients(claimed, claimed.campaigns[id]) == CampaignRecipients(st, st.campaigns[id]);
      DeliverClaimed(claimed, id, now, fail)
  }

  /** A campaign delivered by one tick is skipped by any later claim, so two
      ticks over the same campaign send it once. */
  lemma NoDoubleSend(st: Store, id: CampaignId, now: Time, fail: bool, now2: Time, fail2: bool)
    requires ProcessOne(st, id, now, fail).1.DeliveredTo?
    ensures ProcessOne(ProcessOne(st, id, now, fail).0, id, now2, fail2) == (ProcessOne(st, id, now, fail).0, Skipped)
  {
  }

  /** The store writes of one iteration that can throw besides the delivery:
      the claim, the release to draft and the revert to scheduled. */
  datatype WriteFaults = WriteFaults(claim: bool, toDraft: bool, toScheduled: bool)

  /** How an iteration ends once those writes may throw: `Abort` is the
      exception escaping the `catch`, which rejects the whole tick. */
  datatype Step = Continue(store: Store, outcome: Outcome) | Abort(store: Store)

  /** One iteration with the claim and release writes able to throw. A throwing
      release to draft lands in the `catch`, which then reverts to scheduled. */
  function ProcessOneFaulty(st: Store, id: CampaignId, now: Time, fail: bool, w: WriteFaults): (r: Step)
    ensures w.claim ==> r == Abort(st)
    ensures r.Abort? && !w.claim ==>
      && w.toScheduled && id in st.campaigns && st.campaigns[id].status == Scheduled
      && r.store.campaigns == st.campaigns[id := st.campaigns[id].(status := Sending)]
    ensures r.Continue? && r.outcome.Retried? ==>
      id in r.store.campaigns && r.store.campaigns[id].status == Scheduled
    ensures r.Continue? && id in st.campaigns && st.campaigns[id].status == Scheduled ==>
      id in r.store.campaigns && r.store.campaigns[id].status != Sending
  {
    if w.claim then Abort(st)
    else
      var (claimed, ok) := Claim(st, id);
      if !ok then Continue(st, Skipped)
      else
        var res := DeliverCampaignNow(claimed, id, Some([Sending]), now, fail);
        if res.Success? && res.value.recipients > 0 then
          Continue(res.value.store, DeliveredTo(res.value.recipients, res.value.logCount))
        else if res.Success? && !w.toDraft then
          Continue(Release(claimed, id, Draft, true), Unlocked)
        else if w.toScheduled then Abort(claimed)
        else Continue(Release(claimed, id, Scheduled, false), Retried)
  }

  /** Without write faults an iteration is `ProcessOne`. */
  lemma FaultFreeIsProcessOne(st: Store, id: CampaignId, now: Time, fail: bool)
    ensures ProcessOneFaulty(st, id, now, fail, WriteFaults(false, false, false))
         == Continue(ProcessOne(st, id, now, fail).0, ProcessOne(st, id, now, fail).1)
  {
    var (claimed, ok) := Claim(st, id);
    if ok {
      var res := DeliverCampaignNow(claimed, id, Some([Sending]), now, fail);
      if res.Success? && res.value.recipients == 0 {
        assert res.value.store == claimed;
      }
    }
  }

  /** A revert that throws after a failed delivery leaves the claimed campaign
      in `sending` and ends the tick; nothing in the tick releases it later. */
  lemma StuckInSending(st: Store, id: CampaignId, now: Time)
    requires id in st.campaigns && st.campaigns[id].status == Scheduled
    requires |CampaignRecipients(st, st.campaigns[id])| > 0
    ensures var r := ProcessOneFaulty(st, id, now, true, WriteFaults(false, false, true));
      r.Abort? && id in r.store.campaigns && r.store.campaigns[id].status == Sending
  {
    var (claimed, ok) := Claim(st, id);
    assert claimed.campaigns[id].(status := Scheduled) == st.campaigns[id];
    assert CampaignRecipients(claimed, claimed.campaigns[id]) == CampaignRecipients(st, st.campaigns[id]);
  }

  /** The campaign side of the loop invariant after `i` iterations. */
  predicate CampaignsSettled(st: Store, cur: Store, batch: seq<CampaignId>, i: nat,
                             outcomes: seq<Outcome>, failing: set<CampaignId>)
    requires i <= |batch| && |outcomes| == i
    requires forall k :: 0 <= k < |batch| ==> batch[k] in st.campaigns
  {
    && cur.campaigns.Keys == st.campaigns.Keys
    && (forall id :: id in st.campaigns && id !in batch[..i] ==> cur.campaigns[id] == st.campaigns[id])
    && (forall k :: 0 <= k < i ==>
          !outcomes[k].Skipped? && Settled(st.campaigns[batch[k]], cur.campaigns[batch[k]], outcomes[k]))
    && (forall k :: 0 <= k < i && outcomes[k].Retried? ==> batch[k] in failing)
  }

  /** The log side of the loop invariant: the old log is a prefix and every
      new row belongs to a campaign already processed. */
  predicate LogsGrown(base: seq<LogRow>, cur: seq<LogRow>, done: seq<CampaignId>) {
    && |base| <= |cur| && cur[..|base|] == base
    && forall j :: |base| <= j < |cur| ==> cur[j].campaignId.Some? && cur[j].campaignId.value in done
  }

  /** One iteration keeps the campaign side of the invariant. */
  lemma CampaignStep(st: Store, cur: Store, batch: seq<CampaignId>, i: nat, outcomes: seq<Outcome>,
                     failing: set<CampaignId>, now: Time)
    requires i < |batch| && |outcomes| == i
    requires forall k :: 0 <= k < |batch| ==> batch[k] in st.campaigns && st.campaigns[batch[k]].status == Scheduled
    requires forall k, j :: 0 <= k < j < |batch| ==> batch[k] != batch[j]
    requires CampaignsSettled(st, cur, batch, i, outcomes, failing)
    ensures var r := ProcessOne(cur, batch[i], now, batch[i] in failing);
      CampaignsSettled(st, r.0, batch, i + 1, outcomes + [r.1], failing)
  {
    var id := batch[i];
    var r := ProcessOne(cur, id, now, id in failing);
    assert id !in batch[..i];
    assert batch[..i + 1] == batch[..i] + [id];
    var outs := outcomes + [r.1];
    forall k | 0 <= k < i + 1
      ensures !outs[k].Skipped? && Settled(st.campaigns[batch[k]], r.0.campaigns[batch[k]], outs[k])
    {
      if k < i {
        assert batch[k] != id;
      }
    }
  }

  /** The loop over the due batch; `failing` holds the campaigns whose delivery throws. */
  method ProcessBatch(st: Store, batch: seq<CampaignId>, now: Time, failing: set<CampaignId>)
    returns (cur: Store, outcomes: seq<Outcome>)
    requires forall i :: 0 <= i < |batch| ==> batch[i] in st.campaigns && st.campaigns[batch[i]].status == Scheduled
    requires forall i, j :: 0 <= i < j < |batch| ==> batch[i] != batch[j]
    ensures |outcomes| == |batch|
    ensures cur.campaigns.Keys == st.campaigns.Keys
    ensures forall id :: id in st.campaigns && id !in batch ==> cur.campaigns[id] == st.campaigns[id]
    ensures forall i :: 0 <= i < |batch| ==>
      !outcomes[i].Skipped? && Settled(st.campaigns[batch[i]], cur.campaigns[batch[i]], outcomes[i])
    ensures forall i :: 0 <= i < |batch| ==> cur.campaigns[batch[i]].status != Sending
    ensures forall i :: 0 <= i < |batch| && outcomes[i].Retried? ==> batch[i] in failing
    ensures cur.(campaigns := st.campaigns, logs := st.logs) == st
    ensures |st.logs| <= |cur.logs| && cur.logs[..|st.logs|] == st.logs
    ensures forall j :: |st.logs| <= j < |cur.logs| ==> cur.logs[j].campaignId.Some? && cur.logs[j].campaignId.value in batch
  {
    cur := st;
    outcomes := [];
    var i := 0;
    while i < |batch|
      invariant 0 <= i <= |batch| && |outcomes| == i
      invariant CampaignsSettled(st, cur, batch, i, outcomes, failing)
      invariant cur.(campaigns := st.campaigns, logs := st.logs) == st
      invariant LogsGrown(st.logs, cur.logs, batch[..i])
    {
      var id := batch[i];
      CampaignStep(st, cur, batch, i, outcomes, failing, now);
      var (next, o) := ProcessOne(cur, id, now, id in failing);
      LogsExtend(st.logs, cur.logs, next.logs, id, batch[..i]);
      assert batch[..i + 1] == batch[..i] + [id];
      cur := next;
      outcomes := outcomes + [o];
      i := i + 1;
    }
    assert batch[..i] == batch;
    forall k | 0 <= k < |batch| ensures cur.campaigns[batch[k]].status != Sending {
      assert Settled(st.campaigns[batch[k]], cur.campaigns[batch[k]], outcomes[k]);
    }
  }

  /** Appending rows of campaign `id` keeps the log's prefix and the origin of its new rows. */
  lemma LogsExtend(base: seq<LogRow>, mid: seq<LogRow>, next: seq<LogRow>, id: CampaignId, done: seq<CampaignId>)
    requires LogsGrown(base, mid, done)
    requires next == mid || (|mid| <= |next| && next[..|mid|] == mid
                             && forall j :: |mid| <= j < |next| ==> next[j].campaignId == Some(id))
    ensures LogsGrown(base, next, done + [id])
  {
    forall j | |base| <= j < |mid| ensures next[j] == mid[j] {
      assert next[..|mid|][j] == next[j];
    }
  }

  /** `runOnce()` on a store, with the clock reading `now`. */
  method RunOnce(st: Store, now: Time, failing: set<CampaignId>)
    returns (cur: Store, batch: seq<CampaignId>, outcomes: seq<Outcome>)
    ensures IsDueBatch(st, now, batch) && |outcomes| == |batch|
    ensures cur.campaigns.Keys == st.campaigns.Keys
    ensures forall id :: id in st.campaigns && id !in batch ==> cur.campaigns[id] == st.campaigns[id]
    ensures forall i :: 0 <= i < |batch| ==>
      !outcomes[i].Skipped? && Settled(st.campaigns[batch[i]], cur.campaigns[batch[i]], outcomes[i])
    ensures forall i :: 0 <= i < |batch| ==> cur.campaigns[batch[i]].status != Sending
    ensures forall i :: 0 <= i < |batch| && outcomes[i].Retried? ==> batch[i] in failing
    ensures cur.(campaigns := st.campaigns, logs := st.logs) == st
    ensures |st.logs| <= |cur.logs| && cur.logs[..|st.logs|] == st.logs
    ensures forall j :: |st.logs| <= j < |cur.logs| ==> cur.logs[j].campaignId.Some? && cur.logs[j].campaignId.value in batch
  {
    batch := SelectDue(st, now);
    assert forall i :: 0 <= i < |batch| ==> batch[i] in st.campaigns && st.campaigns[batch[i]].status == Scheduled by {
      forall i | 0 <= i < |batch| ensures batch[i] in st.campaigns && st.campaigns[batch[i]].status == Scheduled {
        assert batch[i] in DueIds(st, now);
      }
    }
    cur, outcomes := ProcessBatch(st, batch, now, failing);
  }

  /** The module-level `started` flag and the number of cron jobs registered. */
  datatype Cron = Cron(started: bool, registrations: nat)

  /** `startCampaignSchedulerCron()`. */
  function StartCron(c: Cron): (r: Cron)
    ensures r.started
    ensures c.started ==> r == c
    ensures !c.started ==> r.registrations == c.registrations + 1
  {
    if c.started then c else Cron(true, c.registrations + 1)
  }

  /** `n` calls in a row. */
  function StartTimes(c: Cron, n: nat): Cron
    decreases n
  {
    if n == 0 then c else StartTimes(StartCron(c), n - 1)
  }

  /** However often it is called, the process registers one cron job. */
  lemma {:induction false} StartIdempotent(c: Cron, n: nat)
    requires c.started
    ensures StartTimes(c, n) == c
  {
    if n > 0 {
      StartIdempotent(StartCron(c), n - 1);
    }
  }

  lemma RegisteredOnce(n: nat)
    requires n >= 1
    ensures StartTimes(Cron(false, 0), n) == Cron(true, 1)
  {
    StartIdempotent(Cron(true, 1), n - 1);
  }
}

=== FILE: seqs.dfy ===
/** Generic facts about sequence slices and concatenation, kept apart from the
    string and record lemmas that use them. */
module Seqs {

  /** Slicing a suffix is slicing the whole. */
  lemma SuffixSlices<T>(s: seq<T>, a: nat, k: nat)
    requires a + k <= |s|
    ensures s[a..][..k] == s[a..a + k]
    ensures s[a..][k..] == s[a + k..]
  {
  }

  /** A sequence is its three consecutive slices put back together. */
  lemma SplitThree<T>(s: seq<T>, a: nat, b: nat)
    requires a <= b <= |s|
    ensures s == s[..a] + s[a..b] + s[b..]
  {
  }

  lemma HeadTail<T>(s: seq<T>)
    requires |s| > 0
    ensures s == [s[0]] + s[1..]
  {
  }

  /** Dropping the first element of a concatenation drops it from the left part. */
  lemma TailOfAppend<T>(p: seq<T>, x: seq<T>)
    requires |p| > 0
    ensures (p + x)[0] == p[0]
    ensures (p + x)[1..] == p[1..] + x
  {
  }

  /** Dropping the last element of a concatenation drops it from the right part. */
  lemma InitOfAppend<T>(x: seq<T>, q: seq<T>)
    requires |q| > 0
    ensures (x + q)[|x + q| - 1] == q[|q| - 1]
    ensures (x + q)[..|x + q| - 1] == x + q[..|q| - 1]
  {
  }

  lemma EmptySides<T>(m: seq<T>)
    ensures [] + m + [] == m
  {
  }

  lemma EmptyLeft<T>(x: seq<T>)
    ensures [] + x == x
  {
  }

  lemma EmptyRight<T>(x: seq<T>)
    ensures x + [] == x
  {
  }

  lemma Regroup<T>(p: seq<T>, m: seq<T>, q: seq<T>)
    ensures p + m + q == p + (m + q)
  {
  }

  /** An empty middle part can be moved to the end. */
  lemma EmptyMiddle<T>(p: seq<T>, m: seq<T>, q: seq<T>)
    requires |m| == 0
    ensures p + m + q == (p + q) + m
  {
  }

  lemma Assoc5<T>(a: seq<T>, b: seq<T>, c: seq<T>, d: seq<T>, e: seq<T>)
    ensures a + (b + c + d) + e == (a + b) + c + (d + e)
  {
  }

  /** The tail of a sequence that starts with an optional element. */
  lemma OptionalHead<T>(h: seq<T>, rest: seq<T>)
    requires |h| <= 1
    ensures |h| == 0 ==> h + rest == rest
    ensures |h| == 1 ==> (h + rest)[0] == h[0] && (h + rest)[1..] == rest
  {
  }

  /** No element occurs twice. */
  predicate Distinct<T(==)>(s: seq<T>) {
    forall i, j :: 0 <= i < j < |s| ==> s[i] != s[j]
  }

  /** The tail of a sequence without repetitions has none either, and lacks the head. */
  lemma DistinctTail<T>(s: seq<T>)
    requires |s| > 0 && Distinct(s)
    ensures Distinct(s[1..])
    ensures s[0] !in s[1..]
  {
    var t := s[1..];
    forall i, j | 0 <= i < j < |t| ensures t[i] != t[j] {
      assert t[i] == s[i + 1] && t[j] == s[j + 1];
    }
    forall k | 0 <= k < |t| ensures t[k] != s[0] {
      assert t[k] == s[k + 1];
    }
  }

  /** Membership in a non-empty sequence is membership in its head or its tail. */
  lemma InHeadOrTail<T>(s: seq<T>, x: T)
    requires |s| > 0
    ensures x in s <==> x == s[0] || x in s[1..]
  {
    HeadTail(s);
  }

  /** An appended sequence keeps the old prefix and holds the new part after it. */
  lemma AppendParts<T>(a: seq<T>, b: seq<T>)
    ensures |a + b| == |a| + |b|
    ensures (a + b)[..|a|] == a
    ensures forall j :: |a| <= j < |a + b| ==> (a + b)[j] == b[j - |a|]
    ensures forall j :: |a| <= j < |a + b| ==> (a + b)[j] in b
  {
    forall j | |a| <= j < |a + b| ensures (a + b)[j] in b {
      assert (a + b)[j] == b[j - |a|];
    }
  }

  /** Writing an element back where it was changes nothing. */
  lemma UpdateUnchanged<T>(s: seq<T>, i: nat)
    requires i < |s|
    ensures s[i := s[i]] == s
  {
  }
}

=== FILE: sorting.dfy ===
/** Sorting a list of strings, as the city options are sorted before they are
    returned. */
module Sorting {

  /** Lexicographic order on character codes: a prefix comes first. */
  predicate StrLe(a: string, b: string) {
    |a| == 0 || (|b| > 0 && (a[0] < b[0] || (a[0] == b[0] && StrLe(a[1..], b[1..]))))
  }

  /** Any two strings compare one way or the other. */
  lemma {:induction false} StrLeTotal(a: string, b: string)
    ensures StrLe(a, b) || StrLe(b, a)
  {
    if |a| > 0 && |b| > 0 && a[0] == b[0] {
      StrLeTotal(a[1..], b[1..]);
    }
  }

  /** Each element is at most its successor. */
  predicate Sorted(s: seq<string>) {
    forall i :: 0 < i < |s| ==> StrLe(s[i - 1], s[i])
  }

  lemma SortedCons(a: string, rest: seq<string>)
    requires Sorted(rest)
    requires |rest| > 0 ==> StrLe(a, rest[0])
    ensures Sorted([a] + rest)
  {
    var s := [a] + rest;
    forall i | 0 < i < |s| ensures StrLe(s[i - 1], s[i]) {
      if i > 1 {
        assert s[i - 1] == rest[i - 2] && s[i] == rest[i - 1];
      }
    }
  }

  lemma SortedTail(s: seq<string>)
    requires |s| > 0 && Sorted(s)
    ensures Sorted(s[1..])
  {
    var t := s[1..];
    forall i | 0 < i < |t| ensures StrLe(t[i - 1], t[i]) {
      assert t[i - 1] == s[i] && t[i] == s[i + 1];
    }
  }

  /** Puts `x` in front of the first element it does not come after. */
  function Insert(x: string, s: seq<string>): (r: seq<string>)
    ensures |r| == |s| + 1
    ensures multiset(r) == multiset(s) + multiset{x}
    ensures r[0] == x || (|s| > 0 && r[0] == s[0])
    ensures Sorted(s) ==> Sorted(r)
  {
    if |s| == 0 || StrLe(x, s[0]) then
      var r := [x] + s;
      assert Sorted(s) ==> Sorted(r) by {
        if Sorted(s) { SortedCons(x, s); }
      }
      r
    else
      var rest := Insert(x, s[1..]);
      var r := [s[0]] + rest;
      assert s == [s[0]] + s[1..];
      assert Sorted(s) ==> Sorted(r) by {
        if Sorted(s) {
          SortedTail(s);
          StrLeTotal(x, s[0]);
          SortedCons(s[0], rest);
        }
      }
      r
  }

  /** Insertion sort. */
  function Sort(xs: seq<string>): (r: seq<string>)
    ensures Sorted(r)
    ensures multiset(r) == multiset(xs)
  {
    if |xs| == 0 then []
    else
      assert xs == [xs[0]] + xs[1..];
      Insert(xs[0], Sort(xs[1..]))
  }

  /** Sorting keeps exactly the elements it was given. */
  lemma SortMembers(xs: seq<string>)
    ensures forall c :: c in Sort(xs) <==> c in xs
    ensures |Sort(xs)| == |xs|
  {
    var r := Sort(xs);
    assert |r| == |multiset(r)| == |multiset(xs)| == |xs|;
    forall c ensures c in r <==> c in xs {
      assert c in r <==> c in multiset(r);
      assert c in xs <==> c in multiset(xs);
    }
  }
}

=== FILE: text.dfy ===
/** String helpers with JavaScript semantics: `trim`, `toLowerCase` and `split`. */
module Text {
  import opened Seqs

  /** Whitespace as `String.prototype.trim` understands it: the WhiteSpace and
      LineTerminator code points of ECMAScript. */
  predicate IsSpace(c: char) {
    || c == '\t' || c == '\n' || c == '\U{000B}' || c == '\U{000C}' || c == '\r' || c == ' '
    || c == '\U{00A0}' || c == '\U{1680}' || ('\U{2000}' <= c <= '\U{200A}')
    || c == '\U{2028}' || c == '\U{2029}' || c == '\U{202F}' || c == '\U{205F}'
    || c == '\U{3000}' || c == '\U{FEFF}'
  }

  predicate AllSpace(s: string) {
    forall i :: 0 <= i < |s| ==> IsSpace(s[i])
  }

  /** A string with neither leading nor trailing whitespace. */
  predicate IsTrimmed(s: string) {
    |s| == 0 || (!IsSpace(s[0]) && !IsSpace(s[|s| - 1]))
  }

  /** Drops the leading whitespace. */
  function TrimStart(s: string): string {
    if |s| > 0 && IsSpace(s[0]) then TrimStart(s[1..]) else s
  }

  /** `TrimStart` keeps the longest suffix that does not start with a space.
      Kept apart from the function so that its uses elsewhere stay cheap. */
  lemma {:induction false} TrimStartSpec(s: string)
    ensures var r := TrimStart(s);
      && |r| <= |s| && r == s[|s| - |r|..]
      && AllSpace(s[..|s| - |r|])
      && (|r| == 0 || !IsSpace(r[0]))
  {
    if |s| > 0 && IsSpace(s[0]) {
      var t := s[1..];
      TrimStartSpec(t);
      var r := TrimStart(t);
      assert TrimStart(s) == r;
      assert t[|t| - |r|..] == s[|s| - |r|..];
      var cut := s[..|s| - |r|];
      assert forall i :: 1 <= i < |cut| ==> cut[i] == t[..|t| - |r|][i - 1];
    }
  }

  /** Drops the trailing whitespace. */
  function TrimEnd(s: string): string {
    if |s| > 0 && IsSpace(s[|s| - 1]) then TrimEnd(s[..|s| - 1]) else s
  }

  /** `TrimEnd` keeps the longest prefix that does not end with a space. */
  lemma {:induction false} TrimEndSpec(s: string)
    ensures var r := TrimEnd(s);
      && |r| <= |s| && r == s[..|r|]
      && AllSpace(s[|r|..])
      && (|r| == 0 || !IsSpace(r[|r| - 1]))
  {
    if |s| > 0 && IsSpace(s[|s| - 1]) {
      TrimEndSpec(s[..|s| - 1]);
      var r := TrimEnd(s);
      assert s[..|s| - 1][..|r|] == s[..|r|];
      assert forall i :: |r| <= i < |s| - 1 ==> s[i] == s[..|s| - 1][i];
    }
  }

  /** `s.trim()`. */
  function Trim(s: string): (r: string)
    ensures IsTrimmed(r)
    ensures |r| <= |s|
  {
    TrimStartSpec(s);
    TrimEndSpec(TrimStart(s));
    TrimEnd(TrimStart(s))
  }

  /** `Trim(s)` is a slice of `s` with only whitespace cut off on either side. */
  lemma TrimSplit(s: string) returns (a: nat, b: nat)
    ensures a <= b <= |s|
    ensures Trim(s) == s[a..b]
    ensures AllSpace(s[..a]) && AllSpace(s[b..])
  {
    TrimStartSpec(s);
    var t := TrimStart(s);
    TrimEndSpec(t);
    a := |s| - |t|;
    assert t == s[a..];
    var k := |TrimEnd(t)|;
    b := a + k;
    SuffixSlices(s, a, k);
  }

  lemma TrimStartSkips(p: string, x: string)
    requires AllSpace(p)
    requires |x| == 0 || !IsSpace(x[0])
    ensures TrimStart(p + x) == x
    decreases |p|
  {
    if |p| > 0 {
      TailOfAppend(p, x);
      TrimStartSkips(p[1..], x);
    } else {
      EmptyLeft(x);
    }
  }

  lemma TrimEndSkips(x: string, q: string)
    requires AllSpace(q)
    requires |x| == 0 || !IsSpace(x[|x| - 1])
    ensures TrimEnd(x + q) == x
    decreases |q|
  {
    if |q| > 0 {
      InitOfAppend(x, q);
      TrimEndSkips(x, q[..|q| - 1]);
    } else {
      EmptyRight(x);
    }
  }

  /** Trimming is determined by the decomposition: whitespace, a trimmed core, whitespace. */
  lemma {:induction false} TrimUnique(p: string, m: string, q: string)
    requires AllSpace(p) && AllSpace(q) && IsTrimmed(m)
    ensures Trim(p + m + q) == m
  {
    if |m| == 0 {
      EmptyMiddle(p, m, q);
      AllSpaceAppend(p, q);
      TrimStartSkips(p + q, m);
    } else {
      Regroup(p, m, q);
      TrimStartSkips(p, m + q);
      TrimEndSkips(m, q);
    }
  }

  /** A trimmed string is its own trim. */
  lemma TrimTrimmed(m: string)
    requires IsTrimmed(m)
    ensures Trim(m) == m
  {
    EmptySides(m);
    TrimUnique([], m, []);
  }

  /** Trimming twice is trimming once. */
  lemma TrimIdempotent(s: string)
    ensures Trim(Trim(s)) == Trim(s)
  {
    TrimTrimmed(Trim(s));
  }

  lemma AllSpaceAppend(a: string, b: string)
    requires AllSpace(a) && AllSpace(b)
    ensures AllSpace(a + b)
  {
  }

  /** Surrounding whitespace never changes the trimmed value. */
  lemma TrimIgnoresPadding(pre: string, s: string, post: string)
    requires AllSpace(pre) && AllSpace(post)
    ensures Trim(pre + s + post) == Trim(s)
  {
    var a, b := TrimSplit(s);
    var p, m, q := s[..a], s[a..b], s[b..];
    var left, right := pre + p, q + post;
    AllSpaceAppend(pre, p);
    AllSpaceAppend(q, post);
    SplitThree(s, a, b);
    Assoc5(pre, p, m, q, post);
    TrimUnique(left, m, right);
  }

  /** ASCII case folding of one character. */
  function LowerChar(c: char): char {
    if 'A' <= c <= 'Z' then (c as int + 32) as char else c
  }

  /** `s.toLowerCase()` restricted to ASCII letters. */
  function Lower(s: string): (r: string)
    ensures |r| == |s|
    ensures forall i :: 0 <= i < |s| ==> r[i] == LowerChar(s[i])
  {
    seq(|s|, i requires 0 <= i < |s| => LowerChar(s[i]))
  }

  lemma LowerIdempotent(s: string)
    ensures Lower(Lower(s)) == Lower(s)
  {
  }

  lemma LowerKeepsSpaces(s: string)
    ensures AllSpace(s) <==> AllSpace(Lower(s))
    ensures IsTrimmed(s) <==> IsTrimmed(Lower(s))
  {
  }

  lemma LowerAppend(a: string, b: string)
    ensures Lower(a + b) == Lower(a) + Lower(b)
  {
  }

  /** Lower-casing and trimming commute, since folding never touches whitespace. */
  lemma LowerTrimCommute(s: string)
    ensures Trim(Lower(s)) == Lower(Trim(s))
  {
    var a, b := TrimSplit(s);
    var p, m, q := s[..a], s[a..b], s[b..];
    SplitThree(s, a, b);
    LowerAppend(p + m, q);
    LowerAppend(p, m);
    LowerKeepsSpaces(p);
    LowerKeepsSpaces(m);
    LowerKeepsSpaces(q);
    TrimUnique(Lower(p), Lower(m), Lower(q));
  }

  /** `s.split(sep)` for a one-character separator. */
  function Split(s: string, sep: char): (parts: seq<string>)
    ensures |parts| >= 1
    ensures forall i :: 0 <= i < |parts| ==> sep !in parts[i]
  {
    if |s| == 0 then [""]
    else
      var rest := Split(s[1..], sep);
      if s[0] == sep then [""] + rest
      else [[s[0]] + rest[0]] + rest[1..]
  }

  /** `parts.join(sep)`. */
  function Join(parts: seq<string>, sep: char): string
    requires |parts| >= 1
  {
    if |parts| == 1 then parts[0] else parts[0] + [sep] + Join(parts[1..], sep)
  }

  /** Joining the pieces of a split with the same separator gives back the string. */
  lemma {:induction false} JoinSplit(s: string, sep: char)
    ensures Join(Split(s, sep), sep) == s
  {
    if |s| > 0 {
      var rest := Split(s[1..], sep);
      JoinSplit(s[1..], sep);
      if s[0] == sep {
        TailOfAppend([""], rest);
      } else {
        TailOfAppend([[s[0]] + rest[0]], rest[1..]);
        if |rest| == 1 {
          EmptyRight([[s[0]] + rest[0]]);
        }
      }
    }
  }
}

=== FILE: users.dfy ===
/** The user controller: a user's own profile update and password change, the
    administrative update and delete with their self-only guard for the `user`
    role, the filtered user list and the city options of its filter bar. */
module Users {
  import opened Wrappers
  import opened Seqs
  import opened Text
  import opened Json
  import opened Domain
  import opened Http
  import opened Pagination
  import opened Filters
  import opened Sorting

  /** The index of the row `where: { user_id }` addresses. */
  function FindUser(users: seq<User>, uid: UserId): (r: Option<nat>)
    ensures r.Some? ==> r.value < |users| && users[r.value].id == uid
    ensures r.None? <==> forall u :: u in users ==> u.id != uid
  {
    if |users| == 0 then None
    else if users[0].id == uid then Some(0)
    else
      var rest := FindUser(users[1..], uid);
      assert forall u :: u in users ==> u == users[0] || u in users[1..];
      if rest.None? then None else Some(rest.value + 1)
  }

  /** `req.user?.userId` is truthy: present and not 0. */
  predicate Authenticated(caller: Option<int>) {
    caller.Some? && caller.value != 0
  }

  // ---------------------------------------------------------------- updateMe

  /** The `name`, `phone` and `city` of the body; an absent field is `Undefined`. */
  datatype MeBody = MeBody(name: Value, phone: Value, city: Value)

  /** `String(v).trim()`, or null when that is empty. */
  function TextOrNull(v: Value): (r: Option<string>)
    ensures r.None? <==> Trim(JsString(v)) == ""
    ensures r.Some? ==> r.value == Trim(JsString(v)) && IsTrimmed(r.value)
  {
    var t := Trim(JsString(v));
    if t == "" then None else Some(t)
  }

  const NameEmpty: string := "Name cannot be empty."
  const NothingToUpdate: string := "No valid fields to update."

  predicate NameAcceptable(v: Value) {
    v.Undefined? || Trim(JsString(v)) != ""
  }

  predicate NoMeFields(body: MeBody) {
    body.name.Undefined? && body.phone.Undefined? && body.city.Undefined?
  }

  /** The profile row after `updateMe`: a field the body leaves out keeps
      its value; nothing but the name, phone and city changes. */
  function Edited(u: User, body: MeBody): (u': User)
    ensures u'.(name := u.name, phone := u.phone, city := u.city) == u
    ensures body.name.Undefined? ==> u'.name == u.name
    ensures !body.name.Undefined? ==> u'.name == Trim(JsString(body.name))
    ensures body.phone.Undefined? ==> u'.phone == u.phone
    ensures !body.phone.Undefined? ==> u'.phone == TextOrNull(body.phone)
    ensures body.city.Undefined? ==> u'.city == u.city
    ensures !body.city.Undefined? ==> u'.city == TextOrNull(body.city)
  {
    u.(name := if body.name.Undefined? then u.name else Trim(JsString(body.name)),
       phone := if body.phone.Undefined? then u.phone else TextOrNull(body.phone),
       city := if body.city.Undefined? then u.city else TextOrNull(body.city))
  }

  /** `updateMe` for the signed-in `caller`: the name is trimmed and must not
      be blank, phone and city are trimmed and a blank one is cleared. */
  function UpdateMe(st: Store, caller: Option<int>, body: MeBody): (r: Result<Store, HttpError>)
    ensures !Authenticated(caller) ==> r == Failure(HttpError(Unauthorized, "Unauthorized"))
    ensures Authenticated(caller) && !NameAcceptable(body.name) ==> r == Failure(HttpError(BadRequest, NameEmpty))
    ensures Authenticated(caller) && NoMeFields(body) ==> r == Failure(HttpError(BadRequest, NothingToUpdate))
    ensures r.Success? <==>
      Authenticated(caller) && NameAcceptable(body.name) && !NoMeFields(body) && FindUser(st.users, caller.value).Some?
    ensures r.Success? ==>
      var i := FindUser(st.users, caller.value).value;
      r.value == st.(users := st.users[i := Edited(st.users[i], body)])
  {
    if !Authenticated(caller) then Failure(HttpError(Unauthorized, "Unauthorized"))
    else if !NameAcceptable(body.name) then Failure(HttpError(BadRequest, NameEmpty))
    else if NoMeFields(body) then Failure(HttpError(BadRequest, NothingToUpdate))
    else
      var found := FindUser(st.users, caller.value);
      if found.None? then Failure(HttpError(ServerError, ""))
      else Success(st.(users := st.users[found.value := Edited(st.users[found.value], body)]))
  }

  /** What `updateMe` stores is always trimmed, and a stored name is never blank. */
  lemma UpdateMeStoresTrimmed(st: Store, caller: Option<int>, body: MeBody)
    requires UpdateMe(st, caller, body).Success?
    ensures var i := FindUser(st.users, caller.value).value;
      && i < |UpdateMe(st, caller, body).value.users|
      && var u' := UpdateMe(st, caller, body).value.users[i];
      && (!body.name.Undefined? ==> IsTrimmed(u'.name) && |u'.name| > 0)
      && (!body.phone.Undefined? && u'.phone.Some? ==> IsTrimmed(u'.phone.value) && |u'.phone.value| > 0)
      && (!body.city.Undefined? && u'.city.Some? ==> IsTrimmed(u'.city.value) && |u'.city.value| > 0)
  {
  }

  /** Applying the same profile to an edited row changes nothing more. */
  lemma EditedIdempotent(u: User, body: MeBody)
    ensures Edited(Edited(u, body), body) == Edited(u, body)
  {
  }

  /** Sending the same profile twice is sending it once. */
  lemma UpdateMeIdempotent(st: Store, caller: Option<int>, body: MeBody)
    requires UpdateMe(st, caller, body).Success?
    ensures var st' := UpdateMe(st, caller, body).value;
      UpdateMe(st', caller, body) == Success(st')
  {
    var st' := UpdateMe(st, caller, body).value;
    var i := FindUser(st.users, caller.value).value;
    assert Ids(st'.users) == Ids(st.users);
    FindUserByIds(st'.users, st.users, caller.value);
    EditedIdempotent(st.users[i], body);
    UpdateUnchanged(st'.users, i);
  }

  /** The lookup depends only on the ids, position by position. */
  lemma {:induction false} FindUserByIds(a: seq<User>, b: seq<User>, uid: UserId)
    requires Ids(a) == Ids(b)
    ensures FindUser(a, uid) == FindUser(b, uid)
  {
    if |a| > 0 {
      assert a[0].id == Ids(a)[0] == Ids(b)[0] == b[0].id;
      assert Ids(a[1..]) == Ids(a)[1..] && Ids(b[1..]) == Ids(b)[1..];
      FindUserByIds(a[1..], b[1..], uid);
    }
  }

  /** A `null` name is not refused as empty: `String(null)` is the text "null",
      which is stored as the user's name. */
  lemma NullNameStoredAsText(st: Store, caller: Option<int>)
    requires Authenticated(caller) && FindUser(st.users, caller.value).Some?
    ensures UpdateMe(st, caller, MeBody(Null, Undefined, Undefined)).Success?
    ensures UpdateMe(st, caller, MeBody(Null, Undefined, Undefined)).value.users[FindUser(st.users, caller.value).value].name
         == "null"
  {
    var body := MeBody(Null, Undefined, Undefined);
    NullTrimmed();
    assert NameAcceptable(body.name) && !NoMeFields(body);
  }

  lemma NullTrimmed()
    ensures Trim(JsString(Null)) == "null"
  {
    assert JsString(Null) == "null";
    TrimTrimmed("null");
  }

  /** A body field with `null` read as the empty string, as a blank field is. */
  function NullAsEmpty(v: Value): (r: Value)
    ensures v.Null? ==> r == Str("")
    ensures !v.Null? ==> r == v
  {
    if v.Null? then Str("") else v
  }

  /** `updateMe` with `null` treated like a blank field: a null name is
      refused and a null phone or city clears the column. */
  function UpdateMeNullAware(st: Store, caller: Option<int>, body: MeBody): (r: Result<Store, HttpError>)
    ensures Authenticated(caller) && body.name.Null? ==> r == Failure(HttpError(BadRequest, NameEmpty))
    ensures r.Success? ==> Authenticated(caller) && FindUser(st.users, caller.value).Some?
    ensures r.Success? ==>
      var i := FindUser(st.users, caller.value).value;
      && i < |r.value.users|
      && (body.phone.Null? ==> r.value.users[i].phone.None?)
      && (body.city.Null? ==> r.value.users[i].city.None?)
      && (body.name.Str? ==> r.value.users[i].name == Trim(body.name.s))
  {
    CleanedFacts(body);
    UpdateMe(st, caller, Cleaned(body))
  }

  /** The body with each `null` read as the empty string. */
  function Cleaned(body: MeBody): MeBody {
    MeBody(NullAsEmpty(body.name), NullAsEmpty(body.phone), NullAsEmpty(body.city))
  }

  /** The cleaned body refuses a null name, clears a null phone or city and
      keeps a string name. */
  lemma CleanedFacts(body: MeBody)
    ensures var c := Cleaned(body);
      && (body.name.Null? ==> !NameAcceptable(c.name))
      && (body.phone.Null? ==> !c.phone.Undefined? && TextOrNull(c.phone).None?)
      && (body.city.Null? ==> !c.city.Undefined? && TextOrNull(c.city).None?)
      && (body.name.Str? ==> JsString(c.name) == body.name.s)
  {
    BlankClears();
  }

  /** The empty string is refused as a name and clears a phone or city. */
  lemma BlankClears()
    ensures !NameAcceptable(Str("")) && TextOrNull(Str("")).None?
  {
  }

  /** Without a `null` in the body the corrected update is the original one. */
  lemma NullAwareAgreesWithoutNull(st: Store, caller: Option<int>, body: MeBody)
    requires !body.name.Null? && !body.phone.Null? && !body.city.Null?
    ensures UpdateMeNullAware(st, caller, body) == UpdateMe(st, caller, body)
  {
    assert MeBody(NullAsEmpty(body.name), NullAsEmpty(body.phone), NullAsEmpty(body.city)) == body;
  }

  // ---------------------------------------------------------- changeMyPassword

  const PasswordsRequired: string := "currentPassword and newPassword are required."
  const PasswordTooShort: string := "New password must be at least 6 characters."
  const MinPasswordLength: int := 6

  /** The checks made before the stored hash is read. */
  predicate PasswordInputOk(current: Value, next: Value) {
    Truthy(current) && Truthy(next) && |JsString(next)| >= MinPasswordLength
  }

  /** `changeMyPassword`. `verify(plain, hash)` is the hash comparison and
      `hash(plain)` the new hash; both stand for the hashing library. */
  function ChangeMyPassword(st: Store, caller: Option<int>, current: Value, next: Value,
                            verify: (string, string) -> bool, hash: string -> string): (r: Result<Store, HttpError>)
    ensures !Authenticated(caller) ==> r == Failure(HttpError(Unauthorized, "Unauthorized"))
    ensures Authenticated(caller) && !(Truthy(current) && Truthy(next))
      ==> r == Failure(HttpError(BadRequest, PasswordsRequired))
    ensures Authenticated(caller) && Truthy(current) && Truthy(next) && |JsString(next)| < MinPasswordLength
      ==> r == Failure(HttpError(BadRequest, PasswordTooShort))
    ensures Authenticated(caller) && PasswordInputOk(current, next) && FindUser(st.users, caller.value).None?
      ==> r == Failure(HttpError(NotFound, "User not found"))
    ensures r.Success? <==>
      && Authenticated(caller) && PasswordInputOk(current, next) && FindUser(st.users, caller.value).Some?
      && verify(JsString(current), st.users[FindUser(st.users, caller.value).value].passwordHash)
    ensures r.Success? ==>
      var i := FindUser(st.users, caller.value).value;
      r.value == st.(users := st.users[i := st.users[i].(passwordHash := hash(JsString(next)))])
  {
    if !Authenticated(caller) then Failure(HttpError(Unauthorized, "Unauthorized"))
    else if !(Truthy(current) && Truthy(next)) then Failure(HttpError(BadRequest, PasswordsRequired))
    else if |JsString(next)| < MinPasswordLength then Failure(HttpError(BadRequest, PasswordTooShort))
    else
      var found := FindUser(st.users, caller.value);
      if found.None? then Failure(HttpError(NotFound, "User not found"))
      else
        var u := st.users[found.value];
        if !verify(JsString(current), u.passwordHash) then
          Failure(HttpError(BadRequest, "Current password is incorrect."))
        else Success(st.(users := st.users[found.value := u.(passwordHash := hash(JsString(next)))]))
  }

  /** Missing and short passwords are refused before any comparison: the
      answer depends neither on the store nor on the hashing library. */
  lemma InputCheckedBeforeCompare(st: Store, st2: Store, caller: Option<int>, current: Value, next: Value,
                                  verify: (string, string) -> bool, hash: string -> string,
                                  verify2: (string, string) -> bool, hash2: string -> string)
    requires Authenticated(caller) && !PasswordInputOk(current, next)
    ensures ChangeMyPassword(st, caller, current, next, verify, hash)
         == ChangeMyPassword(st2, caller, current, next, verify2, hash2)
    ensures ChangeMyPassword(st, caller, current, next, verify, hash).Failure?
  {
  }

  // --------------------------------------------------------------- updateUser

  /** The `city` and `is_active` of the body; an absent field is `Undefined`. */
  datatype AdminBody = AdminBody(city: Value, isActive: Value)

  const OnlyCityStatus: string := "Only city/status can be updated."

  /** `is_active` as stored: a string is true exactly when it lower-cases to
      "true"; any other value goes by truthiness. */
  function ActiveFlag(v: Value): (b: bool)
    ensures v.Str? ==> (b <==> Lower(v.s) == "true")
    ensures !v.Str? ==> b == Truthy(v)
  {
    if v.Str? then Lower(v.s) == "true" else Truthy(v)
  }

  /** The string test ignores case. */
  lemma ActiveFlagIgnoresCase(s: string)
    ensures ActiveFlag(Str(Lower(s))) == ActiveFlag(Str(s))
  {
    LowerIdempotent(s);
  }

  /** The column a `city` value can be written to: a string, or null. */
  predicate CityStorable(v: Value) {
    v.Undefined? || v.Null? || v.Str?
  }

  /** `data.city`: the empty string and null clear it; another string is
      stored as given, untrimmed. */
  function CityColumn(v: Value): (c: Option<string>)
    requires v.Null? || v.Str?
    ensures c.None? <==> v.Null? || v == Str("")
    ensures c.Some? ==> v == Str(c.value)
  {
    if v.Null? || v.s == "" then None else Some(v.s)
  }

  /** `updateUser` by a caller with id `callerId` and role `role`, for the
      `id` path parameter (`None` when it is not a number). */
  function UpdateUser(st: Store, callerId: UserId, role: Role, target: Option<int>, body: AdminBody)
    : (r: Result<Store, HttpError>)
    ensures role == UserRole && target != Some(callerId) ==> r == Failure(HttpError(Forbidden, "Forbidden"))
    ensures !(role == UserRole && target != Some(callerId)) && body.city.Undefined? && body.isActive.Undefined?
      ==> r == Failure(HttpError(BadRequest, OnlyCityStatus))
    ensures r.Success? <==>
      && (role == UserRole ==> target == Some(callerId))
      && !(body.city.Undefined? && body.isActive.Undefined?)
      && CityStorable(body.city)
      && target.Some? && FindUser(st.users, target.value).Some?
    ensures r.Success? ==>
      var i := FindUser(st.users, target.value).value;
      var u := st.users[i];
      && |r.value.users| == |st.users|
      && r.value == st.(users := st.users[i := r.value.users[i]])
      && var u' := r.value.users[i];
      && u'.(city := u.city, isActive := u.isActive) == u
      && u'.city == (if body.city.Undefined? then u.city else CityColumn(body.city))
      && u'.isActive == (if body.isActive.Undefined? then u.isActive else ActiveFlag(body.isActive))
  {
    if role == UserRole && target != Some(callerId) then Failure(HttpError(Forbidden, "Forbidden"))
    else if body.city.Undefined? && body.isActive.Undefined? then Failure(HttpError(BadRequest, OnlyCityStatus))
    else if !CityStorable(body.city) || target.None? then Failure(HttpError(ServerError, ""))
    else
      var found := FindUser(st.users, target.value);
      if found.None? then Failure(HttpError(ServerError, ""))
      else
        var u := st.users[found.value];
        var u' := u.(city := if body.city.Undefined? then u.city else CityColumn(body.city),
                     isActive := if body.isActive.Undefined? then u.isActive else ActiveFlag(body.isActive));
        Success(st.(users := st.users[found.value := u']))
  }

  /** A caller with the `user` role changes nobody's row but their own. */
  lemma UserRoleOnlySelf(st: Store, callerId: UserId, target: Option<int>, body: AdminBody)
    requires UpdateUser(st, callerId, UserRole, target, body).Success?
    ensures target == Some(callerId)
    ensures forall i :: 0 <= i < |st.users| && st.users[i].id != callerId ==>
      UpdateUser(st, callerId, UserRole, target, body).value.users[i] == st.users[i]
  {
  }

  // --------------------------------------------------------------- deleteUser

  /** The outcome of `deleteUser`, which has no `catch`: a failing delete
      sends no response at all. */
  datatype DeleteReply = Deleted(store: Store) | Refused(error: HttpError) | NoReply

  /** `deleteUser` by a caller with id `callerId` and role `role`. Rows that
      refer to the user are left as they are. */
  function DeleteUser(st: Store, callerId: UserId, role: Role, target: Option<int>): (r: DeleteReply)
    ensures role == UserRole && target != Some(callerId) ==> r == Refused(HttpError(Forbidden, "Forbidden"))
    ensures r.Deleted? <==>
      (role == UserRole ==> target == Some(callerId)) && target.Some? && FindUser(st.users, target.value).Some?
    ensures r.Refused? ==> r.error.status == Forbidden
    ensures r.Deleted? ==>
      && |r.store.users| == |st.users| - 1
      && r.store == st.(users := r.store.users)
      && (forall u :: u in r.store.users ==> u in st.users)
      && (UniqueUserIds(st.users) ==> forall u :: u in r.store.users <==> u in st.users && u.id != target.value)
  {
    if role == UserRole && target != Some(callerId) then Refused(HttpError(Forbidden, "Forbidden"))
    else if target.None? then NoReply
    else
      var found := FindUser(st.users, target.value);
      if found.None? then NoReply
      else
        var i := found.value;
        var rest := st.users[..i] + st.users[i + 1..];
        RemoveAt(st.users, i);
        Deleted(st.(users := rest))
  }

  /** Removing the row at `i` keeps every other row; with unique ids the
      rows left are exactly those with another id. */
  lemma RemoveAt(users: seq<User>, i: nat)
    requires i < |users|
    ensures var rest := users[..i] + users[i + 1..];
      && |rest| == |users| - 1
      && (forall u :: u in rest ==> u in users)
      && (UniqueUserIds(users) ==> forall u :: u in rest <==> u in users && u.id != users[i].id)
  {
    var rest := users[..i] + users[i + 1..];
    forall u | u in rest ensures u in users && exists k :: 0 <= k < |users| && k != i && users[k] == u {
      var j :| 0 <= j < |rest| && rest[j] == u;
      if j < i { assert rest[j] == users[j]; } else { assert rest[j] == users[j + 1]; }
    }
    if UniqueUserIds(users) {
      forall u | u in users && u.id != users[i].id ensures u in rest {
        var k :| 0 <= k < |users| && users[k] == u;
        if k < i { assert rest[k] == u; } else { assert k > i && rest[k - 1] == u; }
      }
    }
  }

  // ----------------------------------------------------------------- getUsers

  /** The `role`, `city`, `status` and `preference` query parameters as received. */
  datatype UserQuery = UserQuery(role: string, city: string, status: string, preference: string)

  /** The filters of the user list. A role or city other than "all" must
      match exactly; "active" and "inactive" select by status; a preference
      naming a category needs that legacy flag set. */
  predicate UserMatches(u: User, prefs: map<UserId, Preference>, q: UserQuery) {
    var city, status, pref := Trim(q.city), Trim(q.status), ParseCategory(Trim(q.preference));
    && Keeps(q.role, RoleName(u.role))
    && (city == "" || city == "all" || u.city == Some(city))
    && (status == "active" ==> u.isActive)
    && (status == "inactive" ==> !u.isActive)
    && (pref.Some? ==> u.id in prefs && LegacyFlag(prefs[u.id], pref.value))
  }

  function UserTest(prefs: map<UserId, Preference>, q: UserQuery): User -> bool {
    u => UserMatches(u, prefs, q)
  }

  function MatchingUsers(ordered: seq<User>, prefs: map<UserId, Preference>, q: UserQuery): (r: seq<User>)
    ensures forall u :: u in r <==> u in ordered && UserMatches(u, prefs, q)
  {
    Filter(ordered, UserTest(prefs, q))
  }

  /** `getUsers` over the directory in the list's order (newest first). */
  function ListUsers(ordered: seq<User>, prefs: map<UserId, Preference>, q: UserQuery,
                     pageRaw: Option<int>, limitRaw: Option<int>): (r: (seq<User>, PageMeta))
    ensures forall u :: u in r.0 ==> u in ordered && UserMatches(u, prefs, q)
    ensures r.1.total == |MatchingUsers(ordered, prefs, q)|
    ensures MinLimit <= r.1.limit <= WideMaxLimit && |r.0| <= r.1.limit
    ensures 1 <= r.1.page <= r.1.totalPages && (r.1.hasNext <==> r.1.page < r.1.totalPages)
  {
    var matching := MatchingUsers(ordered, prefs, q);
    var r := Paginate(matching, pageRaw, limitRaw, WideMaxLimit);
    assert forall u :: u in r.0 ==> u in matching;
    r
  }

  /** The default query ("all", "all", "all", "any") counts the whole directory. */
  lemma DefaultQueryCountsEveryone(ordered: seq<User>, prefs: map<UserId, Preference>)
    ensures MatchingUsers(ordered, prefs, UserQuery("all", "all", "all", "any")) == ordered
  {
    var q := UserQuery("all", "all", "all", "any");
    forall u | u in ordered ensures UserTest(prefs, q)(u) {
      DefaultQueryMatches(u, prefs);
    }
    FilterAllKept(ordered, UserTest(prefs, q));
  }

  lemma DefaultQueryMatches(u: User, prefs: map<UserId, Preference>)
    ensures UserMatches(u, prefs, UserQuery("all", "all", "all", "any"))
  {
    TrimTrimmed("all");
    AnyPreference();
    AllKeepsEverything(RoleName(u.role));
  }

  lemma AnyPreference()
    ensures ParseCategory(Trim("any")).None?
  {
    assert ParseCategory("any").None?;
    TrimTrimmed("any");
  }

  // ----------------------------------------------------------- getUserOptions

  /** The distinct non-null `city` values of the directory. */
  function RawCities(users: seq<User>): (r: seq<string>)
    ensures forall c :: c in r <==> exists u :: u in users && u.city == Some(c)
    ensures Distinct(r)
  {
    if |users| == 0 then []
    else
      var rest := RawCities(users[1..]);
      assert forall u :: u in users <==> u == users[0] || u in users[1..];
      var c := users[0].city;
      if c.Some? && c.value !in rest then
        var r := [c.value] + rest;
        assert forall i :: 0 < i < |r| ==> r[i] == rest[i - 1];
        r
      else rest
  }

  /** The cities trimmed, with the blank ones dropped. */
  function TrimmedNonBlank(xs: seq<string>): (r: seq<string>)
    ensures forall c :: c in r <==> |c| > 0 && exists x :: x in xs && Trim(x) == c
  {
    if |xs| == 0 then []
    else
      var rest := TrimmedNonBlank(xs[1..]);
      assert forall x :: x in xs <==> x == xs[0] || x in xs[1..];
      var t := Trim(xs[0]);
      if t == "" then rest else [t] + rest
  }

  /** The `cities` of `getUserOptions`: every trimmed non-blank city of the
      directory, sorted. Two spellings that differ only in padding give two
      equal entries. */
  function CityOptions(users: seq<User>): (r: seq<string>)
    ensures Sorted(r)
    ensures forall c :: c in r <==> |c| > 0 && exists u :: u in users && u.city.Some? && Trim(u.city.value) == c
    ensures forall c :: c in r ==> IsTrimmed(c) && |c| > 0
    ensures multiset(r) == multiset(TrimmedNonBlank(RawCities(users)))
  {
    var cities := TrimmedNonBlank(RawCities(users));
    var r := Sort(cities);
    SortMembers(cities);
    forall c | c in r ensures IsTrimmed(c) {
      var x :| x in RawCities(users) && Trim(x) == c;
    }
    r
  }

  /** The roles, statuses and preferences the filter bar offers. */
  const RoleOptions: seq<string> := ["admin", "creator", "viewer", "user"]
  const StatusOptions: seq<string> := ["all", "active", "inactive"]
  const PreferenceOptions: seq<string> := ["any", "offers", "order_updates", "newsletter"]

  /** Every offered role is the stored name of a role. */
  lemma RoleOptionsAreRoles()
    ensures forall s :: s in RoleOptions <==> exists r: Role :: RoleName(r) == s
  {
    assert RoleName(AdminRole) == RoleOptions[0];
    assert RoleName(CreatorRole) == RoleOptions[1];
    assert RoleName(ViewerRole) == RoleOptions[2];
    assert RoleName(UserRole) == RoleOptions[3];
  }
}

=== FILE: wrappers.dfy ===
/** Failure-carrying datatypes shared by every module of the model. */
module Wrappers {

  /** A value that may be absent: JavaScript's `null`/`undefined` for a nullable column. */
  datatype Option<+T> = None | Some(value: T) {
    function GetOr(default: T): T {
      match this
      case Some(v) => v
      case None => default
    }
  }

  /** The outcome of an operation that either succeeds or reports an error. */
  datatype Result<+R, +E> = Success(value: R) | Failure(error: E)
}
